=== FILE: README.md ===
# ApiRation core, modelled in Dafny

ApiRation is a Symfony bundle for JSON APIs. This project models its request and
response core as pure functions over immutable data and proves what those
functions promise:

- **ExceptionResolver** (`exception_resolver.dfy`) turns exceptions into JSON error
  responses `{message, errors}`. It covers bad requests, not-found, duplicate rows,
  Doctrine graph failures, foreign-key violations and HTTP exceptions. The response
  carries the fixed security headers.
- **BadRequestException** (`bad_request.dfy`) is the serialisation of field errors
  into `[{fieldName, messages}]`.
- **ControllerActionArgumentResolver** is split across two modules:
  - `class_names.dfy` resolves an argument's class name from its `@param` tag, the
    `use` list of the controller's file and the controller's namespace.
  - `argument_resolver.dfy` covers the `supports`/`resolve` handshake, building the
    argument from the query string or the request body, scalar fixing of query
    parameters, and validation errors grouped by property path.
- **ToJsonConverter** (`to_json_converter.dfy`) does Content-Type negotiation from
  the Accept and Content-Type headers and converts a controller's value objects
  into a response.
- **CorsResolver** (`cors_resolver.dfy`) rebuilds the `Origin` and sets the four
  `Access-Control-*` headers.
- **CollectionJsonLdResponse** (`collection_response.dfy`) covers the page and
  limit taken from the query, the offset, and the hydra collection body with its
  `hydra:view` links.
- **The fixed envelopes** (`envelopes.dfy`) are the pagination,
  resource-created and resource-updated responses.

The supporting modules are:

- `ordered_maps.dfy`: PHP ordered arrays as `seq<(K, V)>`. `$a[$k] = $v` is `Put`
  and the array `+` operator is `Union`.
- `header_bag.dfy`: Symfony's header bag. Names are lower-cased with `_` turned
  into `-`. `set` overwrites and `replace` sets each header in turn.
- `strings.dfy`: `explode`/`implode`, prefix tests, ASCII lower-casing, and
  integer printing and parsing.
- `php_values.dfy`: PHP values, failures (thrown exceptions and `strict_types`
  type errors), and `JsonResponse` with Symfony's status check.
- `wrappers.dfy`: `Option` and `Result`.

PHP calls that the bundle delegates are parameters of the model functions. These
are the translator, Symfony's status texts, the serializer, the validator,
`filter_var`, `parse_url`, reflection's doc-block tags, the tokenizer's tokens,
`class_exists`/`class_implements` and JSON encoding. A PHP `TypeError` under
`strict_types=1` (for example `mb_strtolower(null)`) is an error outcome, not a
precondition.

Where the bundle's documentation and its code differ, the model follows the code:

- A field error whose value is neither a string nor an array serialises with an
  empty `messages` list.
- `ToJsonConverter` converts an array only when every element is a marker object.

## Model

| member | source | states |
|---|---|---|
| ExceptionResolver.Respond | src/Exception/ExceptionResolver.php:91-104 | A response exists exactly when the status is in 100..599; otherwise it is an `InvalidArgumentException`. The headers become the given set, normalised by `replace`. The body is exactly the message and the errors. |
| ExceptionResolver.HandledIffRecognised | src/Exception/ExceptionResolver.php:45-89 | The resolver leaves an exception to Symfony exactly when it is none of: bad request, not found, duplicate row, ORM graph failure, foreign-key violation, or HTTP exception outside dev mode. |
| ExceptionResolver.ErrorsOnlyFromBadRequest | src/Exception/ExceptionResolver.php:53-57 | Only a `BadRequestException` yields a non-empty `errors`. For one, the status is 400, the message is the translated message, the headers are the defaults, and the errors are exactly the exception's serialised errors: one `{fieldName, messages}` per key, in order. |
| ExceptionResolver.ResponseHeadersShape | src/Exception/ExceptionResolver.php:51-96 | Every branch before the HTTP-exception branch answers with the default headers, replaced in. The HTTP-exception branch answers with the default headers `+` the exception's own headers, replaced in. |
| ExceptionResolver.DefaultHeaderLast | src/Exception/ExceptionResolver.php:21-25 | Each default header is the last one under its normalised name, so `replace` keeps its value. |
| ExceptionResolver.SecurityHeadersKept | src/Exception/ExceptionResolver.php:83-96 | A default security header keeps its value in every response, unless an HTTP exception brings a header that differs only in case or `_`. |
| ExceptionResolver.HeaderNameOfNormal | src/Exception/ExceptionResolver.php:96-96 | A header name without capitals or `_` is stored under itself. |
| ExceptionResolver.CaseVariantOverridesContentType | src/Exception/ExceptionResolver.php:83-96 | An HTTP exception's `content-type: text/html` survives the array union (the default key is `Content-Type`) and overrides the default JSON content type. |
| ExceptionResolver.DevModeDefersHttpExceptions | src/Exception/ExceptionResolver.php:76-81 | With `APP_ENV=dev`, an exception that reaches the HTTP branch is left to Symfony. |
| ExceptionResolver.AppEnvOnlyAffectsHttp | src/Exception/ExceptionResolver.php:76-81 | `APP_ENV` changes nothing for an exception that is not an HTTP exception. |
| ExceptionResolver.HttpExceptionAnswer | src/Exception/ExceptionResolver.php:76-85 | Outside dev mode, an HTTP exception is answered with its own status code. The message is the status text, or `UndefinedMessage` when there is none, and the errors are empty. The headers are the default headers `+` the exception's own headers, replaced in. |
| ExceptionResolver.NotFoundAnswer | src/Exception/ExceptionResolver.php:48-59 | A `NotFoundException` is answered 200 with its own message, no errors and the default headers. |
| ExceptionResolver.DuplicateRowAnswer | src/Exception/ExceptionResolver.php:62-64 | A unique-constraint violation whose driver code is the string `'23505'` or `'23000'` is answered 409 with `The object already exist`, no errors and the default headers. |
| ExceptionResolver.OrmGraphAnswer | src/Exception/ExceptionResolver.php:68-69 | Doctrine's association-graph failure is answered with the fixed message, no errors and the default headers. The status is 200 as written and 422 as intended. |
| ExceptionResolver.ForeignKeyAnswer | src/Exception/ExceptionResolver.php:70-75 | A foreign-key violation is answered with the fixed prefix followed by the table name taken from the driver's message, no errors and the default headers. The status is 200 as written and 422 as intended. |
| ExceptionResolver.DuplicateRowNeedsStringCode | src/Exception/ExceptionResolver.php:112-126 | The duplicate-row test compares codes strictly with the strings `'23505'` and `'23000'`, so an integer code never matches. |
| ExceptionResolver.ForeignKeyTableNameIsSecondPiece | src/Exception/ExceptionResolver.php:70-75 | The table name is the text between the first and second occurrence of the separator, or the rest when there is no second one. With no separator it is the fallback `' - error occurred'`. |
| ExceptionResolver.PrefixHasNoConversion | src/Exception/ExceptionResolver.php:29-29 | The foreign-key format has no `%` before its `%s`. |
| ExceptionResolver.ForeignKeyMessage | src/Exception/ExceptionResolver.php:72-75 | `sprintf` of the foreign-key format is the fixed prefix followed by the table name. |
| ExceptionResolver.ForeignKeyExample | tests/Unit/Exception/ExceptionResolverTest.php:112-143 | The unit test's foreign-key message produces the prefix followed by ` some_field_name`, with no errors and the default headers. |
| ExceptionResolver.GraphExceptionStatusAsWritten | src/Exception/ExceptionResolver.php:68-69 | As written, an ORM graph failure is answered with status 200. |
| ExceptionResolver.GraphFailuresUnprocessable | tests/Unit/Exception/ExceptionResolverTest.php:97-143 | In the corrected resolver, ORM graph failures and foreign-key violations are answered 422 with no errors. |
| ExceptionResolver.IntendedDiffersOnlyInGraphStatus | src/Exception/ExceptionResolver.php:45-105 | The correction changes nothing outside those two branches. |
| BadRequestException.SerializeEntries | src/Exception/BadRequestException.php:41-61 | There is one serialised entry per error key, in input order. Each entry is named after its key and holds that key's messages. |
| BadRequestException.JsonSerializeShape | src/Exception/BadRequestException.php:41-61 | The message is kept. A string error becomes a one-element list, an array error becomes its values, and anything else becomes an empty list. |
| BadRequestException.DefaultSerialize | src/Exception/BadRequestException.php:27-35 | The default exception is code 400 with message `Unexpected error` and no errors. |
| BadRequestException.SerializeRestore | src/Exception/BadRequestException.php:44-55 | Writing serialised entries back as message lists and serialising again gives the same entries. |
| BadRequestException.RestoreSerialize | src/Exception/BadRequestException.php:44-55 | Errors that are already lists serialise and restore to themselves. |
| HeaderBags.HeaderNameIdempotent | src/Exception/ExceptionResolver.php:96-96 | Normalising a header name twice is the same as normalising it once. |
| HeaderBags.ReplaceGet | src/Exception/ExceptionResolver.php:96-96 | After `replace`, each normalised name holds the last value given for it. |
| HeaderBags.ReplaceDistinct | src/Exception/ExceptionResolver.php:96-96 | A replaced bag has each name once. |
| HeaderBags.MergedKept | src/Exception/ExceptionResolver.php:83-96 | A base header that is last under its name keeps its value through `+` and `replace`, unless the added headers have a different spelling of the same name. |
| ClassNames.FindShortClassName | src/Request/ControllerActionArgumentResolver.php:223-234 | The first `@param` tag naming the argument decides the result: its first type with every `[]` removed. A tag with no types is a `str_replace(null)` type error. No such tag gives `''`. |
| ClassNames.FindShortClassNameExample | tests/Unit/Request/ControllerActionArgumentResolverTest.php:537-596 | `Model[]` documented for `$model` after an unrelated tag resolves to `Model`. |
| ClassNames.ForApplyRoundTrip | src/Request/ControllerActionArgumentResolver.php:265-268 | Stripping `[]` from `forApply($fqn)` gives back any class name without `[]`. |
| ClassNames.StripBracketsSinglePass | src/Request/ControllerActionArgumentResolver.php:229-229 | `str_replace` is one left-to-right pass: `[[]]` becomes `[]`. |
| ClassNames.StopsAtClass | src/Request/ControllerActionArgumentResolver.php:189-193 | The use-list scan stops at the first `class` token; nothing after it counts. |
| ClassNames.OutsideUseIgnored | src/Request/ControllerActionArgumentResolver.php:189-209 | Outside a `use` statement, any run of tokens without `use` or `class` leaves the scan unchanged: names and `;` are recorded only inside a `use` statement. |
| ClassNames.NamespaceLineIgnored | src/Request/ControllerActionArgumentResolver.php:189-209 | The tokens of `namespace A\B;` before any `use` give an empty use list. |
| ClassNames.IgnorableTokens | src/Request/ControllerActionArgumentResolver.php:194-209 | Tokens other than `use`, `;`, qualified names and plain names change nothing. |
| ClassNames.UseStatement | src/Request/ControllerActionArgumentResolver.php:194-208 | `use A\B;` maps `A\B` to itself, whatever whitespace is around it. |
| ClassNames.UseAsStatement | src/Request/ControllerActionArgumentResolver.php:194-208 | `use A\B as C;` maps `C` to `A\B`. |
| ClassNames.UseListFromTokens | src/Request/ControllerActionArgumentResolver.php:182-213 | The use list has distinct aliases. Every alias and every class name comes from the file's own tokens. |
| ClassNames.AddShortNamesSpec | src/Request/ControllerActionArgumentResolver.php:163-178 | The use list comes first, unchanged. Each added entry maps a qualified imported class's short name to it. Every qualified import's short name is present, and keys stay distinct. A short name that is not an alias is bound to the first qualified import with that short name, because `isset` skips every later one. |
| ClassNames.FirstWithShortName | src/Request/ControllerActionArgumentResolver.php:166-175 | The chosen import is a qualified imported name with the wanted short name, and there is none exactly when no qualified import has that short name. |
| ClassNames.FirstWithShortNameIsFirst | src/Request/ControllerActionArgumentResolver.php:166-175 | The earliest qualified import with a given short name is the one chosen, whatever imports follow it. |
| ClassNames.FirstImportWins | src/Request/ControllerActionArgumentResolver.php:150-154 | With `use X\Foo as A; use Y\Foo as B;`, the name `Foo` resolves to `X\Foo`. |
| ClassNames.AddShortNamesKeepsAliases | src/Request/ControllerActionArgumentResolver.php:171-174 | An existing alias is never overwritten by a short name. |
| ClassNames.AddShortNamesKeys | src/Request/ControllerActionArgumentResolver.php:163-178 | Every key is an alias or the short name of an imported qualified class. |
| ClassNames.GetClassNameWithNamespace | src/Request/ControllerActionArgumentResolver.php:135-161 | Resolution fails exactly when the tag lookup fails. Otherwise the result is determined in the source's order: `''` stays `''`, a rooted name is kept, a use-list alias gives its import, an imported class's short name gives the first imported class with that short name, and any other name lies in the controller's namespace. |
| ClassNames.ResolveShortNameCases | src/Request/ControllerActionArgumentResolver.php:141-160 | The resolution after the tag lookup meets each of those five cases. |
| ClassNames.UndocumentedArgument | src/Request/ControllerActionArgumentResolver.php:140-143 | An argument with no `@param` tag resolves to `''`. |
| ClassNames.RootedNameKept | src/Request/ControllerActionArgumentResolver.php:145-147 | A name starting with `\` is returned as written. |
| ClassNames.ImportedAliasResolves | src/Request/ControllerActionArgumentResolver.php:149-154 | An alias in the use list resolves to its imported class. |
| ClassNames.ShortNameResolves | src/Request/ControllerActionArgumentResolver.php:149-154 | The short name of an imported class resolves to an imported class with that short name, the first one in import order. |
| ClassNames.SiblingNamespace | src/Request/ControllerActionArgumentResolver.php:148-160 | A name that is neither rooted, an alias nor an imported short name, qualified (`Model\MyClass`) or not, is placed in the controller's namespace. Its segments are the controller's namespace segments followed by the written name's segments. |
| ClassNames.FindFullClassNamespace | src/Request/ControllerActionArgumentResolver.php:244-256 | The import matches exactly when its alias equals the class name, or its class's short name does. The result is the imported class or `''`. |
| ClassNames.FindFullClassNamespaceExamples | tests/Unit/Request/ControllerActionArgumentResolverTest.php:598-652 | The unit test's three cases: a short-name match, an alias match and a mismatch. |
| ArgumentResolver.FilterValue | src/Request/ControllerActionArgumentResolver.php:369-386 | The integer reading wins, then the float reading, then the boolean reading. |
| ArgumentResolver.FixScalarDataSpec | src/Request/ControllerActionArgumentResolver.php:350-360 | Query parameters keep their keys and order. Each value is replaced by its filtered reading when there is one. |
| ArgumentResolver.FixScalarDataExample | tests/Unit/Request/ControllerActionArgumentResolverTest.php:116-152 | With an integer filter that always reads 12345, both parameters become 12345. |
| ArgumentResolver.GroupByPathSpec | src/Request/ControllerActionArgumentResolver.php:280-286 | Grouped violations have one key per property path, in order of first appearance. Each key holds that path's messages in violation order. |
| ArgumentResolver.Validate | src/Request/ControllerActionArgumentResolver.php:273-288 | There is an exception exactly when the validator reports violations; it is `Validation errors` with code 400. |
| ArgumentResolver.ValidationEnvelope | src/Request/ControllerActionArgumentResolver.php:273-288 | The serialised validation exception lists each violated path once, with all its messages. The field name is the path as PHP's array key: an integer when the path is the decimal form of one, a string otherwise. |
| ArgumentResolver.ValidationIntegerPath | src/Request/ControllerActionArgumentResolver.php:283-286 | A violation on the path `"0"` is reported under the integer field name 0. |
| ArgumentResolver.ValidationExample | tests/Functional/Request/ControllerActionArgumentResolverTest.php:135-180 | Violations on `kids[0].name` and `kids[1].name` serialise to two field errors in that order. |
| ArgumentResolver.BodyFormat | src/Request/ControllerActionArgumentResolver.php:332-341 | A missing content type is a type error. The format is `xml` exactly when the type ends with `xml` or is `text/html`, and `json` otherwise. |
| ArgumentResolver.Apply | src/Request/ControllerActionArgumentResolver.php:300-318 | A built argument has passed validation. |
| ArgumentResolver.QueryFailureIsBadRequest | src/Request/ControllerActionArgumentResolver.php:300-310 | On GET, a serializer failure becomes the `Unable to denormalize` bad request with no errors. |
| ArgumentResolver.BodyFailureIsBadRequest | src/Request/ControllerActionArgumentResolver.php:332-341 | Otherwise, a serializer failure on the body becomes a deserialisation bad request. Its `errors` carry the serializer's message under the key `check the API contract`. |
| ArgumentResolver.ApplyValidates | src/Request/ControllerActionArgumentResolver.php:312-317 | A built object is returned exactly when the validator accepts it. Otherwise the result is the validation bad request. |
| ArgumentResolver.Supports | src/Request/ControllerActionArgumentResolver.php:71-111 | An argument is supported exactly when a class name is recorded for `resolve`. |
| ArgumentResolver.SupportsClassDecision | src/Request/ControllerActionArgumentResolver.php:95-110 | For a declared class type: an unknown class is not supported, and a class without an interface list is a type error. A class implementing the object marker is supported with that marker recorded, even if it also implements the JSON-request marker. A class implementing only the JSON-request marker records that marker. A class implementing neither is not supported. |
| ArgumentResolver.SupportsCollectionDecision | src/Request/ControllerActionArgumentResolver.php:84-100 | For an `array` argument: a missing controller is a type error, and a failed class-name lookup fails `supports` with it. The resolved element class is recorded when it implements the object marker and is a type error without an interface list. Otherwise the argument is not supported. |
| ArgumentResolver.ScalarsNotSupported | src/Request/ControllerActionArgumentResolver.php:79-82 | A declared type that is one of `string`, `float`, `int`, `integer`, `bool` and `boolean`, in any letter case, is not supported. |
| ArgumentResolver.ObjectHandshake | src/Request/ControllerActionArgumentResolver.php:94-124 | An object-marker class is supported only if it implements the marker. `resolve` then builds that class from the request. |
| ArgumentResolver.CollectionHandshake | src/Request/ControllerActionArgumentResolver.php:84-124 | A supported `array` argument resolves by applying the documented element class with `[]`. |
| ArgumentResolver.JsonRequestHandshake | src/Request/ControllerActionArgumentResolver.php:104-123 | A JSON-request marker class resolves to the request wrapper. |
| ArgumentResolver.ResolveWithoutSupports | src/Request/ControllerActionArgumentResolver.php:114-117 | Resolving an `array` argument with no recorded class is a type error. |
| ToJsonConverter.GetContentType | src/Response/ToJsonConverter.php:31-58 | With both headers absent the type is JSON-LD. With exactly one absent it is a type error. The result is always JSON, JSON-LD or unsupported. |
| ToJsonConverter.JsonIff | src/Response/ToJsonConverter.php:42-48 | JSON is chosen exactly when either lower-cased header starts with `application/json`. |
| ToJsonConverter.UnsupportedIff | src/Response/ToJsonConverter.php:42-58 | `unsupported` is chosen exactly when neither lower-cased header starts with `application/json` and none of the four JSON-LD prefix rules applies. |
| ToJsonConverter.JsonPrefixWins | src/Response/ToJsonConverter.php:42-48 | A case-insensitive `application/json` prefix on either header gives JSON. |
| ToJsonConverter.LdJsonIff | src/Response/ToJsonConverter.php:49-55 | The type is JSON-LD exactly when neither header has a JSON prefix and Accept is `*/*`, `application/*` or JSON-LD, or Content-Type is JSON-LD. |
| ToJsonConverter.NegotiationIgnoresCase | src/Response/ToJsonConverter.php:36-37 | Negotiation ignores letter case. |
| ToJsonConverter.NegotiationExamples | src/Response/ToJsonConverter.php:42-57 | `text/html` is unsupported, `*/*` is JSON-LD, and `Application/JSON` is JSON. |
| ToJsonConverter.OnKernelView | src/Response/ToJsonConverter.php:60-83 | Only a marker object, or an array of them, is converted. A response carries the serialised result and the negotiated, supported type. |
| ToJsonConverter.RespondsIff | src/Response/ToJsonConverter.php:69-82 | A convertible result gets a response exactly when negotiation succeeds with a supported type. |
| ToJsonConverter.EmptyListConverted | src/Response/ToJsonConverter.php:62-68 | An empty array is converted; with no headers it is JSON-LD. |
| ToJsonConverter.OneForeignElementBlocks | src/Response/ToJsonConverter.php:62-68 | One non-marker element keeps the whole array away from the converter. |
| CorsResolver.GetOrigin | src/Cors/CorsResolver.php:27-41 | An empty or absent origin gives `''`. The origin is a bad request exactly when it parses without a host. |
| CorsResolver.OnKernelResponse | src/Cors/CorsResolver.php:49-59 | The response fails exactly when the origin does. With an empty origin the headers are unchanged. |
| CorsResolver.CorsHeadersSet | src/Cors/CorsResolver.php:43-58 | The four `Access-Control-*` headers hold the origin and the fixed values, and every other header is unchanged. |
| CorsResolver.CorsNamesDistinct | src/Cors/CorsResolver.php:55-58 | The four header names are distinct after normalisation, so no `set` overwrites another. |
| CorsResolver.SchemeHostEchoed | src/Cors/CorsResolver.php:33-40 | `scheme://host` with no port is echoed unchanged. |
| CorsResolver.OriginCases | src/Cors/CorsResolver.php:33-40 | For every parsed origin with a host: just the host when the scheme is missing, empty or `"0"`, else `scheme://host`; `:port` is appended only for a present non-zero port. |
| CorsResolver.OriginIsRebuilt | src/Cors/CorsResolver.php:33-40 | The origin is rebuilt as `scheme://host`, with `:port` only for a non-zero port. |
| CorsResolver.MalformedOriginIgnored | src/Cors/CorsResolver.php:29-40 | An origin that `parse_url` rejects leaves the response untouched. |
| CorsResolver.FooExampleEchoed | tests/Functional/Cors/CorsResolverTest.php:21-32 | The functional test's `http://foo.example` is echoed in `Access-Control-Allow-Origin`. |
| CollectionResponse.FindPage | src/Response/JsonLd/CollectionJsonLdResponse.php:36-45 | A given page is kept. Otherwise the page is never negative: a positive query page `n` gives `n-1`, and anything else gives 0. |
| CollectionResponse.FindLimit | src/Response/JsonLd/CollectionJsonLdResponse.php:47-60 | A given limit is kept. A query limit that is not an integer is a type error. Otherwise the limit is in 0..100: in-range values are kept and others become 100. |
| CollectionResponse.DefaultLimit | src/Response/JsonLd/CollectionJsonLdResponse.php:51-52 | Without `itemsPerPage` the limit is 10. |
| CollectionResponse.DefaultPage | src/Response/JsonLd/CollectionJsonLdResponse.php:41-44 | Without `page` the page is 0. |
| CollectionResponse.NewCollection | src/Response/JsonLd/CollectionJsonLdResponse.php:27-34 | A new collection is a 404 without data, with offset page × limit. It fails exactly when the limit fails or the offset leaves the 64-bit range. |
| CollectionResponse.QueryOffsetNonNegative | src/Response/JsonLd/CollectionJsonLdResponse.php:27-60 | With page and limit from the query, the offset is never negative. |
| CollectionResponse.OffsetOfClientPage | src/Response/JsonLd/CollectionJsonLdResponse.php:27-60 | Query page `n` (1-based) and limit `k` give offset (n-1)·k. |
| CollectionResponse.LinkedPageOfLink | src/Response/JsonLd/CollectionJsonLdResponse.php:98-101 | The page number printed into a link reads back from it. |
| CollectionResponse.ViewLinks | src/Response/JsonLd/CollectionJsonLdResponse.php:95-102 | `hydra:view` links the current page, the first page (0) and the next page. |
| CollectionResponse.DataWithShape | src/Response/JsonLd/CollectionJsonLdResponse.php:85-94 | The body is typed `hydra:Collection`, with the items and the total. |
| CollectionResponse.DataArrayLinks | src/Response/JsonLd/CollectionJsonLdResponse.php:95-103 | A non-empty page's body links to its own page and page + 1. |
| CollectionResponse.NextLinkRevisitsPage | src/Response/JsonLd/CollectionJsonLdResponse.php:36-45 | Following `hydra:next` as written serves the same page again. |
| CollectionResponse.IntendedLinksLeadOn | src/Response/JsonLd/CollectionJsonLdResponse.php:36-45 | With 1-based links, `@id` serves the current page and `hydra:next` serves the following page. |
| CollectionResponse.InitData | src/Response/JsonLd/CollectionJsonLdResponse.php:62-71 | Data can be set once; a second call is an `UnexpectedValueException`. A non-empty page with limit 0 divides by zero. Success gives 200 with page, limit and offset unchanged. |
| CollectionResponse.InitDataOnce | src/Response/JsonLd/CollectionJsonLdResponse.php:27-71 | A fresh collection is 404. After `initData` it is 200 and holds the as-written body, with its 0-based links. A second `initData` is refused. |
| Envelopes.PaginationRoundTrip | src/Response/PaginationJsonResponse.php:15-24 | The body is `{result: {items, totalItems}}` with the status given, and reading it back gives the arguments. |
| Envelopes.PaginationPartsOnlyFromPagination | src/Response/PaginationJsonResponse.php:17-23 | Only pagination bodies read back, so reading is the exact inverse of construction. |
| Envelopes.PaginationDefaultStatus | src/Response/PaginationJsonResponse.php:15-15 | The default status is 200. |
| Envelopes.WithId | src/Response/JsonLd/ResourceCreatedJsonLdResponse.php:14-14 | `['id' => $id] + $data` holds the given id, even when `data` has its own `id`, and every other key of `data` unchanged. |
| Envelopes.CreatedBody | src/Response/JsonLd/ResourceCreatedJsonLdResponse.php:12-15 | The created body has distinct keys and starts with `id`. It is followed by the other entries of `data` in order. |
| Envelopes.ResourceCreated | src/Response/JsonLd/ResourceCreatedJsonLdResponse.php:12-15 | The created response is 201 with an object body. |
| Envelopes.ResourceUpdated | src/Response/JsonLd/ResourceUpdatedJsonLdResponse.php:12-15 | The JSON-LD update response is 200 with an object body. |
| Envelopes.UpdatedMatchesCreated | src/Response/JsonLd/ResourceUpdatedJsonLdResponse.php:12-15 | The update body is the creation body for the same id and data. |
| Envelopes.ResourceUpdatedPlain | src/Response/ResourceUpdatedJsonResponse.php:12-15 | The plain update response is 200. |
| Envelopes.DefaultBodies | src/Response/ResourceUpdatedJsonResponse.php:12-15 | Without data, both JSON-LD bodies are `{id}`, and the plain update response equals the JSON-LD one. |
| PhpValues.StringKey | src/Request/ControllerActionArgumentResolver.php:285-285 | A string used as an array key becomes an integer key only when it is the printed form of a 64-bit integer, and that integer is the one printed. Any other string stays itself. |
| PhpValues.StringKeyOfInt | src/Request/ControllerActionArgumentResolver.php:285-285 | Every printed 64-bit integer becomes the integer key it prints. |
| PhpValues.StringKeyInjective | src/Request/ControllerActionArgumentResolver.php:283-286 | Distinct paths give distinct keys, so grouping by path is grouping by key. |
| PhpValues.NewJsonResponse | src/Response/PaginationJsonResponse.php:23-23 | A response exists exactly for statuses 100..599 and keeps data and status. Otherwise it is Symfony's `InvalidArgumentException`. |
| OrderedMaps.UnionGet | src/Exception/ExceptionResolver.php:83-83 | `$a + $b` keeps every key of `$a` with its value and takes the other keys from `$b`. |
| OrderedMaps.PutAt | src/Request/ControllerActionArgumentResolver.php:352-358 | Assigning to an existing key changes only that entry, in place. |
| Strings.JoinExplode | src/Request/ControllerActionArgumentResolver.php:156-160 | `implode` of `explode` with the same separator gives back the string. |
| Strings.ExplodeJoin | src/Request/ControllerActionArgumentResolver.php:156-160 | `explode` of `implode` gives back the pieces, when no piece contains the separator's first character. |
| Strings.ParseIntToString | src/Response/JsonLd/CollectionJsonLdResponse.php:97-101 | A printed integer reads back as the same integer. |

## Left out

- The Symfony kernel events are not modelled. Each listener is a function of the
  parts of the event it reads: the throwable, the request headers, the controller's
  result, the response headers.
- Reflection (`ClassReflection`, doc blocks) is not modelled. PHP's tokenizer,
  `class_exists` and `class_implements` are also left out. They are parameters: the
  `@param` tags, the controller file's tokens, and a class table.
- The `::` split of the controller string is taken as given. A controller string
  without `::` would fail in PHP, and the model does not cover it.
- The serializer, validator, translator, JSON helper and JSON encoding are
  parameters. Their own behaviour is outside the bundle.
- `ScalarValidator`'s integer, float and boolean readings and `filter_var` are
  parameters. The model fixes only the order in which they are tried.
- `parse_url` is a parameter, as a parsed-or-malformed result.
- `getRequestPathWithoutPage` and `http_build_query` are not modelled. The URL
  prefix of the links is an opaque string.
- The `hydra:last` value (`round($totalItems / $limit)`, a float) is an opaque
  printed string. Only its division by zero is modelled.
- Symfony's `ResponseHeaderBag` is modelled with one value per header. Its
  `Cache-Control`/`Date` defaults and multi-valued headers are not modelled.
- An exception response reuses a response already on the event. Its content, status
  and headers are all overwritten, so the model builds a fresh one.
- The previous-exception argument of `BadRequestException`'s constructor is not
  modelled.
- `JsonRequest` is only wrapped around the request. Its accessors are not modelled.
- The marker interfaces are flags: `isMarker` on an object, and the class table for
  argument types.
- `NotFoundException` is declared in the namespace `YaPro\ApiRation\Exception`, but
  the resolver tests `YaPro\ApiRationBundle\Exception\NotFoundException`. The model
  keeps a not-found flag and does not model class loading.
- `Request::getContentType()` returns a format name in Symfony, so the body path's
  comparison with `text/html` may never match. The model takes whatever value
  it is given.
- `mb_strtolower` is modelled as ASCII lower-casing. The prefixes
  compared against it are ASCII, but a non-ASCII header could lower-case
  differently.
- ArgumentResolver.SupportsCollectionDecision: does not state the fallback when a class named `array` exists. `array` is a reserved word in PHP and cannot name a class.
- Floats are opaque values with no arithmetic. PHP integers are unbounded except
  where the 64-bit range matters: the collection offset.

## Findings

| source | as written | input that shows it | evidently intended | confidence | as-written member | corrected member |
|---|---|---|---|---|---|---|
| src/Exception/ExceptionResolver.php:68-75 | The ORM graph and foreign-key branches set a message but never a status, so the response keeps the initial 200. | An `ORMInvalidArgumentException` whose message starts with the graph prefix; also any `ForeignKeyConstraintViolationException`. | 422 Unprocessable Entity, as the unit tests assert for both branches (tests/Unit/Exception/ExceptionResolverTest.php:97-143). | high, not executed | ExceptionResolver.GraphExceptionStatusAsWritten | ExceptionResolver.GraphFailuresUnprocessable |
| src/Response/JsonLd/CollectionJsonLdResponse.php:98-101 | The links print the 0-based internal page (`@id` = page, `hydra:next` = page + 1). `findPage` reads the query as 1-based (`n` becomes `n-1`). | Page 0 (no `page` in the query) links `hydra:next` to `page=1`, which is read back as page 0. | Links print 1-based numbers (`@id` = page + 1, `hydra:next` = page + 2), so following `hydra:next` serves the next page. | medium, not executed | CollectionResponse.NextLinkRevisitsPage | CollectionResponse.IntendedLinksLeadOn |

=== FILE: argument_resolver.dfy ===
/**
 * `ControllerActionArgumentResolver`: decides which controller arguments it
 * fills (`supports`), remembers what it decided in `currentArgumentFqn`, and
 * builds the argument (`resolve`): query parameters or the request body,
 * turned into an object by the serializer and then validated.
 */
module ArgumentResolver {
  import opened Wrappers
  import opened OrderedMaps
  import opened Strings
  import opened PhpValues
  import opened BadRequestException
  import opened ClassNames

  const OBJECT_MARKER: string := "YaPro\\ApiRationBundle\\Marker\\ApiRationObjectInterface"
  const JSON_REQUEST_MARKER: string := "YaPro\\ApiRationBundle\\Marker\\ApiRationJsonRequestInterface"

  /** Declared types that are never bound from the request (compared after `strtolower`). */
  const SCALAR_TYPES: seq<string> := ["string", "float", "int", "integer", "bool", "boolean"]

  const MSG_UNABLE_TO_DENORMALIZE: string := "Unable to denormalize data"
  const MSG_DESERIALIZATION_PROBLEM: string := "Deserialization problem"
  const KEY_CHECK_CONTRACT: string := "check the API contract"
  const MSG_VALIDATION_ERRORS: string := "Validation errors"

  /** `ScalarValidator`'s three filters: each gives a value, or `None` for `null`. */
  datatype Filters = Filters(
    integer: Value -> Option<Value>,
    float: Value -> Option<Value>,
    boolean: Value -> Option<Value>)

  /**
   * What the serializer throws: `NotNormalizableValueException`, another
   * exception of the serializer component, or an exception from elsewhere.
   */
  datatype SerializerError =
    | NotNormalizable(message: string)
    | OtherSerializerError(className: string, message: string)
    | ForeignError(className: string, message: string)

  /** One constraint violation: its property path and its message. */
  datatype Violation = Violation(path: string, message: string)

  /**
   * The collaborators: class lookups (`class_exists`, `class_implements`,
   * the latter `None` when it returns `false`), reflection (the doc-block
   * tags of a `Class::method` action and the tokens of a class's file), the
   * scalar filters, the serializer and the validator.
   */
  datatype Environment = Environment(
    classExists: string -> bool,
    classImplements: string -> Option<set<string>>,
    docTags: string -> seq<DocTag>,
    fileTokens: string -> seq<Token>,
    filters: Filters,
    denormalize: (PhpArray, string) -> Result<Value, SerializerError>,
    deserialize: (string, string, string) -> Result<Value, SerializerError>,
    validate: Value -> seq<Violation>)

  /**
   * The parts of the request the resolver reads: method, query parameters,
   * `getContentType()` (a format name, or `None`), body, and the
   * `_controller` attribute.
   */
  datatype Request = Request(
    httpMethod: string,
    query: PhpArray,
    contentType: Option<string>,
    content: string,
    controller: Option<string>)

  /** A controller argument: its name and declared type (`None` when undeclared). */
  datatype ArgumentMetadata = ArgumentMetadata(name: string, argType: Option<string>)

  /** An exception leaving the resolver. */
  datatype Thrown = BadRequestThrown(exception: BadRequest) | OtherThrown(failure: Failure)

  // ----- query parameters -----

  /** `filterValue`: integer first, then float, then boolean; `None` when all three fail. */
  function FilterValue(value: Value, filters: Filters): (r: Option<Value>)
    ensures filters.integer(value).Some? ==> r == filters.integer(value)
    ensures filters.integer(value).None? && filters.float(value).Some? ==> r == filters.float(value)
    ensures filters.integer(value).None? && filters.float(value).None? ==> r == filters.boolean(value)
  {
    match filters.integer(value)
    case Some(v) => Some(v)
    case None =>
      match filters.float(value)
      case Some(v) => Some(v)
      case None => filters.boolean(value)
  }

  /** One iteration of `fixScalarData`: assign the filtered value, if any. */
  function FixEntry(acc: PhpArray, entry: (Key, Value), filters: Filters): PhpArray {
    match FilterValue(entry.1, filters)
    case Some(v) => Put(acc, entry.0, v)
    case None => acc
  }

  /** The array after the first `i` iterations of the `foreach` (which runs over the array as it was on entry). */
  function FixLoop(params: PhpArray, i: nat, filters: Filters): PhpArray
    requires i <= |params|
    decreases i
  {
    if i == 0 then params else FixEntry(FixLoop(params, i - 1, filters), params[i - 1], filters)
  }

  /** `fixScalarData`. */
  function FixScalarData(params: PhpArray, filters: Filters): PhpArray {
    FixLoop(params, |params|, filters)
  }

  /** A parameter after filtering: the filtered value when there is one, else unchanged. */
  function Fixed(entry: (Key, Value), filters: Filters): (Key, Value) {
    (entry.0, FilterValue(entry.1, filters).GetOr(entry.1))
  }

  lemma {:induction false} FixLoopSpec(params: PhpArray, i: nat, filters: Filters)
    requires DistinctKeys(params)
    requires i <= |params|
    ensures |FixLoop(params, i, filters)| == |params|
    ensures forall j | 0 <= j < |params| ::
      FixLoop(params, i, filters)[j] == if j < i then Fixed(params[j], filters) else params[j]
    decreases i
  {
    if i > 0 {
      FixLoopSpec(params, i - 1, filters);
      var acc := FixLoop(params, i - 1, filters);
      if FilterValue(params[i - 1].1, filters).Some? {
        assert Keys(acc) == Keys(params);
        assert acc[i - 1] == params[i - 1];
        PutAt(acc, i - 1, FilterValue(params[i - 1].1, filters).value);
      }
    }
  }

  /**
   * `fixScalarData` keeps every key in its place and replaces a value
   * exactly when one of the filters accepts it.
   */
  lemma FixScalarDataSpec(params: PhpArray, filters: Filters)
    requires DistinctKeys(params)
    ensures Keys(FixScalarData(params, filters)) == Keys(params)
    ensures forall i | 0 <= i < |params| :: FixScalarData(params, filters)[i] == Fixed(params[i], filters)
  {
    FixLoopSpec(params, |params|, filters);
  }

  /** With a filter that turns everything into 12345, every query parameter becomes 12345 under its own name. */
  lemma FixScalarDataExample(a: Value, b: Value, filters: Filters)
    requires forall v :: filters.integer(v) == Some(Int(12345))
    ensures FixScalarData([(StrKey("first"), a), (StrKey("second"), b)], filters)
         == [(StrKey("first"), Int(12345)), (StrKey("second"), Int(12345))]
  {
    var params := [(StrKey("first"), a), (StrKey("second"), b)];
    assert Keys(params) == [StrKey("first"), StrKey("second")];
    FixScalarDataSpec(params, filters);
    var r := FixScalarData(params, filters);
    assert |Keys(r)| == 2;
    assert r[0] == Fixed(params[0], filters);
  }

  // ----- validation -----

  /** `$errors[$path][] = $message` for each violation in turn. */
  function GroupByPath(vs: seq<Violation>): seq<(string, seq<string>)>
    decreases |vs|
  {
    if |vs| == 0 then []
    else
      var g := GroupByPath(vs[..|vs| - 1]);
      var v := vs[|vs| - 1];
      Put(g, v.path, Get(g, v.path).GetOr([]) + [v.message])
  }

  /** The property paths of the violations, each once, in order of first appearance. */
  function PathsInOrder(vs: seq<Violation>): seq<string>
    decreases |vs|
  {
    if |vs| == 0 then []
    else
      var ps := PathsInOrder(vs[..|vs| - 1]);
      if vs[|vs| - 1].path in ps then ps else ps + [vs[|vs| - 1].path]
  }

  /** The messages of the violations at `path`, in violation order. */
  function MessagesAt(vs: seq<Violation>, path: string): seq<string>
    decreases |vs|
  {
    if |vs| == 0 then []
    else MessagesAt(vs[..|vs| - 1], path) + (if vs[|vs| - 1].path == path then [vs[|vs| - 1].message] else [])
  }

  /** A path no violation carries has no messages. */
  lemma {:induction false} MessagesAtAbsent(vs: seq<Violation>, path: string)
    requires path !in PathsInOrder(vs)
    ensures MessagesAt(vs, path) == []
    decreases |vs|
  {
    if |vs| > 0 {
      MessagesAtAbsent(vs[..|vs| - 1], path);
    }
  }

  /** The last violation either opens a new path or extends its path's messages. */
  lemma GroupStep(vs: seq<Violation>, p: string)
    requires |vs| > 0
    requires var init := vs[..|vs| - 1];
      Get(GroupByPath(init), p) == if p in PathsInOrder(init) then Some(MessagesAt(init, p)) else None
    ensures Get(GroupByPath(vs), p) == if p in PathsInOrder(vs) then Some(MessagesAt(vs, p)) else None
  {
    var init := vs[..|vs| - 1];
    var v := vs[|vs| - 1];
    var g := GroupByPath(init);
    assert GroupByPath(vs) == Put(g, v.path, Get(g, v.path).GetOr([]) + [v.message]);
    assert MessagesAt(vs, p) == MessagesAt(init, p) + (if v.path == p then [v.message] else []);
    assert PathsInOrder(vs) == if v.path in PathsInOrder(init) then PathsInOrder(init) else PathsInOrder(init) + [v.path];
    if p == v.path {
      if p !in PathsInOrder(init) {
        MessagesAtAbsent(init, p);
      }
      assert Get(g, p).GetOr([]) == MessagesAt(init, p);
      assert p in PathsInOrder(vs);
      assert Get(GroupByPath(vs), p) == Some(MessagesAt(init, p) + [v.message]);
    } else {
      assert Get(GroupByPath(vs), p) == Get(g, p);
      assert MessagesAt(vs, p) == MessagesAt(init, p);
      assert p in PathsInOrder(vs) <==> p in PathsInOrder(init);
    }
  }

  /** Grouping lists the paths in first-seen order, each with all of its messages in order. */
  lemma {:induction false} GroupByPathSpec(vs: seq<Violation>)
    ensures Keys(GroupByPath(vs)) == PathsInOrder(vs)
    ensures forall p :: Get(GroupByPath(vs), p) == if p in PathsInOrder(vs) then Some(MessagesAt(vs, p)) else None
    decreases |vs|
  {
    if |vs| > 0 {
      GroupByPathSpec(vs[..|vs| - 1]);
      forall p
        ensures Get(GroupByPath(vs), p) == if p in PathsInOrder(vs) then Some(MessagesAt(vs, p)) else None
      {
        GroupStep(vs, p);
      }
    }
  }

  /**
   * The validator's errors as the array handed to `BadRequestException`:
   * `$errors[$fieldName][]` casts a path such as `"0"` to an integer key.
   */
  function ErrorsArray(g: seq<(string, seq<string>)>): PhpArray {
    seq(|g|, i requires 0 <= i < |g| => (StringKey(g[i].0), Array(ListOf(Strs(g[i].1)))))
  }

  /** `validate`: `None` when the object is valid, else the exception it throws. */
  function Validate(obj: Value, validator: Value -> seq<Violation>): (r: Option<BadRequest>)
    ensures r.None? <==> |validator(obj)| == 0
    ensures r.Some? ==> r.value.message == MSG_VALIDATION_ERRORS && r.value.code == 400
  {
    var vs := validator(obj);
    if |vs| == 0 then None
    else Some(NewBadRequest(MSG_VALIDATION_ERRORS, ErrorsArray(GroupByPath(vs))))
  }

  /** The envelope a client sees for the violations: one entry per path, first-seen order, messages in order. */
  function ExpectedEnvelope(vs: seq<Violation>): ErrorEnvelope {
    var ps := PathsInOrder(vs);
    ErrorEnvelope(MSG_VALIDATION_ERRORS, seq(|ps|, i requires 0 <= i < |ps| => FieldError(StringKey(ps[i]), Strs(MessagesAt(vs, ps[i])))))
  }

  /** A failed validation serializes to one entry per violated path, in first-seen order, with that path's messages in order. */
  lemma ValidationEnvelope(obj: Value, validator: Value -> seq<Violation>)
    requires |validator(obj)| > 0
    ensures JsonSerialize(Validate(obj, validator).value) == ExpectedEnvelope(validator(obj))
  {
    var vs := validator(obj);
    var g := GroupByPath(vs);
    var ps := PathsInOrder(vs);
    var errors := ErrorsArray(g);
    GroupByPathSpec(vs);
    SerializeEntries(errors);
    var got := SerializeErrors(errors);
    var want := ExpectedEnvelope(vs).errors;
    assert |g| == |ps| by {
      assert |Keys(g)| == |g|;
    }
    forall i | 0 <= i < |g|
      ensures got[i] == want[i]
    {
      assert g[i].0 == Keys(g)[i] == ps[i];
      ReplaceDistinctGroups(vs);
      GetAt(g, i);
      ValuesOfList(Strs(g[i].1));
    }
  }

  /** The grouped paths are distinct, being keys of a PHP array. */
  lemma {:induction false} ReplaceDistinctGroups(vs: seq<Violation>)
    ensures DistinctKeys(GroupByPath(vs))
    decreases |vs|
  {
    if |vs| > 0 {
      var init := vs[..|vs| - 1];
      ReplaceDistinctGroups(init);
      var g := GroupByPath(init);
      var v := vs[|vs| - 1];
      PutDistinct(g, v.path, Get(g, v.path).GetOr([]) + [v.message]);
    }
  }

  /** Two children whose names are too short: two entries, one per property path, each with its message. */
  lemma ValidationExample(obj: Value, validator: Value -> seq<Violation>)
    requires validator(obj) == [
      Violation("kids[0].name", "Name must be at least 2 characters long"),
      Violation("kids[1].name", "Name must be at least 2 characters long")]
    ensures JsonSerialize(Validate(obj, validator).value) == ErrorEnvelope("Validation errors", [
      FieldError(StrKey("kids[0].name"), [Str("Name must be at least 2 characters long")]),
      FieldError(StrKey("kids[1].name"), [Str("Name must be at least 2 characters long")])])
  {
    var vs := validator(obj);
    var p0, p1, m := "kids[0].name", "kids[1].name", "Name must be at least 2 characters long";
    ValidationEnvelope(obj, validator);
    var first := vs[..|vs| - 1];
    assert first == [vs[0]] && first[..|first| - 1] == [];
    assert p0 != p1 by {
      assert p0[5] != p1[5];
    }
    assert PathsInOrder(first) == [p0];
    assert PathsInOrder(vs) == [p0, p1];
    assert MessagesAt(first, p0) == [m] && MessagesAt(first, p1) == [];
    assert MessagesAt(vs, p0) == [m] && MessagesAt(vs, p1) == [m];
    assert Strs([m]) == [Str(m)];
    assert !IsDigit(p0[0]) && !IsDigit(p1[0]) && p0[0] != '-' && p1[0] != '-';
    assert StringKey(p0) == StrKey(p0) && StringKey(p1) == StrKey(p1);
    assert ExpectedEnvelope(vs).errors == [FieldError(StrKey(p0), [Str(m)]), FieldError(StrKey(p1), [Str(m)])];
  }

  /** A violation on the first item of a validated list (path `"0"`) is reported under the integer key 0. */
  lemma ValidationIntegerPath(obj: Value, validator: Value -> seq<Violation>, m: string)
    requires validator(obj) == [Violation("0", m)]
    ensures JsonSerialize(Validate(obj, validator).value) == ErrorEnvelope("Validation errors", [FieldError(IntKey(0), [Str(m)])])
  {
    var vs := validator(obj);
    ValidationEnvelope(obj, validator);
    assert vs[..|vs| - 1] == [];
    assert PathsInOrder(vs) == ["0"];
    assert MessagesAt(vs, "0") == [m];
    assert Strs([m]) == [Str(m)];
    assert IntToString(0) == "0";
    StringKeyOfInt(0);
  }

  // ----- apply -----

  /** The format handed to `deserialize`; a missing content type reaches `str_ends_with` as `null`. */
  function BodyFormat(contentType: Option<string>): (r: Result<string, Failure>)
    ensures r.Err? <==> contentType.None?
    ensures r.Ok? ==> (r.value == "xml" <==> EndsWith(contentType.value, "xml") || contentType.value == "text/html")
    ensures r.Ok? ==> r.value == "xml" || r.value == "json"
  {
    match contentType
    case None => Err(TypeError("str_ends_with(): Argument #1 ($haystack) must be of type string, null given"))
    case Some(ct) => Ok(if EndsWith(ct, "xml") || ct == "text/html" then "xml" else "json")
  }

  /** `getObjectOrObjectCollectionFromRequestBody`: only `NotNormalizableValueException` is turned into a bad request. */
  function FromRequestBody(request: Request, target: string, env: Environment): Result<Value, Thrown> {
    match BodyFormat(request.contentType)
    case Err(f) => Err(OtherThrown(f))
    case Ok(format) =>
      match env.deserialize(request.content, target, format)
      case Ok(v) => Ok(v)
      case Err(NotNormalizable(m)) =>
        Err(BadRequestThrown(NewBadRequest(MSG_DESERIALIZATION_PROBLEM, [(StrKey(KEY_CHECK_CONTRACT), Str(m))])))
      case Err(OtherSerializerError(c, m)) => Err(OtherThrown(Thrown(c, m)))
      case Err(ForeignError(c, m)) => Err(OtherThrown(Thrown(c, m)))
  }

  /** The GET branch: filtered query parameters, denormalized; any serializer exception becomes a bad request. */
  function FromQuery(request: Request, target: string, env: Environment): Result<Value, Thrown> {
    match env.denormalize(FixScalarData(request.query, env.filters), target)
    case Ok(v) => Ok(v)
    case Err(ForeignError(c, m)) => Err(OtherThrown(Thrown(c, m)))
    case Err(_) => Err(BadRequestThrown(NewBadRequest(MSG_UNABLE_TO_DENORMALIZE, [])))
  }

  /** `apply`: build the obj from the query (GET) or the body (anything else), then validate it. */
  function Apply(request: Request, target: string, env: Environment): (r: Result<Value, Thrown>)
    ensures r.Ok? ==> |env.validate(r.value)| == 0
  {
    var obj :- if request.httpMethod == "GET" then FromQuery(request, target, env) else FromRequestBody(request, target, env);
    match Validate(obj, env.validate)
    case Some(e) => Err(BadRequestThrown(e))
    case None => Ok(obj)
  }

  /** Serializer failures on a GET become `'Unable to denormalize data'` with no field errors. */
  lemma QueryFailureIsBadRequest(request: Request, target: string, env: Environment)
    requires request.httpMethod == "GET"
    requires var d := env.denormalize(FixScalarData(request.query, env.filters), target); d.Err? && !d.error.ForeignError?
    ensures Apply(request, target, env) == Err(BadRequestThrown(BadRequest(MSG_UNABLE_TO_DENORMALIZE, 400, [])))
  {
  }

  /** An unnormalizable body becomes `'Deserialization problem'` keyed by `'check the API contract'`. */
  lemma BodyFailureIsBadRequest(request: Request, target: string, env: Environment)
    requires request.httpMethod != "GET" && request.contentType.Some?
    requires var format := BodyFormat(request.contentType).value;
      env.deserialize(request.content, target, format).Err? && env.deserialize(request.content, target, format).error.NotNormalizable?
    ensures
      var format := BodyFormat(request.contentType).value;
      var m := env.deserialize(request.content, target, format).error.message;
      && Apply(request, target, env).Err?
      && Apply(request, target, env).error.BadRequestThrown?
      && JsonSerialize(Apply(request, target, env).error.exception)
         == ErrorEnvelope(MSG_DESERIALIZATION_PROBLEM, [FieldError(StrKey(KEY_CHECK_CONTRACT), [Str(m)])])
  {
    var format := BodyFormat(request.contentType).value;
    var m := env.deserialize(request.content, target, format).error.message;
    SerializeEntries([(StrKey(KEY_CHECK_CONTRACT), Str(m))]);
  }

  /** An obj that reaches validation is returned exactly when it is valid; otherwise the violations are reported. */
  lemma ApplyValidates(request: Request, target: string, env: Environment)
    requires var o := if request.httpMethod == "GET" then FromQuery(request, target, env) else FromRequestBody(request, target, env); o.Ok?
    ensures
      var o := (if request.httpMethod == "GET" then FromQuery(request, target, env) else FromRequestBody(request, target, env)).value;
      && (|env.validate(o)| == 0 ==> Apply(request, target, env) == Ok(o))
      && (|env.validate(o)| > 0 ==>
            && Apply(request, target, env).Err?
            && Apply(request, target, env).error.BadRequestThrown?
            && JsonSerialize(Apply(request, target, env).error.exception) == ExpectedEnvelope(env.validate(o)))
  {
    var o := (if request.httpMethod == "GET" then FromQuery(request, target, env) else FromRequestBody(request, target, env)).value;
    if |env.validate(o)| > 0 {
      ValidationEnvelope(o, env.validate);
    }
  }

  // ----- supports / resolve -----

  /** What `supports` answers and what it leaves in `currentArgumentFqn`. */
  datatype Support = Support(supported: bool, currentArgumentFqn: Option<string>)

  const NOT_SUPPORTED: Support := Support(false, None)

  const FALSE_HAYSTACK: string := "in_array(): Argument #2 ($haystack) must be of type array, bool given"
  const NULL_CONTROLLER: string :=
    "getClassNameWithNamespace(): Argument #1 ($controllerActionFunction) must be of type string, null given"

  /** The class-based part of `supports`, reached when the `array` branch does not answer. */
  function SupportsClass(argType: string, env: Environment): Result<Support, Failure> {
    if !env.classExists(argType) then Ok(NOT_SUPPORTED)
    else
      match env.classImplements(argType)
      case None => Err(TypeError(FALSE_HAYSTACK))
      case Some(implemented) =>
        if OBJECT_MARKER in implemented then Ok(Support(true, Some(OBJECT_MARKER)))
        else if JSON_REQUEST_MARKER in implemented then Ok(Support(true, Some(JSON_REQUEST_MARKER)))
        else Ok(NOT_SUPPORTED)
  }

  /** `supports`: always starts by forgetting the previous argument. */
  function Supports(request: Request, argument: ArgumentMetadata, env: Environment): (r: Result<Support, Failure>)
    ensures r.Ok? ==> (r.value.supported <==> r.value.currentArgumentFqn.Some?)
  {
    match argument.argType
    case None => Ok(NOT_SUPPORTED)
    case Some(t) =>
      if Lower(t) in SCALAR_TYPES then Ok(NOT_SUPPORTED)
      else if t == "array" then
        match request.controller
        case None => Err(TypeError(NULL_CONTROLLER))
        case Some(controller) =>
          var controllerClass := Explode("::", controller)[0];
          var fqn :- GetClassNameWithNamespace(controller, argument.name, env.docTags(controller), env.fileTokens(controllerClass));
          match env.classImplements(fqn)
          case None => Err(TypeError(FALSE_HAYSTACK))
          case Some(implemented) =>
            if OBJECT_MARKER in implemented then Ok(Support(true, Some(fqn)))
            else SupportsClass(t, env)
      else SupportsClass(t, env)
  }

  /** The argument `resolve` yields: a bound obj, or a `JsonRequest` wrapping the request. */
  datatype Argument = Bound(value: Value) | JsonRequestArgument(request: Request)

  const NULL_FQN: string :=
    "getClassNameWithNamespaceForApply(): Argument #1 ($classNameWithNamespace) must be of type string, null given"
  const NULL_TARGET: string := "apply(): Argument #2 ($classNameWithNamespace) must be of type string, null given"

  /** `resolve`, reading the `currentArgumentFqn` left by the last `supports`. */
  function Resolve(request: Request, argument: ArgumentMetadata, currentArgumentFqn: Option<string>, env: Environment): Result<Argument, Thrown> {
    if argument.argType == Some("array") then
      match currentArgumentFqn
      case None => Err(OtherThrown(TypeError(NULL_FQN)))
      case Some(fqn) =>
        var v :- Apply(request, ForApply(fqn), env);
        Ok(Bound(v))
    else if currentArgumentFqn == Some(OBJECT_MARKER) then
      match argument.argType
      case None => Err(OtherThrown(TypeError(NULL_TARGET)))
      case Some(t) =>
        var v :- Apply(request, t, env);
        Ok(Bound(v))
    else Ok(JsonRequestArgument(request))
  }

  /**
   * The decision for a declared class type (not `array`, not a scalar): an
   * unknown class is not supported, a class without an interface list is
   * a type error, and otherwise the object marker wins over the
   * JSON-request marker, either one being recorded for `resolve`.
   */
  lemma SupportsClassDecision(request: Request, argument: ArgumentMetadata, env: Environment)
    requires argument.argType.Some? && argument.argType.value != "array"
    requires Lower(argument.argType.value) !in SCALAR_TYPES
    ensures
      var t, r := argument.argType.value, Supports(request, argument, env);
      && (!env.classExists(t) ==> r == Ok(NOT_SUPPORTED))
      && (env.classExists(t) && env.classImplements(t).None? ==> r == Err(TypeError(FALSE_HAYSTACK)))
      && (env.classExists(t) && env.classImplements(t).Some? ==>
          var implemented := env.classImplements(t).value;
          && (OBJECT_MARKER in implemented ==> r == Ok(Support(true, Some(OBJECT_MARKER))))
          && (OBJECT_MARKER !in implemented && JSON_REQUEST_MARKER in implemented ==>
                r == Ok(Support(true, Some(JSON_REQUEST_MARKER))))
          && (OBJECT_MARKER !in implemented && JSON_REQUEST_MARKER !in implemented ==> r == Ok(NOT_SUPPORTED)))
  {
  }

  /**
   * The decision for an `array` argument: the controller must be known, the
   * documented element class is resolved, and it is recorded when it
   * implements the object marker; otherwise `array` is tried as a class,
   * which does not exist.
   */
  lemma SupportsCollectionDecision(request: Request, argument: ArgumentMetadata, env: Environment)
    requires argument.argType == Some("array")
    ensures request.controller.None? ==> Supports(request, argument, env) == Err(TypeError(NULL_CONTROLLER))
    ensures request.controller.Some? ==>
      var controller := request.controller.value;
      var fqn := GetClassNameWithNamespace(controller, argument.name, env.docTags(controller),
                                           env.fileTokens(Explode("::", controller)[0]));
      var r := Supports(request, argument, env);
      && (fqn.Err? ==> r == Err(fqn.error))
      && (fqn.Ok? && env.classImplements(fqn.value).None? ==> r == Err(TypeError(FALSE_HAYSTACK)))
      && (fqn.Ok? && env.classImplements(fqn.value).Some? && OBJECT_MARKER in env.classImplements(fqn.value).value ==>
            r == Ok(Support(true, Some(fqn.value))))
      && ((fqn.Ok? && env.classImplements(fqn.value).Some? && OBJECT_MARKER !in env.classImplements(fqn.value).value
           && !env.classExists("array")) ==> r == Ok(NOT_SUPPORTED))
  {
    assert Lower("array") == "array";
    assert forall i | 0 <= i < |SCALAR_TYPES| :: SCALAR_TYPES[i][0] != 'a';
  }

  /** Scalar types, in any letter case, are never taken over. */
  lemma ScalarsNotSupported(request: Request, argument: ArgumentMetadata, env: Environment)
    requires argument.argType.Some? && Lower(argument.argType.value) in SCALAR_TYPES
    ensures Supports(request, argument, env) == Ok(NOT_SUPPORTED)
  {
  }

  /** A declared value-obj class is bound by applying the request to that very class. */
  lemma ObjectHandshake(request: Request, argument: ArgumentMetadata, env: Environment)
    requires argument.argType.Some? && argument.argType.value != "array"
    requires Supports(request, argument, env).Ok?
    requires Supports(request, argument, env).value.currentArgumentFqn == Some(OBJECT_MARKER)
    ensures OBJECT_MARKER in env.classImplements(argument.argType.value).GetOr({})
    ensures
      var st := Supports(request, argument, env).value.currentArgumentFqn;
      Resolve(request, argument, st, env) == (match Apply(request, argument.argType.value, env)
        case Ok(v) => Ok(Bound(v))
        case Err(e) => Err(e))
  {
  }

  /**
   * An `array` argument documented as a collection of value objects is bound
   * by applying the request to `Type[]`, `Type` being the resolved class.
   */
  lemma CollectionHandshake(request: Request, argument: ArgumentMetadata, env: Environment)
    requires argument.argType == Some("array") && !env.classExists("array")
    requires Supports(request, argument, env).Ok? && Supports(request, argument, env).value.supported
    ensures
      var fqn := Supports(request, argument, env).value.currentArgumentFqn.value;
      && request.controller.Some?
      && OBJECT_MARKER in env.classImplements(fqn).GetOr({})
      && Resolve(request, argument, Some(fqn), env) == (match Apply(request, ForApply(fqn), env)
        case Ok(v) => Ok(Bound(v))
        case Err(e) => Err(e))
  {
  }

  /** A class implementing only the JSON-request marker gets the request wrapped, untouched. */
  lemma JsonRequestHandshake(request: Request, argument: ArgumentMetadata, env: Environment)
    requires argument.argType.Some? && argument.argType.value != "array"
    requires Supports(request, argument, env) == Ok(Support(true, Some(JSON_REQUEST_MARKER)))
    ensures Resolve(request, argument, Some(JSON_REQUEST_MARKER), env) == Ok(JsonRequestArgument(request))
  {
  }

  /** Without a preceding successful `supports`, an `array` argument cannot be resolved. */
  lemma ResolveWithoutSupports(request: Request, argument: ArgumentMetadata, env: Environment)
    requires argument.argType == Some("array")
    ensures Resolve(request, argument, None, env) == Err(OtherThrown(TypeError(NULL_FQN)))
  {
  }
}

=== FILE: bad_request.dfy ===
/**
 * `BadRequestException`: a message plus a map from field name to one message
 * or a list of messages, serialized as `{message, errors: [{fieldName, messages}]}`.
 */
module BadRequestException {
  import opened OrderedMaps
  import opened PhpValues

  const HTTP_BAD_REQUEST: int := 400
  const DEFAULT_MESSAGE: string := "Unexpected error"

  /** The exception as constructed: message, exception code and the raw errors array. */
  datatype BadRequest = BadRequest(message: string, code: int, errors: PhpArray)

  /** The constructor; the exception code is always HTTP 400. */
  function NewBadRequest(message: string := DEFAULT_MESSAGE, errors: PhpArray := []): BadRequest {
    BadRequest(message, HTTP_BAD_REQUEST, errors)
  }

  /** One element of the serialized `errors` list: exactly `fieldName` and `messages`. */
  datatype FieldError = FieldError(fieldName: Key, messages: seq<Value>)

  /** The serialized exception: exactly `message` and `errors`. */
  datatype ErrorEnvelope = ErrorEnvelope(message: string, errors: seq<FieldError>)

  /** A string becomes a one-element list, an array its values, anything else nothing. */
  function MessagesOf(error: Value): seq<Value> {
    match error
    case Str(_) => [error]
    case Array(entries) => Values(entries)
    case _ => []
  }

  function SerializeErrors(errors: PhpArray): seq<FieldError>
    decreases |errors|
  {
    if |errors| == 0 then []
    else [FieldError(errors[0].0, MessagesOf(errors[0].1))] + SerializeErrors(errors[1..])
  }

  /** `jsonSerialize()`. */
  function JsonSerialize(e: BadRequest): ErrorEnvelope {
    ErrorEnvelope(e.message, SerializeErrors(e.errors))
  }

  function FieldNames(fes: seq<FieldError>): seq<Key> {
    seq(|fes|, i requires 0 <= i < |fes| => fes[i].fieldName)
  }

  /**
   * Serialization emits one entry per input key, in input order, named after
   * the key and holding that key's messages.
   */
  lemma {:induction false} SerializeEntries(errors: PhpArray)
    ensures |SerializeErrors(errors)| == |errors|
    ensures forall i | 0 <= i < |errors| ::
      SerializeErrors(errors)[i] == FieldError(errors[i].0, MessagesOf(errors[i].1))
    decreases |errors|
  {
    if |errors| > 0 {
      SerializeEntries(errors[1..]);
    }
  }

  /**
   * The serialized envelope keeps the message, lists exactly the input keys
   * in input order, and turns each value into its messages: a string into
   * itself alone, an array into its values in order (keys dropped), and
   * anything else into an empty list, without dropping the entry.
   */
  lemma JsonSerializeShape(e: BadRequest)
    ensures JsonSerialize(e).message == e.message
    ensures FieldNames(JsonSerialize(e).errors) == Keys(e.errors)
    ensures forall i | 0 <= i < |e.errors| && e.errors[i].1.Str? ::
      JsonSerialize(e).errors[i].messages == [e.errors[i].1]
    ensures forall i | 0 <= i < |e.errors| && e.errors[i].1.Array? ::
      JsonSerialize(e).errors[i].messages == Values(e.errors[i].1.entries)
    ensures forall i | 0 <= i < |e.errors| && !e.errors[i].1.Str? && !e.errors[i].1.Array? ::
      JsonSerialize(e).errors[i].messages == []
  {
    SerializeEntries(e.errors);
  }

  /** A default-constructed exception serializes to `{'Unexpected error', []}` and carries code 400. */
  lemma DefaultSerialize()
    ensures NewBadRequest().code == 400
    ensures JsonSerialize(NewBadRequest()) == ErrorEnvelope("Unexpected error", [])
  {
  }

  /** Every error array that produced an envelope's entries, written back as lists. */
  function Restore(fes: seq<FieldError>): PhpArray {
    seq(|fes|, i requires 0 <= i < |fes| => (fes[i].fieldName, Array(ListOf(fes[i].messages))))
  }

  /** Writing envelope entries back as message lists and serializing again loses nothing. */
  lemma SerializeRestore(fes: seq<FieldError>)
    ensures SerializeErrors(Restore(fes)) == fes
  {
    var errors := Restore(fes);
    SerializeEntries(errors);
    forall i | 0 <= i < |fes|
      ensures SerializeErrors(errors)[i] == fes[i]
    {
      ValuesOfList(fes[i].messages);
    }
  }

  /** When every field already holds a list of messages, serialization is invertible. */
  lemma RestoreSerialize(errors: PhpArray)
    requires forall i | 0 <= i < |errors| ::
      errors[i].1.Array? && errors[i].1.entries == ListOf(Values(errors[i].1.entries))
    ensures Restore(SerializeErrors(errors)) == errors
  {
    SerializeEntries(errors);
  }
}

=== FILE: class_names.dfy ===
/**
 * How `ControllerActionArgumentResolver` finds the class of an `array`
 * argument: the `@param Type[] $name` tag of the controller action names a
 * short class, which is resolved through the controller file's `use`
 * statements, or else assumed to live in the controller's namespace.
 */
module ClassNames {
  import opened Wrappers
  import opened OrderedMaps
  import opened Strings
  import opened PhpValues

  const NS_SEPARATOR: string := "\\"

  /** A doc-block tag: a Laminas `ParamTag` with its types and `$variable`, or any other tag. */
  datatype DocTag = ParamTag(types: seq<string>, variableName: string) | OtherTag

  predicate Documents(tag: DocTag, argumentName: string) {
    tag.ParamTag? && tag.variableName == "$" + argumentName
  }

  /** `str_replace('[]', '', $s)`: every `[]`, found left to right without overlap, removed. */
  function StripBrackets(s: string): string {
    Join("", Explode("[]", s))
  }

  const NULL_SUBJECT: string := "str_replace(): Argument #3 ($subject) must be of type array|string, null given"

  /**
   * `findShortClassName`: the first type of the first `@param` tag naming
   * the argument, with `[]` removed; `''` when no tag names it. A tag
   * without types hands `null` to `str_replace`, a type error.
   */
  function FindShortClassName(argumentName: string, tags: seq<DocTag>): (r: Result<string, Failure>)
    ensures (forall i | 0 <= i < |tags| :: !Documents(tags[i], argumentName)) ==> r == Ok("")
    ensures forall i | 0 <= i < |tags| && Documents(tags[i], argumentName) ::
      (forall j | 0 <= j < i :: !Documents(tags[j], argumentName)) ==>
        r == if |tags[i].types| == 0 then Err(TypeError(NULL_SUBJECT)) else Ok(StripBrackets(tags[i].types[0]))
    decreases |tags|
  {
    if |tags| == 0 then Ok("")
    else if Documents(tags[0], argumentName) then
      if |tags[0].types| == 0 then Err(TypeError(NULL_SUBJECT)) else Ok(StripBrackets(tags[0].types[0]))
    else
      assert forall i | 1 <= i < |tags| :: tags[1..][i - 1] == tags[i];
      FindShortClassName(argumentName, tags[1..])
  }

  /** The unit test's tags: `@param string $argument` and `@param Model[] $model`. */
  lemma FindShortClassNameExample()
    ensures FindShortClassName("model", [ParamTag(["string"], "$argument"), ParamTag(["Model[]"], "$model")]) == Ok("Model")
  {
    var tags := [ParamTag(["string"], "$argument"), ParamTag(["Model[]"], "$model")];
    assert "$" + "model" == "$model";
    assert !Documents(tags[0], "model") by {
      assert |tags[0].variableName| != |"$model"|;
    }
    assert "Model[]" == ForApply("Model");
    assert "[]"[0] == '[' && '[' !in "Model";
    NoSeparatorChar("[]", "Model");
    ForApplyRoundTrip("Model");
  }

  /** `getClassNameWithNamespaceForApply`: the collection type handed to the serializer. */
  function ForApply(fqn: string): string {
    fqn + "[]"
  }

  /** Appending `[]` never creates an occurrence of `[]` before the appended one. */
  lemma FirstBracketsAppended(fqn: string)
    requires IndexOf(fqn, "[]").None?
    ensures IndexOf(ForApply(fqn), "[]") == Some(|fqn|)
  {
    var s := ForApply(fqn);
    forall j | 0 <= j < |fqn|
      ensures !OccursAt(s, "[]", j)
    {
      if OccursAt(s, "[]", j) {
        assert s[j..j + 2] == "[]";
        assert s[j + 1] == ']';
        if j + 1 < |fqn| {
          assert fqn[j..j + 2] == s[j..j + 2];
          assert OccursAt(fqn, "[]", j);
        }
      }
    }
    assert s[|fqn|..|fqn| + 2] == "[]";
    IndexOfIs(s, "[]", |fqn|);
  }

  /** Removing `[]` from the collection type gives back a class name that contains none. */
  lemma ForApplyRoundTrip(fqn: string)
    requires IndexOf(fqn, "[]").None?
    ensures StripBrackets(ForApply(fqn)) == fqn
  {
    var s := ForApply(fqn);
    FirstBracketsAppended(fqn);
    ExplodeUnfold("[]", s, |fqn|);
    assert s[..|fqn|] == fqn;
    assert s[|fqn| + 2..] == "";
    assert Explode("[]", "") == [""];
    assert Explode("[]", s) == [fqn, ""];
    JoinCons("", fqn, [""]);
  }

  /** `str_replace` makes a single pass: `[[]]` loses its inner pair only. */
  lemma StripBracketsSinglePass()
    ensures StripBrackets("[[]]") == "[]"
  {
    var s := "[[]]";
    assert !OccursAt(s, "[]", 0) by {
      assert s[0..2] == "[[";
    }
    assert OccursAt(s, "[]", 1);
    IndexOfIs(s, "[]", 1);
    ExplodeUnfold("[]", s, 1);
    assert s[3..] == "]";
    assert s[..1] == "[";
    NoSeparatorChar("[]", "]");
  }

  // ----- `use` statements -----

  /** The token kinds `getUseList` tells apart; everything else is `OtherToken`. */
  datatype TokenName = ClassKeyword | UseKeyword | Semicolon | NameQualified | StringName | OtherToken

  datatype Token = Token(name: TokenName, text: string)

  /** Inside a `use` statement or not, the name and alias seen so far, and the list built. */
  datatype ScanState = ScanState(inUse: bool, use: string, alias: string, result: seq<(string, string)>)

  const START: ScanState := ScanState(false, "", "", [])

  /** One token of the `foreach` in `getUseList` (the `T_CLASS` exit is handled by `Scan`). */
  function Step(st: ScanState, tok: Token): ScanState {
    if tok.name == UseKeyword then ScanState(true, "", "", st.result)
    else if !st.inUse then st
    else
      match tok.name
      case Semicolon => ScanState(false, st.use, st.alias, Put(st.result, st.alias, st.use))
      case NameQualified => st.(use := tok.text, alias := tok.text)
      case StringName => st.(alias := tok.text)
      case _ => st
  }

  predicate ClassFree(tokens: seq<Token>) {
    forall i | 0 <= i < |tokens| :: tokens[i].name != ClassKeyword
  }

  /** Runs the loop until the tokens end or `class` appears. */
  function Scan(tokens: seq<Token>, st: ScanState): ScanState
    decreases |tokens|
  {
    if |tokens| == 0 || tokens[0].name == ClassKeyword then st
    else Scan(tokens[1..], Step(st, tokens[0]))
  }

  /** `getUseList`: alias to imported name, for the `use` statements before the first `class` token. */
  function GetUseList(tokens: seq<Token>): seq<(string, string)> {
    Scan(tokens, START).result
  }

  /** Scanning is a left fold: a class-free prefix can be scanned first. */
  lemma {:induction false} ScanAppend(a: seq<Token>, b: seq<Token>, st: ScanState)
    requires ClassFree(a)
    ensures Scan(a + b, st) == Scan(b, Scan(a, st))
    decreases |a|
  {
    if |a| == 0 {
      assert a + b == b;
    } else {
      assert (a + b)[0] == a[0];
      assert (a + b)[1..] == a[1..] + b;
      ScanAppend(a[1..], b, Step(st, a[0]));
    }
  }

  /** Nothing after the first `class` token is read. */
  lemma StopsAtClass(a: seq<Token>, c: Token, b: seq<Token>, st: ScanState)
    requires ClassFree(a)
    requires c.name == ClassKeyword
    ensures Scan(a + [c] + b, st) == Scan(a, st)
  {
    assert a + [c] + b == a + ([c] + b);
    ScanAppend(a, [c] + b, st);
  }

  predicate OutsideUse(tokens: seq<Token>) {
    forall i | 0 <= i < |tokens| :: tokens[i].name != UseKeyword && tokens[i].name != ClassKeyword
  }

  /**
   * Outside a `use` statement only `use` and `class` matter: names, `;` and
   * the rest (a `namespace App\Controller;` line, say) change nothing.
   */
  lemma {:induction false} OutsideUseIgnored(tokens: seq<Token>, st: ScanState)
    requires !st.inUse
    requires OutsideUse(tokens)
    ensures Scan(tokens, st) == st
    decreases |tokens|
  {
    if |tokens| > 0 {
      assert Step(st, tokens[0]) == st;
      OutsideUseIgnored(tokens[1..], st);
    }
  }

  /** The tokens of `namespace A\B;` before any `use` give an empty list. */
  lemma NamespaceLineIgnored()
    ensures GetUseList([Token(OtherToken, "namespace"), Token(OtherToken, " "),
                        Token(NameQualified, "A\\B"), Token(Semicolon, ";")]) == []
  {
    var tokens := [Token(OtherToken, "namespace"), Token(OtherToken, " "),
                   Token(NameQualified, "A\\B"), Token(Semicolon, ";")];
    OutsideUseIgnored(tokens, START);
  }

  predicate Ignorable(tokens: seq<Token>) {
    forall i | 0 <= i < |tokens| :: tokens[i].name == OtherToken
  }

  /** Whitespace, `as`, comments and other tokens change nothing. */
  lemma {:induction false} IgnorableTokens(ws: seq<Token>, st: ScanState)
    requires Ignorable(ws)
    ensures Scan(ws, st) == st
    decreases |ws|
  {
    if |ws| > 0 {
      IgnorableTokens(ws[1..], st);
    }
  }

  /** `use A\B;`, with any ignorable tokens in between, maps `A\B` to itself. */
  lemma UseStatement(u: Token, w1: seq<Token>, q: Token, w2: seq<Token>, semi: Token, st: ScanState)
    requires u.name == UseKeyword && q.name == NameQualified && semi.name == Semicolon
    requires Ignorable(w1) && Ignorable(w2)
    ensures Scan([u] + w1 + [q] + w2 + [semi], st).result == Put(st.result, q.text, q.text)
    ensures !Scan([u] + w1 + [q] + w2 + [semi], st).inUse
  {
    var s1 := Step(st, u);
    ScanAppend([u], w1 + [q] + w2 + [semi], st);
    assert [u] + w1 + [q] + w2 + [semi] == [u] + (w1 + [q] + w2 + [semi]);
    assert w1 + [q] + w2 + [semi] == w1 + ([q] + w2 + [semi]);
    ScanAppend(w1, [q] + w2 + [semi], s1);
    IgnorableTokens(w1, s1);
    var s2 := Step(s1, q);
    ScanAppend([q], w2 + [semi], s1);
    assert [q] + w2 + [semi] == [q] + (w2 + [semi]);
    ScanAppend(w2, [semi], s2);
    IgnorableTokens(w2, s2);
  }

  /** `use A\B as C;`: the alias replaces the imported name as key. */
  lemma UseAsStatement(u: Token, q: Token, w: seq<Token>, a: Token, semi: Token, st: ScanState)
    requires u.name == UseKeyword && q.name == NameQualified && a.name == StringName && semi.name == Semicolon
    requires Ignorable(w)
    ensures Scan([u, q] + w + [a, semi], st).result == Put(st.result, a.text, q.text)
  {
    var s2 := Step(Step(st, u), q);
    ScanAppend([u, q], w + [a, semi], st);
    assert [u, q] + w + [a, semi] == [u, q] + (w + [a, semi]);
    assert [u, q][1..] == [q] && [q][1..] == [];
    assert Scan([u, q], st) == Scan([q], Step(st, u)) == Scan([], s2);
    ScanAppend(w, [a, semi], s2);
    IgnorableTokens(w, s2);
    assert [a, semi][1..] == [semi] && [semi][1..] == [];
    assert Scan([a, semi], s2) == Scan([semi], Step(s2, a)) == Scan([], Step(Step(s2, a), semi));
  }

  /** The use list never holds an alias twice. */
  lemma {:induction false} ScanDistinct(tokens: seq<Token>, st: ScanState)
    requires DistinctKeys(st.result)
    ensures DistinctKeys(Scan(tokens, st).result)
    decreases |tokens|
  {
    if |tokens| > 0 && tokens[0].name != ClassKeyword {
      if st.inUse && tokens[0].name == Semicolon {
        PutDistinct(st.result, st.alias, st.use);
      }
      ScanDistinct(tokens[1..], Step(st, tokens[0]));
    }
  }

  /** The text of a qualified-name token of `all`, or empty. */
  predicate ImportedName(v: string, all: seq<Token>) {
    v == "" || Token(NameQualified, v) in all
  }

  /** The text of a name token of `all`, or empty. */
  predicate AliasName(k: string, all: seq<Token>) {
    k == "" || Token(NameQualified, k) in all || Token(StringName, k) in all
  }

  predicate StateFrom(st: ScanState, all: seq<Token>) {
    && ImportedName(st.use, all)
    && AliasName(st.alias, all)
    && forall i | 0 <= i < |st.result| :: ImportedName(st.result[i].1, all) && AliasName(st.result[i].0, all)
  }

  lemma StepFrom(st: ScanState, tok: Token, all: seq<Token>)
    requires StateFrom(st, all)
    requires tok in all
    ensures StateFrom(Step(st, tok), all)
  {
    if st.inUse && tok.name == Semicolon {
      PutEntries(st.result, st.alias, st.use);
    }
  }

  lemma {:induction false} ScanFrom(tokens: seq<Token>, st: ScanState, all: seq<Token>)
    requires StateFrom(st, all)
    requires forall i | 0 <= i < |tokens| :: tokens[i] in all
    ensures StateFrom(Scan(tokens, st), all)
    decreases |tokens|
  {
    if |tokens| > 0 && tokens[0].name != ClassKeyword {
      StepFrom(st, tokens[0], all);
      ScanFrom(tokens[1..], Step(st, tokens[0]), all);
    }
  }

  /**
   * Nothing is invented: every imported name is the text of a qualified-name
   * token (or empty, for `use Foo;`), every alias the text of a name token
   * (or empty), and no alias repeats.
   */
  lemma UseListFromTokens(tokens: seq<Token>)
    ensures DistinctKeys(GetUseList(tokens))
    ensures forall i | 0 <= i < |GetUseList(tokens)| ::
      ImportedName(GetUseList(tokens)[i].1, tokens) && AliasName(GetUseList(tokens)[i].0, tokens)
  {
    ScanDistinct(tokens, START);
    ScanFrom(tokens, START, tokens);
  }

  // ----- short names -----

  /** A name with at least one namespace separator. */
  predicate Qualified(fqn: string) {
    |Explode(NS_SEPARATOR, fqn)| >= 2
  }

  /** The class name without its namespace (`end(explode('\\', $fqn))`). */
  function ShortName(fqn: string): string {
    LastSegment(NS_SEPARATOR, fqn)
  }

  /** One iteration of `addShortNames`: a new key is added, an existing one never overwritten. */
  function AddShortName(acc: seq<(string, string)>, fqn: string): seq<(string, string)> {
    if !Qualified(fqn) || ShortName(fqn) in Keys(acc) then acc
    else Put(acc, ShortName(fqn), fqn)
  }

  function AddShortNamesFrom(acc: seq<(string, string)>, names: seq<string>): seq<(string, string)>
    decreases |names|
  {
    if |names| == 0 then acc
    else AddShortNamesFrom(AddShortName(acc, names[0]), names[1..])
  }

  /**
   * The first qualified name of `names` whose short name is `s`: the one
   * `addShortNames` keeps, since `isset` skips every later one.
   */
  function FirstWithShortName(names: seq<string>, s: string): (r: Option<string>)
    ensures r.Some? ==> r.value in names && Qualified(r.value) && ShortName(r.value) == s
    ensures r.None? <==> forall v | v in names :: !Qualified(v) || ShortName(v) != s
    decreases |names|
  {
    if |names| == 0 then None
    else if Qualified(names[0]) && ShortName(names[0]) == s then Some(names[0])
    else
      assert names == [names[0]] + names[1..];
      FirstWithShortName(names[1..], s)
  }

  /** The earliest qualified name with short name `s` is the one chosen, whatever follows it. */
  lemma {:induction false} FirstWithShortNameIsFirst(names: seq<string>, s: string, i: nat)
    requires i < |names| && Qualified(names[i]) && ShortName(names[i]) == s
    requires forall j | 0 <= j < i :: !Qualified(names[j]) || ShortName(names[j]) != s
    ensures FirstWithShortName(names, s) == Some(names[i])
    decreases i
  {
    if i > 0 {
      FirstWithShortNameIsFirst(names[1..], s, i - 1);
    }
  }

  /** `addShortNames`: the `foreach` runs over the values of the list as it was on entry. */
  function AddShortNames(useList: seq<(string, string)>): seq<(string, string)> {
    AddShortNamesFrom(useList, Values(useList))
  }

  lemma AddShortNameAppends(acc: seq<(string, string)>, fqn: string)
    ensures AddShortName(acc, fqn) == acc
      || (Qualified(fqn) && ShortName(fqn) !in Keys(acc) && AddShortName(acc, fqn) == acc + [(ShortName(fqn), fqn)])
  {
    if Qualified(fqn) && ShortName(fqn) !in Keys(acc) {
      PutNew(acc, ShortName(fqn), fqn);
    }
  }

  /**
   * The fold only appends, and each appended entry maps the short name of a
   * qualified name of `names` to that name.
   */
  lemma {:induction false} AddShortNamesFromAppends(acc: seq<(string, string)>, names: seq<string>)
    ensures |acc| <= |AddShortNamesFrom(acc, names)|
    ensures AddShortNamesFrom(acc, names)[..|acc|] == acc
    ensures forall i | |acc| <= i < |AddShortNamesFrom(acc, names)| ::
      var e := AddShortNamesFrom(acc, names)[i];
      e.1 in names && Qualified(e.1) && e.0 == ShortName(e.1)
    decreases |names|
  {
    if |names| > 0 {
      var acc' := AddShortName(acc, names[0]);
      AddShortNameAppends(acc, names[0]);
      AddShortNamesFromAppends(acc', names[1..]);
      var r := AddShortNamesFrom(acc, names);
      assert r == AddShortNamesFrom(acc', names[1..]);
      assert r[..|acc|] == r[..|acc'|][..|acc|];
      forall i | |acc| <= i < |r|
        ensures r[i].1 in names && Qualified(r[i].1) && r[i].0 == ShortName(r[i].1)
      {
        if i < |acc'| {
          assert r[i] == acc'[i] == (ShortName(names[0]), names[0]);
        } else {
          assert r[i].1 in names[1..];
        }
      }
    }
  }

  /** Every qualified name of `names` ends up with its short name as a key. */
  lemma {:induction false} AddShortNamesFromComplete(acc: seq<(string, string)>, names: seq<string>)
    ensures forall k | k in Keys(acc) :: k in Keys(AddShortNamesFrom(acc, names))
    ensures forall i | 0 <= i < |names| && Qualified(names[i]) ::
      ShortName(names[i]) in Keys(AddShortNamesFrom(acc, names))
    decreases |names|
  {
    if |names| > 0 {
      var acc' := AddShortName(acc, names[0]);
      AddShortNameAppends(acc, names[0]);
      KeysAppend(acc, [(ShortName(names[0]), names[0])]);
      AddShortNamesFromComplete(acc', names[1..]);
      forall i | 0 < i < |names| && Qualified(names[i])
        ensures ShortName(names[i]) in Keys(AddShortNamesFrom(acc, names))
      {
        assert names[i] == names[1..][i - 1];
      }
    }
  }

  /** A short name that is not yet a key ends up bound to the first qualified name that has it. */
  lemma {:induction false} AddShortNamesFromFirst(acc: seq<(string, string)>, names: seq<string>, s: string)
    requires s !in Keys(acc)
    ensures Get(AddShortNamesFrom(acc, names), s) == FirstWithShortName(names, s)
    decreases |names|
  {
    GetSome(acc, s);
    if |names| > 0 {
      var acc' := AddShortName(acc, names[0]);
      var r := AddShortNamesFrom(acc', names[1..]);
      assert AddShortNamesFrom(acc, names) == r;
      if Qualified(names[0]) && ShortName(names[0]) == s {
        assert acc' == Put(acc, s, names[0]);
        assert Get(acc', s) == Some(names[0]);
        AddShortNamesFromAppends(acc', names[1..]);
        assert |acc'| <= |r| && r[..|acc'|] == acc';
        var tail := r[|acc'|..];
        assert r == acc' + tail;
        GetSome(acc', s);
        GetAppend(acc', tail, s);
        assert FirstWithShortName(names, s) == Some(names[0]);
      } else {
        assert Get(acc', s) == None;
        GetSome(acc', s);
        AddShortNamesFromFirst(acc', names[1..], s);
        assert FirstWithShortName(names, s) == FirstWithShortName(names[1..], s);
      }
    }
  }

  lemma {:induction false} AddShortNamesFromDistinct(acc: seq<(string, string)>, names: seq<string>)
    requires DistinctKeys(acc)
    ensures DistinctKeys(AddShortNamesFrom(acc, names))
    decreases |names|
  {
    if |names| > 0 {
      if Qualified(names[0]) && ShortName(names[0]) !in Keys(acc) {
        PutDistinct(acc, ShortName(names[0]), names[0]);
      }
      AddShortNamesFromDistinct(AddShortName(acc, names[0]), names[1..]);
    }
  }

  /**
   * `addShortNames` keeps the use list as it was, in front; appends, for
   * every qualified imported name whose short name is not yet a key, that
   * short name, bound to the first such name (a later import with the same
   * short name is skipped); and adds nothing else.
   */
  lemma AddShortNamesSpec(useList: seq<(string, string)>)
    ensures |useList| <= |AddShortNames(useList)|
    ensures AddShortNames(useList)[..|useList|] == useList
    ensures forall i | |useList| <= i < |AddShortNames(useList)| ::
      var e := AddShortNames(useList)[i];
      e.1 in Values(useList) && Qualified(e.1) && e.0 == ShortName(e.1)
    ensures forall i | 0 <= i < |useList| && Qualified(useList[i].1) ::
      ShortName(useList[i].1) in Keys(AddShortNames(useList))
    ensures forall s | s !in Keys(useList) :: Get(AddShortNames(useList), s) == FirstWithShortName(Values(useList), s)
    ensures DistinctKeys(useList) ==> DistinctKeys(AddShortNames(useList))
  {
    forall s | s !in Keys(useList)
      ensures Get(AddShortNames(useList), s) == FirstWithShortName(Values(useList), s)
    {
      AddShortNamesFromFirst(useList, Values(useList), s);
    }
    AddShortNamesFromAppends(useList, Values(useList));
    AddShortNamesFromComplete(useList, Values(useList));
    assert forall i | 0 <= i < |useList| :: useList[i].1 == Values(useList)[i];
    if DistinctKeys(useList) {
      AddShortNamesFromDistinct(useList, Values(useList));
    }
  }

  /** An alias of the use list keeps its entry: added short names never shadow it. */
  lemma AddShortNamesKeepsAliases(useList: seq<(string, string)>, k: string)
    requires k in Keys(useList)
    ensures Get(AddShortNames(useList), k) == Get(useList, k)
  {
    var r := AddShortNames(useList);
    AddShortNamesSpec(useList);
    assert r == useList + r[|useList|..];
    GetAppend(useList, r[|useList|..], k);
  }

  /** A key of the extended list is an alias, or the short name of a qualified imported name. */
  lemma AddShortNamesKeys(useList: seq<(string, string)>, k: string)
    requires k in Keys(AddShortNames(useList))
    ensures k in Keys(useList) || exists v | v in Values(useList) :: Qualified(v) && ShortName(v) == k
  {
    var r := AddShortNames(useList);
    AddShortNamesSpec(useList);
    var i :| 0 <= i < |r| && Keys(r)[i] == k;
    if i < |useList| {
      assert r[i] == useList[i];
      assert Keys(useList)[i] == k;
    } else {
      assert r[i].1 in Values(useList);
    }
  }

  // ----- the full resolution -----

  /** `array_pop`. */
  function DropLast<T>(s: seq<T>): seq<T>
    requires |s| > 0
  {
    s[..|s| - 1]
  }

  /**
   * The part of `getClassNameWithNamespace` after the tag lookup: `''`
   * stays `''`, a rooted name is kept, an alias or added short name of the
   * use list resolves to its imported name, anything else is placed in the
   * controller's namespace.
   */
  function ResolveShortName(controllerClass: string, short: string, useList: seq<(string, string)>): string {
    if short == "" then ""
    else if short[0] == '\\' then short
    else
      match Get(AddShortNames(useList), short)
      case Some(fqn) => fqn
      case None => Join(NS_SEPARATOR, DropLast(Explode(NS_SEPARATOR, controllerClass)) + [short])
  }

  /**
   * `getClassNameWithNamespace`: `tags` are the doc-block tags of the action
   * the controller string names and `tokens` the tokens of the controller's
   * file, both obtained by reflection.
   */
  function GetClassNameWithNamespace(controllerAction: string, argumentName: string, tags: seq<DocTag>, tokens: seq<Token>): (r: Result<string, Failure>)
    ensures r.Err? <==> FindShortClassName(argumentName, tags).Err?
    ensures r.Ok? ==> ResolvedAs(Explode("::", controllerAction)[0], FindShortClassName(argumentName, tags).value, GetUseList(tokens), r.value)
  {
    var short :- FindShortClassName(argumentName, tags);
    var controllerClass := Explode("::", controllerAction)[0];
    ResolveShortNameCases(controllerClass, short, GetUseList(tokens));
    Ok(ResolveShortName(controllerClass, short, GetUseList(tokens)))
  }

  /** No documented type, no class: the empty name is returned unchanged. */
  lemma UndocumentedArgument(controllerAction: string, argumentName: string, tags: seq<DocTag>, tokens: seq<Token>)
    requires forall i | 0 <= i < |tags| :: !Documents(tags[i], argumentName)
    ensures GetClassNameWithNamespace(controllerAction, argumentName, tags, tokens) == Ok("")
  {
  }

  /** A name written from the root (`\App\Model`) is taken as it is. */
  lemma RootedNameKept(controllerClass: string, short: string, useList: seq<(string, string)>)
    requires |short| > 0 && short[0] == '\\'
    ensures ResolveShortName(controllerClass, short, useList) == short
  {
  }

  /** An alias imported by a `use` statement resolves to the imported name. */
  lemma ImportedAliasResolves(controllerClass: string, short: string, useList: seq<(string, string)>)
    requires |short| > 0 && short[0] != '\\'
    requires short in Keys(useList)
    ensures Some(ResolveShortName(controllerClass, short, useList)) == Get(useList, short)
  {
    AddShortNamesKeepsAliases(useList, short);
    GetSome(useList, short);
  }

  /**
   * Otherwise a class imported under its own short name resolves to an
   * imported qualified name with that short name, the first one in import
   * order.
   */
  lemma ShortNameResolves(controllerClass: string, short: string, useList: seq<(string, string)>)
    requires |short| > 0 && short[0] != '\\'
    requires short !in Keys(useList)
    requires exists v | v in Values(useList) :: Qualified(v) && ShortName(v) == short
    ensures
      var r := ResolveShortName(controllerClass, short, useList);
      && r in Values(useList) && Qualified(r) && ShortName(r) == short
      && Some(r) == FirstWithShortName(Values(useList), short)
  {
    var first := FirstWithShortName(Values(useList), short);
    AddShortNamesSpec(useList);
    assert Get(AddShortNames(useList), short) == first;
  }

  /**
   * Failing all that, the class is assumed to sit next to the controller:
   * the controller's namespace followed by the segments of the written
   * name (`Model\MyClass` as well as `MyClass`).
   */
  lemma SiblingNamespace(controllerClass: string, short: string, useList: seq<(string, string)>)
    requires |short| > 0 && short[0] != '\\'
    requires short !in Keys(useList)
    requires forall v | v in Values(useList) :: !Qualified(v) || ShortName(v) != short
    ensures Explode(NS_SEPARATOR, ResolveShortName(controllerClass, short, useList))
      == DropLast(Explode(NS_SEPARATOR, controllerClass)) + Explode(NS_SEPARATOR, short)
  {
    var ext := AddShortNames(useList);
    if short in Keys(ext) {
      AddShortNamesKeys(useList, short);
    }
    GetSome(ext, short);
    var namespace := DropLast(Explode(NS_SEPARATOR, controllerClass));
    var pieces := Explode(NS_SEPARATOR, short);
    var parts := namespace + pieces;
    JoinExplode(NS_SEPARATOR, short);
    if |namespace| == 0 {
      assert namespace + [short] == [short];
      assert parts == pieces;
    } else {
      JoinConcat(NS_SEPARATOR, namespace, [short]);
      JoinConcat(NS_SEPARATOR, namespace, pieces);
    }
    assert Join(NS_SEPARATOR, namespace + [short]) == Join(NS_SEPARATOR, parts);
    ExplodePiecesLackChar(NS_SEPARATOR, controllerClass);
    ExplodePiecesLackChar(NS_SEPARATOR, short);
    forall i | 0 <= i < |parts|
      ensures NS_SEPARATOR[0] !in parts[i]
    {
      if i < |namespace| {
        assert parts[i] == Explode(NS_SEPARATOR, controllerClass)[i];
      } else {
        assert parts[i] == pieces[i - |namespace|];
      }
    }
    ExplodeJoin(NS_SEPARATOR, parts);
  }

  /**
   * `use X\Foo as A; use Y\Foo as B;` and `@param Foo`: the first import
   * wins, so `Foo` resolves to `X\Foo`.
   */
  lemma FirstImportWins(controllerClass: string)
    ensures
      var x, y := "X" + NS_SEPARATOR + "Foo", "Y" + NS_SEPARATOR + "Foo";
      ResolveShortName(controllerClass, "Foo", [("A", x), ("B", y)]) == x
  {
    var x, y := "X" + NS_SEPARATOR + "Foo", "Y" + NS_SEPARATOR + "Foo";
    var useList := [("A", x), ("B", y)];
    assert NS_SEPARATOR[0] == '\\';
    ExplodeTwo(NS_SEPARATOR, "X", "Foo");
    assert Qualified(x) && ShortName(x) == "Foo";
    assert Keys(useList) == ["A", "B"];
    assert Values(useList) == [x, y];
    FirstWithShortNameIsFirst(Values(useList), "Foo", 0);
    AddShortNamesSpec(useList);
  }

  /**
   * What `fqn` must be for the written name `short`, tried in the order of
   * the source: `''` stays `''`; a rooted name is kept; an alias of the use
   * list gives its import; the short name of an imported qualified class
   * gives the first such class imported; anything else lies in the
   * controller's namespace.
   */
  predicate ResolvedAs(controllerClass: string, short: string, useList: seq<(string, string)>, fqn: string) {
    && (short == "" ==> fqn == "")
    && (short != "" && short[0] == '\\' ==> fqn == short)
    && (short != "" && short[0] != '\\' && short in Keys(useList) ==> Some(fqn) == Get(useList, short))
    && (short != "" && short[0] != '\\' && short !in Keys(useList)
        && (exists v | v in Values(useList) :: Qualified(v) && ShortName(v) == short) ==>
          Some(fqn) == FirstWithShortName(Values(useList), short))
    && (short != "" && short[0] != '\\' && short !in Keys(useList)
        && (forall v | v in Values(useList) :: !Qualified(v) || ShortName(v) != short) ==>
          Explode(NS_SEPARATOR, fqn) == DropLast(Explode(NS_SEPARATOR, controllerClass)) + Explode(NS_SEPARATOR, short))
  }

  /** The resolution meets every case of `ResolvedAs`. */
  lemma ResolveShortNameCases(controllerClass: string, short: string, useList: seq<(string, string)>)
    ensures ResolvedAs(controllerClass, short, useList, ResolveShortName(controllerClass, short, useList))
  {
    if short != "" && short[0] == '\\' {
      RootedNameKept(controllerClass, short, useList);
    } else if short != "" && short in Keys(useList) {
      ImportedAliasResolves(controllerClass, short, useList);
    } else if short != "" {
      if exists v | v in Values(useList) :: Qualified(v) && ShortName(v) == short {
        ShortNameResolves(controllerClass, short, useList);
      } else {
        SiblingNamespace(controllerClass, short, useList);
      }
    }
  }

  /** `findFullClassNamespace`'s argument: the `as` and `use` parts of one import. */
  datatype Import = Import(alias: string, use: string)

  /** `findFullClassNamespace`: the imported name when the class is its alias or its short name, else `''`. */
  function FindFullClassNamespace(className: string, imp: Import): (r: string)
    ensures r == imp.use || r == ""
    ensures imp.use != "" ==> (r == imp.use <==> imp.alias == className || ShortName(imp.use) == className)
  {
    if imp.alias == className then imp.use
    else if ShortName(imp.use) == className then imp.use
    else ""
  }

  /** The unit test's imports of `MyClass`. */
  lemma FindFullClassNamespaceExamples()
    ensures
      var good := "MyNamespace" + NS_SEPARATOR + "MyClass";
      var wrong := "MyNamespace" + NS_SEPARATOR + "WrongClass";
      && FindFullClassNamespace("MyClass", Import("", good)) == good
      && FindFullClassNamespace("MyClass", Import("MyClass", good)) == good
      && FindFullClassNamespace("MyClass", Import("", wrong)) == ""
  {
    assert NS_SEPARATOR[0] == '\\';
    assert '\\' !in "MyNamespace" && '\\' !in "MyClass" && '\\' !in "WrongClass";
    ExplodeTwo(NS_SEPARATOR, "MyNamespace", "MyClass");
    ExplodeTwo(NS_SEPARATOR, "MyNamespace", "WrongClass");
    assert "WrongClass" != "MyClass" by {
      assert |"WrongClass"| != |"MyClass"|;
    }
  }
}

=== FILE: collection_response.dfy ===
/**
 * `CollectionJsonLdResponse`: a Hydra collection page. The constructor
 * derives page, limit and offset from its arguments or the query string and
 * answers 404; `initData` fills in the collection once and switches to 200.
 */
module CollectionResponse {
  import opened Wrappers
  import opened OrderedMaps
  import opened Strings
  import opened PhpValues

  const ITEMS: string := "hydra:member"
  const TOTAL_ITEMS: string := "hydra:totalItems"
  const VIEW: string := "hydra:view"
  const DEFAULT_PAGE: int := 0
  const ITEMS_PER_PAGE: int := 10
  const MAX_ITEMS_PER_PAGE: int := 100
  const PAGE_FIELD: string := "page"
  const ITEMS_PER_PAGE_FIELD: string := "itemsPerPage"

  const HTTP_NOT_FOUND: int := 404
  const HTTP_OK: int := 200

  const MSG_DATA_ALREADY_SPECIFIED: string := "Data has already been specified"
  const LIMIT_NOT_INT: string := "findLimit(): Return value must be of type int, bool returned"
  const OFFSET_NOT_INT: string := "Cannot assign float to property $offset of type int"

  /**
   * `filter_var($v, FILTER_VALIDATE_INT)`: the integer, or `None` for `false`.
   * It is a library function, so it is a parameter here.
   */
  type IntFilter = Value -> Option<int>

  /** `$request->query->get($name, $default)`. */
  function QueryGet(query: PhpArray, name: string, default: Value): Value {
    Get(query, StrKey(name)).GetOr(default)
  }

  /** The filtered `page` query value, defaulting to 0. */
  function QueryPage(query: PhpArray, filterInt: IntFilter): Option<int> {
    filterInt(QueryGet(query, PAGE_FIELD, Int(DEFAULT_PAGE)))
  }

  /** `findPage`: an explicit page is used as is; the query's page counts from 1 and is turned into a page counting from 0. */
  function FindPage(page: Option<int>, query: PhpArray, filterInt: IntFilter): (r: int)
    ensures page.Some? ==> r == page.value
    ensures page.None? ==> r >= 0
    ensures page.None? && r > 0 ==> QueryPage(query, filterInt) == Some(r + 1)
    ensures page.None? && QueryPage(query, filterInt).Some? && QueryPage(query, filterInt).value > 0 ==>
      r == QueryPage(query, filterInt).value - 1
  {
    if page.Some? then page.value
    else
      // `false > 0` is false, so an invalid value falls to the first page
      match QueryPage(query, filterInt)
      case Some(p) => if p > 0 then p - 1 else 0
      case None => 0
  }

  /** The filtered `itemsPerPage` query value, defaulting to 10. */
  function QueryLimit(query: PhpArray, filterInt: IntFilter): Option<int> {
    filterInt(QueryGet(query, ITEMS_PER_PAGE_FIELD, Int(ITEMS_PER_PAGE)))
  }

  /**
   * `findLimit`: an explicit value is used as is; a query value outside
   * 0..100 becomes 100; a value `filter_var` rejects is returned as `false`
   * from an `int` method, a type error.
   */
  function FindLimit(itemsPerPage: Option<int>, query: PhpArray, filterInt: IntFilter): (r: Result<int, Failure>)
    ensures itemsPerPage.Some? ==> r == Ok(itemsPerPage.value)
    ensures itemsPerPage.None? ==> (r.Err? <==> QueryLimit(query, filterInt).None?)
    ensures itemsPerPage.None? && r.Ok? ==> 0 <= r.value <= MAX_ITEMS_PER_PAGE
    ensures itemsPerPage.None? && r.Ok? && 0 <= QueryLimit(query, filterInt).value <= MAX_ITEMS_PER_PAGE ==>
      r.value == QueryLimit(query, filterInt).value
    ensures var l := QueryLimit(query, filterInt);
      itemsPerPage.None? && l.Some? && (l.value < 0 || l.value > MAX_ITEMS_PER_PAGE) ==> r == Ok(MAX_ITEMS_PER_PAGE)
  {
    if itemsPerPage.Some? then Ok(itemsPerPage.value)
    else
      match QueryLimit(query, filterInt)
      case None => Err(TypeError(LIMIT_NOT_INT))
      case Some(l) => Ok(if l < 0 || l > MAX_ITEMS_PER_PAGE then MAX_ITEMS_PER_PAGE else l)
  }

  /** Without an `itemsPerPage` parameter the limit is 10. */
  lemma DefaultLimit(query: PhpArray, filterInt: IntFilter)
    requires StrKey(ITEMS_PER_PAGE_FIELD) !in Keys(query)
    requires filterInt(Int(ITEMS_PER_PAGE)) == Some(ITEMS_PER_PAGE)
    ensures FindLimit(None, query, filterInt) == Ok(ITEMS_PER_PAGE)
  {
    GetSome(query, StrKey(ITEMS_PER_PAGE_FIELD));
  }

  /** Without a `page` parameter the first page is served. */
  lemma DefaultPage(query: PhpArray, filterInt: IntFilter)
    requires StrKey(PAGE_FIELD) !in Keys(query)
    requires filterInt(Int(DEFAULT_PAGE)) == Some(DEFAULT_PAGE)
    ensures FindPage(None, query, filterInt) == DEFAULT_PAGE
  {
    GetSome(query, StrKey(PAGE_FIELD));
  }

  /** The response object between construction and rendering. `data` is `None` while the body is still `{}`. */
  datatype Collection = Collection(
    query: PhpArray,
    page: int,
    limit: int,
    offset: int,
    status: int,
    data: Option<Value>)

  /**
   * The constructor. An offset beyond PHP's integer range would be a float,
   * which the `int` property refuses.
   */
  function NewCollection(query: PhpArray, page: Option<int>, itemsPerPage: Option<int>, filterInt: IntFilter): (r: Result<Collection, Failure>)
    ensures r.Ok? ==> r.value.status == HTTP_NOT_FOUND && r.value.data.None?
    ensures r.Ok? ==>
      && r.value.page == FindPage(page, query, filterInt)
      && FindLimit(itemsPerPage, query, filterInt) == Ok(r.value.limit)
      && r.value.offset == r.value.page * r.value.limit
      && IsPhpInt(r.value.offset)
    ensures r.Err? <==>
      (FindLimit(itemsPerPage, query, filterInt).Err?
       || !IsPhpInt(FindPage(page, query, filterInt) * FindLimit(itemsPerPage, query, filterInt).value))
  {
    var p := FindPage(page, query, filterInt);
    var limit :- FindLimit(itemsPerPage, query, filterInt);
    if !IsPhpInt(p * limit) then Err(TypeError(OFFSET_NOT_INT))
    else Ok(Collection(query, p, limit, p * limit, HTTP_NOT_FOUND, None))
  }

  /** With both values taken from the query, the offset is never negative. */
  lemma QueryOffsetNonNegative(query: PhpArray, filterInt: IntFilter)
    requires NewCollection(query, None, None, filterInt).Ok?
    ensures NewCollection(query, None, None, filterInt).value.offset >= 0
  {
  }

  /** A client asking for page `n` (counting from 1) with `itemsPerPage` `k` in 0..100 starts at item `(n-1)*k`. */
  lemma OffsetOfClientPage(n: int, k: int, filterInt: IntFilter)
    requires n >= 1 && 0 <= k <= MAX_ITEMS_PER_PAGE
    requires filterInt(Int(n)) == Some(n) && filterInt(Int(k)) == Some(k)
    requires IsPhpInt((n - 1) * k)
    ensures
      var query := [(StrKey(PAGE_FIELD), Int(n)), (StrKey(ITEMS_PER_PAGE_FIELD), Int(k))];
      NewCollection(query, None, None, filterInt) == Ok(Collection(query, n - 1, k, (n - 1) * k, HTTP_NOT_FOUND, None))
  {
    var query := [(StrKey(PAGE_FIELD), Int(n)), (StrKey(ITEMS_PER_PAGE_FIELD), Int(k))];
    assert Keys(query) == [StrKey(PAGE_FIELD), StrKey(ITEMS_PER_PAGE_FIELD)];
    GetAt(query, 0);
    GetAt(query, 1);
    assert FindPage(None, query, filterInt) == n - 1;
    assert FindLimit(None, query, filterInt) == Ok(k);
  }

  /** The page links: `<urlPath>page=<n>`. */
  function PageLink(urlPath: string, n: int): string {
    urlPath + PAGE_FIELD + "=" + IntToString(n)
  }

  /** The page number a link carries. */
  function LinkedPage(urlPath: string, link: string): Option<int> {
    var prefix := urlPath + PAGE_FIELD + "=";
    if StartsWith(link, prefix) then ParseInt(link[|prefix|..]) else None
  }

  /** Every page link names its page. */
  lemma LinkedPageOfLink(urlPath: string, n: int)
    ensures LinkedPage(urlPath, PageLink(urlPath, n)) == Some(n)
  {
    var prefix := urlPath + PAGE_FIELD + "=";
    assert PageLink(urlPath, n)[|prefix|..] == IntToString(n);
    ParseIntToString(n);
  }

  /**
   * The `hydra:view` block for the page numbers `current` and `next`.
   * `hydra:last` is carried as the text `round($totalItems / $limit)`
   * prints, which involves float division.
   */
  function ViewBlock(urlPath: string, current: int, next: int, lastPage: string): PhpArray {
    [ (StrKey("@type"), Str("hydra:PartialCollectionView")),
      (StrKey("@id"), Str(PageLink(urlPath, current))),
      (StrKey("hydra:first"), Str(PageLink(urlPath, DEFAULT_PAGE))),
      (StrKey("hydra:last"), Str(urlPath + PAGE_FIELD + "=" + lastPage)),
      (StrKey("hydra:next"), Str(PageLink(urlPath, next))) ]
  }

  /** The envelope around a view block; no view at all for an empty page. */
  function DataWith(items: PhpArray, totalItems: int, view: PhpArray): Value {
    var base := [(StrKey("@type"), Str("hydra:Collection")), (StrKey(ITEMS), Array(items)), (StrKey(TOTAL_ITEMS), Int(totalItems))];
    Array(if |items| == 0 then base else base + [(StrKey(VIEW), Array(view))])
  }

  /** `getDataArrayObject`, as written: the links carry the page counting from 0. */
  function DataArray(c: Collection, items: PhpArray, totalItems: int, urlPath: string, lastPage: string): Value {
    DataWith(items, totalItems, ViewBlock(urlPath, c.page, c.page + 1, lastPage))
  }

  /** The same block with the links counting from 1, as `findPage` reads them. */
  function DataArrayIntended(c: Collection, items: PhpArray, totalItems: int, urlPath: string, lastPage: string): Value {
    DataWith(items, totalItems, ViewBlock(urlPath, c.page + 1, c.page + 2, lastPage))
  }

  /** The `hydra:view` block of a body, if there is one. */
  function ViewOf(body: Value): Option<PhpArray> {
    if !body.Array? then None
    else
      var view: Option<Value> := Get(body.entries, StrKey(VIEW));
      if view.Some? && view.value.Array? then Some(view.value.entries) else None
  }

  /** The page number the link stored under `name` carries. */
  function LinkPage(view: PhpArray, urlPath: string, name: string): Option<int> {
    var link: Option<Value> := Get(view, StrKey(name));
    if link.Some? && link.value.Str? then LinkedPage(urlPath, link.value.s) else None
  }

  /** The links of a view block name the pages they were built from. */
  lemma ViewLinks(urlPath: string, current: int, next: int, lastPage: string)
    ensures var v := ViewBlock(urlPath, current, next, lastPage);
      && DistinctKeys(v)
      && LinkPage(v, urlPath, "@id") == Some(current)
      && LinkPage(v, urlPath, "hydra:first") == Some(DEFAULT_PAGE)
      && LinkPage(v, urlPath, "hydra:next") == Some(next)
  {
    var v := ViewBlock(urlPath, current, next, lastPage);
    assert "hydra:last"[6] != "hydra:next"[6];
    assert Keys(v) == [StrKey("@type"), StrKey("@id"), StrKey("hydra:first"), StrKey("hydra:last"), StrKey("hydra:next")];
    GetAt(v, 1);
    GetAt(v, 2);
    GetAt(v, 4);
    LinkedPageOfLink(urlPath, current);
    LinkedPageOfLink(urlPath, DEFAULT_PAGE);
    LinkedPageOfLink(urlPath, next);
  }

  /**
   * The collection body always holds its type, the items unchanged and the
   * total under distinct keys, and a `hydra:view` exactly when there are items.
   */
  lemma DataWithShape(items: PhpArray, totalItems: int, view: PhpArray)
    ensures DataWith(items, totalItems, view).Array?
    ensures
      var d := DataWith(items, totalItems, view).entries;
      && DistinctKeys(d)
      && Get(d, StrKey("@type")) == Some(Str("hydra:Collection"))
      && Get(d, StrKey(ITEMS)) == Some(Array(items))
      && Get(d, StrKey(TOTAL_ITEMS)) == Some(Int(totalItems))
      && ViewOf(DataWith(items, totalItems, view)) == if |items| > 0 then Some(view) else None
  {
    var d := DataWith(items, totalItems, view).entries;
    if |items| == 0 {
      assert Keys(d) == [StrKey("@type"), StrKey(ITEMS), StrKey(TOTAL_ITEMS)];
      GetSome(d, StrKey(VIEW));
    } else {
      assert Keys(d) == [StrKey("@type"), StrKey(ITEMS), StrKey(TOTAL_ITEMS), StrKey(VIEW)];
      GetAt(d, 3);
    }
    GetAt(d, 0);
    GetAt(d, 1);
    GetAt(d, 2);
  }

  /** As written, a non-empty page links to `page=<page>` as itself, to page 0 as first and to `page=<page+1>` as next. */
  lemma DataArrayLinks(c: Collection, items: PhpArray, totalItems: int, urlPath: string, lastPage: string)
    requires |items| > 0
    ensures ViewOf(DataArray(c, items, totalItems, urlPath, lastPage)).Some?
    ensures
      var v := ViewOf(DataArray(c, items, totalItems, urlPath, lastPage)).value;
      && LinkPage(v, urlPath, "@id") == Some(c.page)
      && LinkPage(v, urlPath, "hydra:first") == Some(DEFAULT_PAGE)
      && LinkPage(v, urlPath, "hydra:next") == Some(c.page + 1)
  {
    DataWithShape(items, totalItems, ViewBlock(urlPath, c.page, c.page + 1, lastPage));
    ViewLinks(urlPath, c.page, c.page + 1, lastPage);
  }

  /**
   * Following a link: the page `findPage` derives from a query whose `page`
   * is the number the link carries.
   */
  function FollowLink(n: int, filterInt: IntFilter): int {
    FindPage(None, [(StrKey(PAGE_FIELD), Str(IntToString(n)))], filterInt)
  }

  /** `filter_var` reads back every printed integer of PHP's range. */
  ghost predicate ReadsPrintedInts(filterInt: IntFilter) {
    forall n | IsPhpInt(n) :: filterInt(Str(IntToString(n))) == Some(n)
  }

  /**
   * As written, `hydra:next` leads back to the page it was taken from, and
   * `@id` to the page before it (or to page 0 from page 0).
   */
  lemma NextLinkRevisitsPage(c: Collection, filterInt: IntFilter)
    requires ReadsPrintedInts(filterInt)
    requires c.page >= 0 && IsPhpInt(c.page + 1)
    ensures FollowLink(c.page + 1, filterInt) == c.page
    ensures FollowLink(c.page, filterInt) == if c.page > 0 then c.page - 1 else 0
  {
  }

  /** With the links counting from 1, `@id` leads to the same page and `hydra:next` to the page after it. */
  lemma IntendedLinksLeadOn(c: Collection, items: PhpArray, totalItems: int, urlPath: string, lastPage: string, filterInt: IntFilter)
    requires ReadsPrintedInts(filterInt)
    requires c.page >= 0 && IsPhpInt(c.page + 2)
    requires |items| > 0
    ensures ViewOf(DataArrayIntended(c, items, totalItems, urlPath, lastPage)).Some?
    ensures
      var v := ViewOf(DataArrayIntended(c, items, totalItems, urlPath, lastPage)).value;
      && LinkPage(v, urlPath, "@id").Some? && FollowLink(LinkPage(v, urlPath, "@id").value, filterInt) == c.page
      && LinkPage(v, urlPath, "hydra:next").Some? && FollowLink(LinkPage(v, urlPath, "hydra:next").value, filterInt) == c.page + 1
  {
    DataWithShape(items, totalItems, ViewBlock(urlPath, c.page + 1, c.page + 2, lastPage));
    ViewLinks(urlPath, c.page + 1, c.page + 2, lastPage);
  }

  /**
   * `initData`: only once (the body is then no longer `{}`); it sets the
   * body and switches to 200. A non-empty page with limit 0 divides by
   * zero while computing `hydra:last`, before anything is set. The body is
   * `getDataArrayObject` as written, with its 0-based links.
   */
  function InitData(c: Collection, items: PhpArray, totalItems: int, urlPath: string, lastPage: string): (r: Result<Collection, Failure>)
    ensures r.Ok? <==> c.data.None? && (|items| == 0 || c.limit != 0)
    ensures r.Ok? ==>
      && r.value.status == HTTP_OK && r.value.data.Some?
      && r.value.page == c.page && r.value.limit == c.limit && r.value.offset == c.offset
    ensures c.data.Some? ==> r == Err(Thrown("UnexpectedValueException", MSG_DATA_ALREADY_SPECIFIED))
  {
    if c.data.Some? then Err(Thrown("UnexpectedValueException", MSG_DATA_ALREADY_SPECIFIED))
    else if |items| > 0 && c.limit == 0 then Err(Thrown("DivisionByZeroError", "Division by zero"))
    else Ok(c.(data := Some(DataArray(c, items, totalItems, urlPath, lastPage)), status := HTTP_OK))
  }

  /** A freshly built collection answers 404, accepts data once (then 200) and refuses a second time, whatever the data. */
  lemma InitDataOnce(query: PhpArray, page: Option<int>, itemsPerPage: Option<int>, filterInt: IntFilter,
                     items: PhpArray, totalItems: int, urlPath: string, lastPage: string,
                     items2: PhpArray, totalItems2: int)
    requires NewCollection(query, page, itemsPerPage, filterInt).Ok?
    requires |items| == 0 || NewCollection(query, page, itemsPerPage, filterInt).value.limit != 0
    ensures
      var c := NewCollection(query, page, itemsPerPage, filterInt).value;
      var c1 := InitData(c, items, totalItems, urlPath, lastPage);
      && c.status == HTTP_NOT_FOUND
      && c1.Ok? && c1.value.status == HTTP_OK
      && c1.value.data == Some(DataArray(c, items, totalItems, urlPath, lastPage))
      && InitData(c1.value, items2, totalItems2, urlPath, lastPage) == Err(Thrown("UnexpectedValueException", MSG_DATA_ALREADY_SPECIFIED))
  {
  }
}

=== FILE: cors_resolver.dfy ===
/**
 * `CorsResolver`: on every response, echoes the request's Origin back as
 * `Access-Control-Allow-Origin` (rebuilt from its scheme, host and port)
 * together with three fixed Access-Control headers.
 */
module CorsResolver {
  import opened Wrappers
  import opened OrderedMaps
  import opened Strings
  import opened PhpValues
  import opened HeaderBags

  const ACCESS_CONTROL_ALLOW_CREDENTIALS: string := "true"
  const ACCESS_CONTROL_ALLOW_HEADERS: string :=
    "Origin, X-Requested-With, Content-Type, Accept, " + "Accept-Language, cache-control, pragma"
  const ACCESS_CONTROL_ALLOW_METHODS: string := "POST, GET, OPTIONS, PUT, PATCH, DELETE, HEAD"

  const ALLOW_ORIGIN: string := "Access-Control-Allow-Origin"
  const ALLOW_HEADERS: string := "Access-Control-Allow-Headers"
  const ALLOW_METHODS: string := "Access-Control-Allow-Methods"
  const ALLOW_CREDENTIALS: string := "Access-Control-Allow-Credentials"

  const BAD_REQUEST_HTTP_EXCEPTION: string := "Symfony\\Component\\HttpKernel\\Exception\\BadRequestHttpException"
  const MSG_NO_HOST: string := "Header Option must have host name"

  /**
   * What `parse_url` gives: `Malformed` when it returns `false` (every
   * component query then yields `false`), else the components present.
   */
  datatype ParsedUrl =
    | Malformed
    | Parsed(scheme: Option<string>, host: Option<string>, port: Option<int>)

  /** PHP truthiness of a string: everything except `""` and `"0"`. */
  predicate Truthy(s: string) {
    s != "" && s != "0"
  }

  /** `getOrigin`; an absent header counts as `''`. */
  function GetOrigin(origin: Option<string>, parseUrl: string -> ParsedUrl): (r: Result<string, Failure>)
    ensures origin.GetOr("") == "" ==> r == Ok("")
    ensures r.Err? <==> origin.GetOr("") != "" && parseUrl(origin.value).Parsed? && parseUrl(origin.value).host.None?
  {
    var header := origin.GetOr("");
    if header == "" then Ok("")
    else
      match parseUrl(header)
      // `false` for all three components: the concatenation degrades to `''`
      case Malformed => Ok("")
      case Parsed(scheme, host, port) =>
        match host
        case None => Err(Thrown(BAD_REQUEST_HTTP_EXCEPTION, MSG_NO_HOST))
        case Some(h) =>
          var authority := if scheme.Some? && Truthy(scheme.value) then scheme.value + "://" + h else h;
          Ok(authority + if port.Some? && port.value != 0 then ":" + IntToString(port.value) else "")
  }

  /** `onKernelResponse`: the response headers afterwards. */
  function OnKernelResponse(origin: Option<string>, parseUrl: string -> ParsedUrl, headers: Headers): (r: Result<Headers, Failure>)
    ensures r.Err? <==> GetOrigin(origin, parseUrl).Err?
    ensures r.Ok? && GetOrigin(origin, parseUrl).value == "" ==> r.value == headers
  {
    var allowOrigin :- GetOrigin(origin, parseUrl);
    if allowOrigin == "" then Ok(headers)
    else
      var h1 := Set(headers, ALLOW_ORIGIN, allowOrigin);
      var h2 := Set(h1, ALLOW_HEADERS, ACCESS_CONTROL_ALLOW_HEADERS);
      var h3 := Set(h2, ALLOW_METHODS, ACCESS_CONTROL_ALLOW_METHODS);
      Ok(Set(h3, ALLOW_CREDENTIALS, ACCESS_CONTROL_ALLOW_CREDENTIALS))
  }

  /** The names of the four headers the resolver writes, as stored. */
  predicate IsCorsHeader(n: string) {
    n == HeaderName(ALLOW_ORIGIN) || n == HeaderName(ALLOW_HEADERS)
    || n == HeaderName(ALLOW_METHODS) || n == HeaderName(ALLOW_CREDENTIALS)
  }

  /**
   * With a non-empty origin, the four Access-Control headers hold the origin
   * and the three constants, and every other header is untouched.
   */
  lemma CorsHeadersSet(origin: Option<string>, parseUrl: string -> ParsedUrl, headers: Headers)
    requires GetOrigin(origin, parseUrl).Ok? && GetOrigin(origin, parseUrl).value != ""
    ensures
      var r := OnKernelResponse(origin, parseUrl, headers).value;
      && Lookup(r, ALLOW_ORIGIN) == Some(GetOrigin(origin, parseUrl).value)
      && Lookup(r, ALLOW_HEADERS) == Some(ACCESS_CONTROL_ALLOW_HEADERS)
      && Lookup(r, ALLOW_METHODS) == Some(ACCESS_CONTROL_ALLOW_METHODS)
      && Lookup(r, ALLOW_CREDENTIALS) == Some(ACCESS_CONTROL_ALLOW_CREDENTIALS)
      && forall n | !IsCorsHeader(n) :: Get(r, n) == Get(headers, n)
  {
    CorsNamesDistinct();
  }

  /** The four header names stay apart once normalised, so no write overwrites another. */
  lemma CorsNamesDistinct()
    ensures HeaderName(ALLOW_ORIGIN) != HeaderName(ALLOW_HEADERS)
    ensures HeaderName(ALLOW_ORIGIN) != HeaderName(ALLOW_METHODS)
    ensures HeaderName(ALLOW_ORIGIN) != HeaderName(ALLOW_CREDENTIALS)
    ensures HeaderName(ALLOW_HEADERS) != HeaderName(ALLOW_METHODS)
    ensures HeaderName(ALLOW_HEADERS) != HeaderName(ALLOW_CREDENTIALS)
    ensures HeaderName(ALLOW_METHODS) != HeaderName(ALLOW_CREDENTIALS)
  {
    assert |ALLOW_ORIGIN| == 27 && |ALLOW_HEADERS| == 28 && |ALLOW_METHODS| == 28 && |ALLOW_CREDENTIALS| == 32;
    assert HeaderName(ALLOW_HEADERS)[21] != HeaderName(ALLOW_METHODS)[21] by {
      assert ALLOW_HEADERS[21] == 'H' && ALLOW_METHODS[21] == 'M';
    }
  }

  /** An origin that is exactly `scheme://host`, parsed into those parts, is echoed back unchanged. */
  lemma SchemeHostEchoed(scheme: string, host: string, parseUrl: string -> ParsedUrl)
    requires Truthy(scheme)
    requires parseUrl(scheme + "://" + host) == Parsed(Some(scheme), Some(host), None)
    ensures GetOrigin(Some(scheme + "://" + host), parseUrl) == Ok(scheme + "://" + host)
  {
    var o := scheme + "://" + host;
    assert |o| > 0;
    assert o + "" == o;
  }

  /**
   * Every parsed origin with a host: `scheme://` only for a truthy scheme
   * (a missing, empty or `"0"` scheme leaves just the host), `:port` only
   * for a present, non-zero port.
   */
  lemma OriginCases(header: string, scheme: Option<string>, host: string, port: Option<int>, parseUrl: string -> ParsedUrl)
    requires header != ""
    requires parseUrl(header) == Parsed(scheme, Some(host), port)
    ensures (scheme.None? || !Truthy(scheme.value)) && (port.None? || port.value == 0) ==>
      GetOrigin(Some(header), parseUrl) == Ok(host)
    ensures (scheme.None? || !Truthy(scheme.value)) && port.Some? && port.value != 0 ==>
      GetOrigin(Some(header), parseUrl) == Ok(host + ":" + IntToString(port.value))
    ensures scheme.Some? && Truthy(scheme.value) && (port.None? || port.value == 0) ==>
      GetOrigin(Some(header), parseUrl) == Ok(scheme.value + "://" + host)
    ensures scheme.Some? && Truthy(scheme.value) && port.Some? && port.value != 0 ==>
      GetOrigin(Some(header), parseUrl) == Ok(scheme.value + "://" + host + ":" + IntToString(port.value))
  {
    var authority := if scheme.Some? && Truthy(scheme.value) then scheme.value + "://" + host else host;
    if port.Some? && port.value != 0 {
      assert authority + (":" + IntToString(port.value)) == authority + ":" + IntToString(port.value);
      assert GetOrigin(Some(header), parseUrl) == Ok(authority + ":" + IntToString(port.value));
    } else {
      assert authority + "" == authority;
      assert GetOrigin(Some(header), parseUrl) == Ok(authority);
    }
  }

  /** Only scheme, host and port survive: path, query and credentials are dropped, a port 0 too. */
  lemma OriginIsRebuilt(header: string, scheme: string, host: string, port: int, parseUrl: string -> ParsedUrl)
    requires header != "" && Truthy(scheme)
    requires parseUrl(header) == Parsed(Some(scheme), Some(host), Some(port))
    ensures GetOrigin(Some(header), parseUrl)
         == Ok(scheme + "://" + host + if port != 0 then ":" + IntToString(port) else "")
  {
  }

  /** An origin `parse_url` rejects is treated like no origin: no header is written. */
  lemma MalformedOriginIgnored(header: string, parseUrl: string -> ParsedUrl, headers: Headers)
    requires parseUrl(header) == Malformed
    ensures OnKernelResponse(Some(header), parseUrl, headers) == Ok(headers)
  {
  }

  /** `Origin: http://foo.example` comes back as `Access-Control-Allow-Origin: http://foo.example`. */
  lemma FooExampleEchoed(parseUrl: string -> ParsedUrl, headers: Headers)
    requires parseUrl("http://foo.example") == Parsed(Some("http"), Some("foo.example"), None)
    ensures OnKernelResponse(Some("http://foo.example"), parseUrl, headers).Ok?
    ensures Lookup(OnKernelResponse(Some("http://foo.example"), parseUrl, headers).value, ALLOW_ORIGIN) == Some("http://foo.example")
  {
    assert "http://foo.example" == "http" + "://" + "foo.example";
    SchemeHostEchoed("http", "foo.example", parseUrl);
    CorsHeadersSet(Some("http://foo.example"), parseUrl, headers);
  }
}

=== FILE: envelopes.dfy ===
/**
 * The fixed response envelopes: `PaginationJsonResponse`
 * (`{result: {items, totalItems}}`), `ResourceCreatedJsonLdResponse` (201)
 * and `ResourceUpdatedJsonLdResponse` (200), whose body is `['id' => $id] + $data`,
 * and `ResourceUpdatedJsonResponse` (`{id}`, 200).
 */
module Envelopes {
  import opened Wrappers
  import opened OrderedMaps
  import opened PhpValues

  const ITEMS: string := "items"
  const TOTAL_ITEMS: string := "totalItems"
  const RESULT: string := "result"
  const ID: string := "id"

  const HTTP_OK: int := 200
  const HTTP_CREATED: int := 201

  /** `new PaginationJsonResponse($items, $totalItems, $status)`. */
  function Pagination(items: PhpArray, totalItems: int, status: int := HTTP_OK): Result<JsonResponse, Failure> {
    NewJsonResponse(Array([(StrKey(RESULT), Array([(StrKey(ITEMS), Array(items)), (StrKey(TOTAL_ITEMS), Int(totalItems))]))]), status)
  }

  /** Reads items and total back out of a pagination body; `None` for any other shape. */
  function PaginationParts(body: Value): Option<(PhpArray, int)> {
    if !body.Array? || Keys(body.entries) != [StrKey(RESULT)] then None
    else
      var result := body.entries[0].1;
      if !result.Array? || Keys(result.entries) != [StrKey(ITEMS), StrKey(TOTAL_ITEMS)] then None
      else
        var items := result.entries[0].1;
        var total := result.entries[1].1;
        if items.Array? && total.Int? then Some((items.entries, total.i)) else None
  }

  /**
   * The body has the single key `result`, which holds exactly `items` (the
   * given items, unchanged) and `totalItems`; reading them back gives the
   * arguments. The status is the one given, 200 by default.
   */
  lemma PaginationRoundTrip(items: PhpArray, totalItems: int, status: int)
    requires ValidStatus(status)
    ensures Pagination(items, totalItems, status).Ok?
    ensures Pagination(items, totalItems, status).value.status == status
    ensures Keys(Pagination(items, totalItems, status).value.data.entries) == [StrKey(RESULT)]
    ensures PaginationParts(Pagination(items, totalItems, status).value.data) == Some((items, totalItems))
  {
    var body := Pagination(items, totalItems, status).value.data;
    assert Keys(body.entries) == [StrKey(RESULT)];
    assert Keys(body.entries[0].1.entries) == [StrKey(ITEMS), StrKey(TOTAL_ITEMS)];
  }

  /** Only pagination bodies parse, so the reading is the exact inverse of the construction. */
  lemma PaginationPartsOnlyFromPagination(body: Value)
    requires PaginationParts(body).Some?
    ensures Pagination(PaginationParts(body).value.0, PaginationParts(body).value.1).value.data == body
  {
    var r := body.entries[0].1;
    assert body.entries == [(StrKey(RESULT), r)] by {
      assert |body.entries| == |Keys(body.entries)| == 1;
      assert body.entries[0].0 == Keys(body.entries)[0];
    }
    assert r.entries == [(StrKey(ITEMS), r.entries[0].1), (StrKey(TOTAL_ITEMS), r.entries[1].1)] by {
      assert |r.entries| == |Keys(r.entries)| == 2;
      assert r.entries[0].0 == Keys(r.entries)[0] && r.entries[1].0 == Keys(r.entries)[1];
    }
  }

  /** The default status is 200. */
  lemma PaginationDefaultStatus(items: PhpArray, totalItems: int)
    ensures Pagination(items, totalItems) == Ok(JsonResponse(Pagination(items, totalItems).value.data, HTTP_OK))
  {
  }

  /** An id-first body: `['id' => $id] + $data`, which keeps the left `id`. */
  function WithId(resourceId: Value, data: PhpArray): (body: PhpArray)
    ensures Get(body, StrKey(ID)) == Some(resourceId)
    ensures forall k | k != StrKey(ID) :: Get(body, k) == Get(data, k)
  {
    var l := [(StrKey(ID), resourceId)];
    assert Keys(l) == [StrKey(ID)];
    UnionGetAll(l, data);
    Union(l, data)
  }

  lemma UnionGetAll(l: PhpArray, r: PhpArray)
    ensures forall k :: Get(Union(l, r), k) == if k in Keys(l) then Get(l, k) else Get(r, k)
  {
    forall k
      ensures Get(Union(l, r), k) == if k in Keys(l) then Get(l, k) else Get(r, k)
    {
      UnionGet(l, r, k);
    }
  }

  /** `new ResourceCreatedJsonLdResponse($resourceId, $data)`: always 201. */
  function ResourceCreated(resourceId: Value, data: PhpArray := []): (r: JsonResponse)
    ensures r.status == HTTP_CREATED && r.data.Array?
  {
    JsonResponse(Array(WithId(resourceId, data)), HTTP_CREATED)
  }

  /** `new ResourceUpdatedJsonLdResponse($resourceId, $data)`: always 200. */
  function ResourceUpdated(resourceId: int, data: PhpArray := []): (r: JsonResponse)
    ensures r.status == HTTP_OK && r.data.Array?
  {
    JsonResponse(Array(WithId(Int(resourceId), data)), HTTP_OK)
  }

  /** `new ResourceUpdatedJsonResponse($resourceId)`. */
  function ResourceUpdatedPlain(resourceId: int): (r: JsonResponse)
    ensures r.status == HTTP_OK
  {
    JsonResponse(Array([(StrKey(ID), Int(resourceId))]), HTTP_OK)
  }

  /**
   * The body's `id` is the resource id even when `data` carries an `id` of
   * its own, it comes first, and every other key of `data` keeps its value
   * and its relative order.
   */
  lemma CreatedBody(resourceId: Value, data: PhpArray)
    requires DistinctKeys(data)
    ensures var body := ResourceCreated(resourceId, data).data.entries;
      && DistinctKeys(body)
      && body[0] == (StrKey(ID), resourceId)
      && Get(body, StrKey(ID)) == Some(resourceId)
      && (forall k | k != StrKey(ID) :: Get(body, k) == Get(data, k))
      && body[1..] == Filter(data)
  {
    var l := [(StrKey(ID), resourceId)];
    UnionPrefix(l, data);
    UnionDistinct(l, data);
    UnionIsFilter(l, data);
  }

  /** The entries of `data` other than `id`, in order. */
  function Filter(data: PhpArray): PhpArray
    decreases |data|
  {
    if |data| == 0 then []
    else (if data[0].0 == StrKey(ID) then [] else [data[0]]) + Filter(data[1..])
  }

  /** Past the `id` entry, the union is `data` without its own `id`. */
  lemma UnionIsFilter(l: PhpArray, data: PhpArray)
    requires |l| == 1 && l[0].0 == StrKey(ID)
    requires DistinctKeys(data)
    ensures Union(l, data) == l + Filter(data)
  {
    assert Keys(l) == [StrKey(ID)];
    UnionUnfold(l, data);
  }

  /**
   * The union walks `data` from the front, appending each entry whose key
   * the accumulated left side lacks; with only `id` shared, that is every
   * entry but `id`.
   */
  lemma {:induction false} UnionUnfold(l: PhpArray, data: PhpArray)
    requires DistinctKeys(data)
    requires forall j | 0 <= j < |data| :: data[j].0 in Keys(l) <==> data[j].0 == StrKey(ID)
    ensures Union(l, data) == l + Filter(data)
    decreases |data|
  {
    if |data| > 0 {
      var rest := data[1..];
      assert DistinctKeys(rest) by {
        assert forall j | 0 <= j < |rest| :: Keys(rest)[j] == Keys(data)[j + 1];
      }
      if data[0].0 == StrKey(ID) {
        assert forall j | 0 <= j < |rest| :: rest[j] == data[j + 1];
        UnionUnfold(l, rest);
      } else {
        var l' := l + [data[0]];
        KeysAppend(l, [data[0]]);
        forall j | 0 <= j < |rest|
          ensures rest[j].0 in Keys(l') <==> rest[j].0 == StrKey(ID)
        {
          assert rest[j] == data[j + 1];
          assert Keys(data)[0] != Keys(data)[j + 1];
        }
        UnionUnfold(l', rest);
      }
    }
  }

  /** The JSON-LD update response carries the same body shape as the creation response, with status 200. */
  lemma UpdatedMatchesCreated(resourceId: int, data: PhpArray)
    ensures ResourceUpdated(resourceId, data).data == ResourceCreated(Int(resourceId), data).data
  {
  }

  /** With no data, both JSON-LD envelopes are exactly `{id}`, and the plain update response is the JSON-LD one. */
  lemma DefaultBodies(resourceId: int)
    ensures ResourceCreated(Int(resourceId)).data == Array([(StrKey(ID), Int(resourceId))])
    ensures ResourceUpdated(resourceId).data == Array([(StrKey(ID), Int(resourceId))])
    ensures ResourceUpdatedPlain(resourceId) == ResourceUpdated(resourceId)
  {
    var l := [(StrKey(ID), Int(resourceId))];
    UnionIsFilter(l, []);
  }
}

=== FILE: exception_resolver.dfy ===
/**
 * `ExceptionResolver::onKernelException`: turns the exceptions the bundle
 * knows into a JSON error response `{message, errors}` with security
 * headers, and leaves every other exception to Symfony's own handler.
 */
module ExceptionResolver {
  import opened Wrappers
  import opened OrderedMaps
  import opened Strings
  import opened PhpValues
  import opened HeaderBags
  import opened BadRequestException

  const DEFAULT_HEADERS: Headers := [
    ("Content-Type", "application/json; charset=utf-8"),
    ("X-Content-Type-Options", "nosniff"),
    ("X-Frame-Options", "deny")
  ]
  const MSG_ON_DUPLICATE_ROWS: string := "The object already exist"
  const MSG_ON_ORM_INVALID_ARGUMENT: string := "We do not allow saving entities through a given association graph"
  const FK_MESSAGE_PREFIX: string := "First you need to update or delete relation in "
  const MSG_ON_FOREIGN_CONSTRAINT_VIOLATION: string := FK_MESSAGE_PREFIX + "%s"
  const EXCEPTION_CODE_DUPLICATE_ENTRY: string := "23000"
  const EXCEPTION_CODE_UNIQUE_CONSTRAINT: string := "23505"
  const ORM_INVALID_ARGUMENT_EXCEPTION_MESSAGE: string :=
    "Multiple non-persisted new entities were found through the given association graph"
  const SEPARATOR_IN_MSG_ON_FOREIGN_CONSTRAINT_VIOLATION: string := "referenced from table"
  const UNDEFINED_MESSAGE: string := "UndefinedMessage"
  const TABLE_NAME_FALLBACK: string := " - error occurred"

  const HTTP_OK: int := 200
  const HTTP_CONFLICT: int := 409
  const HTTP_UNPROCESSABLE_ENTITY: int := 422

  /** The code of a driver exception: PHP's `PDOException` carries the SQLSTATE as a string. */
  datatype DriverCode = CodeInt(i: int) | CodeStr(s: string)

  /** What `getPrevious()` returns. */
  datatype Previous = NoPrevious | DbalPdoException(code: DriverCode) | OtherPrevious

  /** The status code and headers of an exception implementing `HttpExceptionInterface`. */
  datatype HttpDetails = HttpDetails(statusCode: int, headers: Headers)

  /**
   * The thrown exception, described by the class tests the resolver makes:
   * `badRequestErrors` holds the errors of a `BadRequestException`,
   * `isNotFound` says it is the `NotFoundException` the resolver names, the
   * remaining flags name the Doctrine exception classes, and `http` holds the
   * details of an `HttpExceptionInterface`. One object may pass several tests.
   */
  datatype Throwable = Throwable(
    message: string,
    badRequestErrors: Option<PhpArray>,
    isNotFound: bool,
    isUniqueViolation: bool,
    previous: Previous,
    isOrmInvalidArgument: bool,
    isForeignKeyViolation: bool,
    http: Option<HttpDetails>)

  /**
   * What the resolver sees of its surroundings: `$_SERVER['APP_ENV']`, which
   * optional Doctrine classes are installed, the translator and Symfony's
   * table of status texts.
   */
  datatype Environment = Environment(
    appEnv: Option<string>,
    hasDbalPdoException: bool,
    hasOrmInvalidArgumentException: bool,
    translate: string -> string,
    statusText: int -> Option<string>)

  datatype ErrorResponse = ErrorResponse(status: int, headers: Headers, body: ErrorEnvelope)

  /** Left to Symfony, answered with a JSON error, or failed while answering. */
  datatype Outcome = Unhandled | Responded(response: ErrorResponse) | Failed(failure: Failure)

  /** A unique-constraint violation whose driver reported SQLSTATE 23505 or 23000, as a string. */
  predicate IsDuplicateRowInDatabase(t: Throwable, env: Environment) {
    && t.isUniqueViolation
    && env.hasDbalPdoException
    && t.previous.DbalPdoException?
    && t.previous.code in {CodeStr(EXCEPTION_CODE_UNIQUE_CONSTRAINT), CodeStr(EXCEPTION_CODE_DUPLICATE_ENTRY)}
  }

  /** Doctrine's complaint about entities reached through an association graph. */
  predicate IsOrmInvalidArgument(t: Throwable, env: Environment) {
    && env.hasOrmInvalidArgumentException
    && t.isOrmInvalidArgument
    && StartsWith(t.message, ORM_INVALID_ARGUMENT_EXCEPTION_MESSAGE)
  }

  /** `sprintf($fmt, $arg)` for a format whose only conversion is one `%s`. */
  function Format(fmt: string, arg: string): string {
    match IndexOf(fmt, "%s")
    case None => fmt
    case Some(i) => fmt[..i] + arg + fmt[i + 2..]
  }

  /** `explode(SEPARATOR, $message)[1] ?? ' - error occurred'`. */
  function ForeignKeyTableName(message: string): string {
    var parts := Explode(SEPARATOR_IN_MSG_ON_FOREIGN_CONSTRAINT_VIOLATION, message);
    if |parts| >= 2 then parts[1] else TABLE_NAME_FALLBACK
  }

  /** Sets status, headers and body; Symfony refuses a status outside 100..599. */
  function Respond(status: int, message: string, errors: seq<FieldError>, headers: Headers): (r: Outcome)
    ensures r.Responded? <==> 100 <= status < 600
    ensures r.Responded? ==> r.response == ErrorResponse(status, Replace(headers), ErrorEnvelope(message, errors))
    ensures !r.Responded? ==> r.Failed? && r.failure.Thrown? && r.failure.className == "InvalidArgumentException"
  {
    if !ValidStatus(status) then Failed(InvalidStatus(status))
    else
      Responded(ErrorResponse(status, Replace(headers), ErrorEnvelope(message, errors)))
  }

  /**
   * The resolver's decision chain, first match wins. `graphStatus` is the
   * status given to the association-graph and foreign-key branches.
   */
  function Resolve(t: Throwable, env: Environment, graphStatus: int): Outcome {
    if t.badRequestErrors.Some? then
      var data := JsonSerialize(NewBadRequest(t.message, t.badRequestErrors.value));
      Respond(HTTP_BAD_REQUEST, env.translate(data.message), data.errors, DEFAULT_HEADERS)
    else if t.isNotFound then
      Respond(HTTP_OK, t.message, [], DEFAULT_HEADERS)
    else if IsDuplicateRowInDatabase(t, env) then
      Respond(HTTP_CONFLICT, MSG_ON_DUPLICATE_ROWS, [], DEFAULT_HEADERS)
    else if IsOrmInvalidArgument(t, env) then
      Respond(graphStatus, MSG_ON_ORM_INVALID_ARGUMENT, [], DEFAULT_HEADERS)
    else if t.isForeignKeyViolation then
      var message := Format(MSG_ON_FOREIGN_CONSTRAINT_VIOLATION, ForeignKeyTableName(t.message));
      Respond(graphStatus, message, [], DEFAULT_HEADERS)
    else if t.http.Some? then
      if env.appEnv == Some("dev") then Unhandled
      else
        var code := t.http.value.statusCode;
        Respond(code, env.statusText(code).GetOr(UNDEFINED_MESSAGE), [], Union(DEFAULT_HEADERS, t.http.value.headers))
    else Unhandled
  }

  /** `onKernelException` as written: the graph and foreign-key branches keep status 200. */
  function OnKernelException(t: Throwable, env: Environment): Outcome {
    Resolve(t, env, HTTP_OK)
  }

  /** The resolver with the status its unit tests expect for those two branches: 422. */
  function OnKernelExceptionIntended(t: Throwable, env: Environment): Outcome {
    Resolve(t, env, HTTP_UNPROCESSABLE_ENTITY)
  }

  /** The exception is caught by one of the branches that come before the HTTP-exception branch. */
  predicate HandledBeforeHttp(t: Throwable, env: Environment) {
    || t.badRequestErrors.Some?
    || t.isNotFound
    || IsDuplicateRowInDatabase(t, env)
    || IsOrmInvalidArgument(t, env)
    || t.isForeignKeyViolation
  }

  /** The exceptions the resolver answers itself (outside dev mode for HTTP exceptions). */
  predicate Recognised(t: Throwable, env: Environment) {
    || t.badRequestErrors.Some?
    || t.isNotFound
    || IsDuplicateRowInDatabase(t, env)
    || IsOrmInvalidArgument(t, env)
    || t.isForeignKeyViolation
    || (t.http.Some? && env.appEnv != Some("dev"))
  }

  /** An exception is left to Symfony exactly when the resolver does not recognise it. */
  lemma HandledIffRecognised(t: Throwable, env: Environment, graphStatus: int)
    ensures Resolve(t, env, graphStatus).Unhandled? <==> !Recognised(t, env)
  {
  }

  /**
   * Only a `BadRequestException` yields field errors, and then exactly its
   * serialized errors: one entry per field, in order. The message is the
   * translated exception message and the status 400.
   */
  lemma ErrorsOnlyFromBadRequest(t: Throwable, env: Environment, graphStatus: int)
    requires Resolve(t, env, graphStatus).Responded?
    ensures |Resolve(t, env, graphStatus).response.body.errors| > 0 ==> t.badRequestErrors.Some?
    ensures t.badRequestErrors.Some? ==>
      && Resolve(t, env, graphStatus).response.status == 400
      && Resolve(t, env, graphStatus).response.body.message == env.translate(t.message)
      && FieldNames(Resolve(t, env, graphStatus).response.body.errors) == Keys(t.badRequestErrors.value)
      && Resolve(t, env, graphStatus).response.body.errors == SerializeErrors(t.badRequestErrors.value)
      && Resolve(t, env, graphStatus).response.headers == Replace(DEFAULT_HEADERS)
  {
    if t.badRequestErrors.Some? {
      JsonSerializeShape(NewBadRequest(t.message, t.badRequestErrors.value));
    }
  }

  /** A `NotFoundException` answers 200 with its own message, no errors and the default headers. */
  lemma NotFoundAnswer(t: Throwable, env: Environment, graphStatus: int)
    requires t.badRequestErrors.None? && t.isNotFound
    ensures Resolve(t, env, graphStatus)
         == Responded(ErrorResponse(200, Replace(DEFAULT_HEADERS), ErrorEnvelope(t.message, [])))
  {
  }

  /**
   * A unique-constraint violation whose driver exception carries the string
   * SQLSTATE 23505 or 23000 answers 409 with the fixed duplicate-row message.
   */
  lemma DuplicateRowAnswer(t: Throwable, env: Environment, graphStatus: int, sqlState: string)
    requires t.badRequestErrors.None? && !t.isNotFound
    requires t.isUniqueViolation && env.hasDbalPdoException
    requires t.previous == DbalPdoException(CodeStr(sqlState))
    requires sqlState == "23505" || sqlState == "23000"
    ensures Resolve(t, env, graphStatus)
         == Responded(ErrorResponse(409, Replace(DEFAULT_HEADERS), ErrorEnvelope("The object already exist", [])))
  {
  }

  /**
   * Doctrine's association-graph failure (its class installed, its message
   * starting with the known text) answers with the graph status: 200 as
   * written, 422 as intended, with the fixed message and no errors.
   */
  lemma OrmGraphAnswer(t: Throwable, env: Environment)
    requires t.badRequestErrors.None? && !t.isNotFound && !IsDuplicateRowInDatabase(t, env)
    requires env.hasOrmInvalidArgumentException && t.isOrmInvalidArgument
    requires StartsWith(t.message, ORM_INVALID_ARGUMENT_EXCEPTION_MESSAGE)
    ensures OnKernelException(t, env)
         == Responded(ErrorResponse(200, Replace(DEFAULT_HEADERS), ErrorEnvelope(MSG_ON_ORM_INVALID_ARGUMENT, [])))
    ensures OnKernelExceptionIntended(t, env)
         == Responded(ErrorResponse(422, Replace(DEFAULT_HEADERS), ErrorEnvelope(MSG_ON_ORM_INVALID_ARGUMENT, [])))
  {
  }

  /**
   * A foreign-key violation the earlier branches pass over answers with the
   * graph status and the fixed prefix followed by the table name taken from
   * the driver's message.
   */
  lemma ForeignKeyAnswer(t: Throwable, env: Environment)
    requires t.badRequestErrors.None? && !t.isNotFound && !IsDuplicateRowInDatabase(t, env)
    requires !IsOrmInvalidArgument(t, env) && t.isForeignKeyViolation
    ensures OnKernelException(t, env) == Responded(ErrorResponse(200, Replace(DEFAULT_HEADERS),
      ErrorEnvelope(FK_MESSAGE_PREFIX + ForeignKeyTableName(t.message), [])))
    ensures OnKernelExceptionIntended(t, env) == Responded(ErrorResponse(422, Replace(DEFAULT_HEADERS),
      ErrorEnvelope(FK_MESSAGE_PREFIX + ForeignKeyTableName(t.message), [])))
  {
    ForeignKeyMessage(ForeignKeyTableName(t.message));
  }

  /**
   * Every response carries the default headers. The HTTP-exception branch
   * answers with the default headers `+` the exception's own; every branch
   * before it answers with the default headers alone.
   */
  lemma ResponseHeadersShape(t: Throwable, env: Environment, graphStatus: int)
    requires Resolve(t, env, graphStatus).Responded?
    ensures
      || Resolve(t, env, graphStatus).response.headers == Replace(DEFAULT_HEADERS)
      || (&& t.http.Some?
          && env.appEnv != Some("dev")
          && Resolve(t, env, graphStatus).response.headers == Replace(Union(DEFAULT_HEADERS, t.http.value.headers)))
    ensures HandledBeforeHttp(t, env) ==> Resolve(t, env, graphStatus).response.headers == Replace(DEFAULT_HEADERS)
    ensures !HandledBeforeHttp(t, env) ==>
      && t.http.Some?
      && Resolve(t, env, graphStatus).response.headers == Replace(Union(DEFAULT_HEADERS, t.http.value.headers))
  {
  }

  /** Each default header normalises to its own name. */
  lemma DefaultHeaderLast(i: nat)
    requires i < |DEFAULT_HEADERS|
    ensures LastValue(DEFAULT_HEADERS, HeaderName(DEFAULT_HEADERS[i].0)) == Some(DEFAULT_HEADERS[i].1)
  {
    var n := HeaderName(DEFAULT_HEADERS[i].0);
    assert |n| == |DEFAULT_HEADERS[i].0|;
    assert DEFAULT_HEADERS[..2] == [DEFAULT_HEADERS[0], DEFAULT_HEADERS[1]];
    assert DEFAULT_HEADERS[..1] == [DEFAULT_HEADERS[0]];
  }

  /**
   * The security headers survive in every response, unless an HTTP
   * exception supplies a header whose name differs from one of them only in
   * case or in `_` for `-`.
   */
  lemma SecurityHeadersKept(t: Throwable, env: Environment, graphStatus: int, i: nat)
    requires Resolve(t, env, graphStatus).Responded?
    requires i < |DEFAULT_HEADERS|
    requires t.http.Some? ==> forall j | 0 <= j < |t.http.value.headers| ::
      t.http.value.headers[j].0 == DEFAULT_HEADERS[i].0
      || HeaderName(t.http.value.headers[j].0) != HeaderName(DEFAULT_HEADERS[i].0)
    ensures Get(Resolve(t, env, graphStatus).response.headers, HeaderName(DEFAULT_HEADERS[i].0))
      == Some(DEFAULT_HEADERS[i].1)
  {
    ResponseHeadersShape(t, env, graphStatus);
    DefaultHeaderLast(i);
    ReplaceGet(DEFAULT_HEADERS, HeaderName(DEFAULT_HEADERS[i].0));
    if t.http.Some? {
      MergedKept(DEFAULT_HEADERS, t.http.value.headers, i);
    }
  }

  /** A header name already in normal form is its own normalisation. */
  lemma HeaderNameOfNormal(k: string)
    requires forall j | 0 <= j < |k| :: k[j] != '_' && !('A' <= k[j] <= 'Z')
    ensures HeaderName(k) == k
  {
  }

  /**
   * As written, the merge happens before the header bag normalises names, so
   * an HTTP exception's `content-type` replaces the JSON content type.
   */
  lemma CaseVariantOverridesContentType(env: Environment, status: int)
    requires env.appEnv != Some("dev")
    requires 100 <= status < 600
    ensures
      var t := Throwable("", None, false, false, NoPrevious, false, false,
                         Some(HttpDetails(status, [("content-type", "text/html")])));
      Get(OnKernelException(t, env).response.headers, "content-type") == Some("text/html")
  {
    var extra: Headers := [("content-type", "text/html")];
    assert "content-type" != "Content-Type" by {
      assert "content-type"[0] != "Content-Type"[0];
    }
    assert "content-type" !in Keys(DEFAULT_HEADERS);
    assert Union(DEFAULT_HEADERS, extra) == DEFAULT_HEADERS + extra;
    HeaderNameOfNormal("content-type");
    LastValueAppend(DEFAULT_HEADERS, extra, "content-type");
    ReplaceGet(DEFAULT_HEADERS + extra, "content-type");
  }

  /** In dev mode an HTTP exception the earlier branches do not catch is left to Symfony. */
  lemma DevModeDefersHttpExceptions(t: Throwable, env: Environment, graphStatus: int)
    requires env.appEnv == Some("dev")
    requires t.badRequestErrors.None? && !t.isNotFound && !IsDuplicateRowInDatabase(t, env)
    requires !IsOrmInvalidArgument(t, env) && !t.isForeignKeyViolation
    ensures Resolve(t, env, graphStatus).Unhandled?
  {
  }

  /** `APP_ENV` matters only to exceptions that implement `HttpExceptionInterface`. */
  lemma AppEnvOnlyAffectsHttp(t: Throwable, env: Environment, graphStatus: int, appEnv: Option<string>)
    requires t.http.None?
    ensures Resolve(t, env.(appEnv := appEnv), graphStatus) == Resolve(t, env, graphStatus)
  {
  }

  /** An HTTP exception answers with its own status and the matching status text, or `UndefinedMessage`. */
  lemma HttpExceptionAnswer(t: Throwable, env: Environment, graphStatus: int)
    requires t.http.Some? && !t.isForeignKeyViolation && !t.isNotFound && t.badRequestErrors.None?
    requires !IsDuplicateRowInDatabase(t, env) && !IsOrmInvalidArgument(t, env)
    requires env.appEnv != Some("dev")
    requires 100 <= t.http.value.statusCode < 600
    ensures Resolve(t, env, graphStatus).Responded?
    ensures Resolve(t, env, graphStatus).response.status == t.http.value.statusCode
    ensures Resolve(t, env, graphStatus).response.body ==
      ErrorEnvelope(env.statusText(t.http.value.statusCode).GetOr(UNDEFINED_MESSAGE), [])
    ensures Resolve(t, env, graphStatus).response.headers == Replace(Union(DEFAULT_HEADERS, t.http.value.headers))
  {
  }

  /** The driver code is compared strictly: the integer 23505 is not the SQLSTATE "23505". */
  lemma DuplicateRowNeedsStringCode(t: Throwable, env: Environment)
    requires t.previous.DbalPdoException? && t.previous.code.CodeInt?
    ensures !IsDuplicateRowInDatabase(t, env)
  {
  }

  /** `explode(..)[1]` is the text between the first and the second separator (or the end). */
  lemma ForeignKeyTableNameIsSecondPiece(message: string)
    ensures
      var sep := SEPARATOR_IN_MSG_ON_FOREIGN_CONSTRAINT_VIOLATION;
      ForeignKeyTableName(message) ==
        match IndexOf(message, sep)
        case None => TABLE_NAME_FALLBACK
        case Some(i) =>
          var rest := message[i + |sep|..];
          match IndexOf(rest, sep)
          case None => rest
          case Some(j) => rest[..j]
  {
    var sep := SEPARATOR_IN_MSG_ON_FOREIGN_CONSTRAINT_VIOLATION;
    match IndexOf(message, sep)
    case None =>
    case Some(i) =>
      ExplodeUnfold(sep, message, i);
      var rest := message[i + |sep|..];
      match IndexOf(rest, sep)
      case None =>
      case Some(j) =>
        ExplodeUnfold(sep, rest, j);
  }

  lemma PrefixHasNoConversion()
    ensures '%' !in FK_MESSAGE_PREFIX
  {
    assert FK_MESSAGE_PREFIX == "First you need" + " to update or" + " delete relation in ";
    assert '%' !in "First you need" && '%' !in " to update or" && '%' !in " delete relation in ";
  }

  /** The foreign-key message names the extracted table after the fixed prefix. */
  lemma ForeignKeyMessage(table: string)
    ensures Format(MSG_ON_FOREIGN_CONSTRAINT_VIOLATION, table) == FK_MESSAGE_PREFIX + table
  {
    var fmt := MSG_ON_FOREIGN_CONSTRAINT_VIOLATION;
    var k := |FK_MESSAGE_PREFIX|;
    PrefixHasNoConversion();
    assert "%s"[0] == '%';
    FirstSeparatorAfter("%s", FK_MESSAGE_PREFIX, "");
    assert FK_MESSAGE_PREFIX + "%s" + "" == fmt;
    assert IndexOf(fmt, "%s") == Some(k);
    assert fmt[..k] == FK_MESSAGE_PREFIX;
    assert fmt[k + 2..] == "";
  }

  /** The unit test's foreign-key violation: the text after the separator becomes the table name. */
  lemma ForeignKeyExample(env: Environment, graphStatus: int)
    requires 100 <= graphStatus < 600
    ensures
      var message := "some exception message" + SEPARATOR_IN_MSG_ON_FOREIGN_CONSTRAINT_VIOLATION + " some_field_name";
      var t := Throwable(message, None, false, false, NoPrevious, false, true, None);
      Resolve(t, env, graphStatus) == Responded(ErrorResponse(graphStatus, Replace(DEFAULT_HEADERS),
        ErrorEnvelope(FK_MESSAGE_PREFIX + " some_field_name", [])))
  {
    var sep := SEPARATOR_IN_MSG_ON_FOREIGN_CONSTRAINT_VIOLATION;
    assert sep[0] == 'r';
    ExplodeTwo(sep, "some exception message", " some_field_name");
    ForeignKeyMessage(" some_field_name");
  }

  /** As written, the unit test's association-graph exception is answered with status 200. */
  lemma GraphExceptionStatusAsWritten(env: Environment)
    requires env.hasOrmInvalidArgumentException
    ensures
      var t := Throwable(ORM_INVALID_ARGUMENT_EXCEPTION_MESSAGE, None, false, false, NoPrevious, true, false, None);
      OnKernelException(t, env).Responded? && OnKernelException(t, env).response.status == 200
  {
  }

  /** With the intended status, association-graph and foreign-key failures answer 422. */
  lemma GraphFailuresUnprocessable(t: Throwable, env: Environment)
    requires t.badRequestErrors.None? && !t.isNotFound && !IsDuplicateRowInDatabase(t, env)
    requires IsOrmInvalidArgument(t, env) || t.isForeignKeyViolation
    ensures OnKernelExceptionIntended(t, env).Responded?
    ensures OnKernelExceptionIntended(t, env).response.status == 422
    ensures OnKernelExceptionIntended(t, env).response.body.errors == []
  {
  }

  /** The two resolvers differ only in the status of those two branches. */
  lemma IntendedDiffersOnlyInGraphStatus(t: Throwable, env: Environment)
    requires !(t.badRequestErrors.None? && !t.isNotFound && !IsDuplicateRowInDatabase(t, env)
               && (IsOrmInvalidArgument(t, env) || t.isForeignKeyViolation))
    ensures OnKernelExceptionIntended(t, env) == OnKernelException(t, env)
  {
  }
}

=== FILE: header_bag.dfy ===
/**
 * Symfony's `HeaderBag`, as far as the bundle uses it: header names are
 * normalised (upper-case ASCII letters lowered, `_` turned into `-`), `set`
 * replaces the value stored under the normalised name, and `replace` empties
 * the bag and sets every given header in order.
 */
module HeaderBags {
  import opened Wrappers
  import opened OrderedMaps
  import opened Strings

  /** Header names and values, in order. */
  type Headers = seq<(string, string)>

  function NormalChar(c: char): char {
    if c == '_' then '-' else LowerChar(c)
  }

  /** The key under which a header is stored. */
  function HeaderName(k: string): (n: string)
    ensures |n| == |k|
  {
    seq(|k|, i requires 0 <= i < |k| => NormalChar(k[i]))
  }

  lemma HeaderNameIdempotent(k: string)
    ensures HeaderName(HeaderName(k)) == HeaderName(k)
  {
  }

  /** `$bag->set($k, $v)`. */
  function Set(bag: Headers, k: string, v: string): Headers {
    Put(bag, HeaderName(k), v)
  }

  /** `$bag->get($k)`: the value stored under the normalised name, if any. */
  function Lookup(bag: Headers, k: string): Option<string> {
    Get(bag, HeaderName(k))
  }

  /** `$bag->replace($hs)`: the bag obtained by setting each header of `hs` in turn. */
  function Replace(hs: Headers): Headers
    decreases |hs|
  {
    if |hs| == 0 then []
    else Set(Replace(hs[..|hs| - 1]), hs[|hs| - 1].0, hs[|hs| - 1].1)
  }

  /** The value of the last header in `hs` whose name normalises to `n`. */
  function LastValue(hs: Headers, n: string): Option<string>
    decreases |hs|
  {
    if |hs| == 0 then None
    else if HeaderName(hs[|hs| - 1].0) == n then Some(hs[|hs| - 1].1)
    else LastValue(hs[..|hs| - 1], n)
  }

  /** After `replace`, a name holds the value of the last header that normalises to it. */
  lemma {:induction false} ReplaceGet(hs: Headers, n: string)
    ensures Get(Replace(hs), n) == LastValue(hs, n)
    decreases |hs|
  {
    if |hs| > 0 {
      ReplaceGet(hs[..|hs| - 1], n);
    }
  }

  /** The bag never stores a name twice. */
  lemma {:induction false} ReplaceDistinct(hs: Headers)
    ensures DistinctKeys(Replace(hs))
    decreases |hs|
  {
    if |hs| > 0 {
      ReplaceDistinct(hs[..|hs| - 1]);
      PutDistinct(Replace(hs[..|hs| - 1]), HeaderName(hs[|hs| - 1].0), hs[|hs| - 1].1);
    }
  }

  /** Later headers take precedence over earlier ones with the same normalised name. */
  lemma {:induction false} LastValueAppend(a: Headers, b: Headers, n: string)
    ensures LastValue(a + b, n) == if LastValue(b, n).Some? then LastValue(b, n) else LastValue(a, n)
    decreases |b|
  {
    if |b| == 0 {
      assert a + b == a;
    } else {
      assert (a + b)[..|a + b| - 1] == a + b[..|b| - 1];
      LastValueAppend(a, b[..|b| - 1], n);
    }
  }

  /** A name none of the headers normalises to has no value. */
  lemma {:induction false} LastValueAbsent(hs: Headers, n: string)
    requires forall i | 0 <= i < |hs| :: HeaderName(hs[i].0) != n
    ensures LastValue(hs, n).None?
    decreases |hs|
  {
    if |hs| > 0 {
      LastValueAbsent(hs[..|hs| - 1], n);
    }
  }

  /** Merging with `$base + $extra` never touches names of `base` that `extra` does not spell differently. */
  lemma MergedTailAvoids(base: Headers, extra: Headers, i: nat)
    requires i < |base|
    requires forall j | 0 <= j < |extra| ::
      extra[j].0 == base[i].0 || HeaderName(extra[j].0) != HeaderName(base[i].0)
    ensures |base| <= |Union(base, extra)|
    ensures Union(base, extra) == base + Union(base, extra)[|base|..]
    ensures forall j | |base| <= j < |Union(base, extra)| ::
      HeaderName(Union(base, extra)[j].0) != HeaderName(base[i].0)
  {
    var u := Union(base, extra);
    UnionPrefix(base, extra);
    UnionSuffix(base, extra);
    assert u == base + u[|base|..];
    assert base[i].0 == Keys(base)[i];
  }

  /**
   * After `replace($base + $extra)`, a header of `base` that is the last of
   * its name in `base` keeps its value, unless `extra` holds the same name
   * spelt differently.
   */
  lemma MergedKept(base: Headers, extra: Headers, i: nat)
    requires i < |base|
    requires LastValue(base, HeaderName(base[i].0)) == Some(base[i].1)
    requires forall j | 0 <= j < |extra| ::
      extra[j].0 == base[i].0 || HeaderName(extra[j].0) != HeaderName(base[i].0)
    ensures Get(Replace(Union(base, extra)), HeaderName(base[i].0)) == Some(base[i].1)
  {
    var n := HeaderName(base[i].0);
    var u := Union(base, extra);
    MergedTailAvoids(base, extra, i);
    var tail := u[|base|..];
    forall j | 0 <= j < |tail|
      ensures HeaderName(tail[j].0) != n
    {
      assert tail[j] == u[|base| + j];
    }
    LastValueAbsent(tail, n);
    LastValueAppend(base, tail, n);
    ReplaceGet(u, n);
  }
}

=== FILE: ordered_maps.dfy ===
/**
 * PHP arrays are ordered maps: iteration follows insertion order, assigning
 * to an existing key keeps its position, and `$left + $right` keeps every
 * entry of `$left` and appends the entries of `$right` whose keys are new.
 * This module models them as sequences of (key, value) pairs.
 */
module OrderedMaps {
  import opened Wrappers

  /** The keys of `m`, in order. */
  function Keys<K, V>(m: seq<(K, V)>): seq<K> {
    seq(|m|, i requires 0 <= i < |m| => m[i].0)
  }

  /** The values of `m`, in order, keys discarded (PHP's `array_values`). */
  function Values<K, V>(m: seq<(K, V)>): seq<V> {
    seq(|m|, i requires 0 <= i < |m| => m[i].1)
  }

  predicate NoDuplicates<T(==)>(s: seq<T>) {
    forall i, j | 0 <= i < j < |s| :: s[i] != s[j]
  }

  /** Every PHP array satisfies this: no key occurs twice. */
  predicate DistinctKeys<K(==), V>(m: seq<(K, V)>) {
    NoDuplicates(Keys(m))
  }

  /** The value stored under `k` (the first one, should `m` repeat a key). */
  function Get<K(==), V>(m: seq<(K, V)>, k: K): Option<V> {
    if |m| == 0 then None
    else if m[0].0 == k then Some(m[0].1)
    else Get(m[1..], k)
  }

  lemma KeysCons<K, V>(e: (K, V), m: seq<(K, V)>)
    ensures Keys([e] + m) == [e.0] + Keys(m)
  {
  }

  lemma KeysAppend<K, V>(a: seq<(K, V)>, b: seq<(K, V)>)
    ensures Keys(a + b) == Keys(a) + Keys(b)
  {
  }

  /** A key is found exactly when it is one of the keys. */
  lemma {:induction false} GetSome<K, V>(m: seq<(K, V)>, k: K)
    ensures Get(m, k).Some? <==> k in Keys(m)
  {
    if |m| > 0 {
      KeysCons(m[0], m[1..]);
      assert m == [m[0]] + m[1..];
      GetSome(m[1..], k);
    }
  }

  /** In a map without repeated keys, the entry at index `i` is what `Get` finds. */
  lemma {:induction false} GetAt<K, V>(m: seq<(K, V)>, i: nat)
    requires DistinctKeys(m)
    requires i < |m|
    ensures Get(m, m[i].0) == Some(m[i].1)
  {
    if i > 0 {
      assert m[0].0 == Keys(m)[0] && m[i].0 == Keys(m)[i];
      assert Keys(m[1..]) == Keys(m)[1..];
      GetAt(m[1..], i - 1);
    }
  }

  /** Looking up a key in a concatenation consults the left part first. */
  lemma {:induction false} GetAppend<K, V>(a: seq<(K, V)>, b: seq<(K, V)>, k: K)
    ensures Get(a + b, k) == if k in Keys(a) then Get(a, k) else Get(b, k)
  {
    if |a| > 0 {
      assert (a + b)[0] == a[0];
      assert (a + b)[1..] == a[1..] + b;
      KeysCons(a[0], a[1..]);
      assert a == [a[0]] + a[1..];
      if a[0].0 == k {
        assert Keys(a)[0] == k;
        assert Get(a + b, k) == Some(a[0].1);
      } else {
        GetAppend(a[1..], b, k);
        assert Get(a + b, k) == Get(a[1..] + b, k);
        assert k in Keys(a) <==> k in Keys(a[1..]);
        assert Get(a, k) == Get(a[1..], k);
      }
    } else {
      assert a + b == b;
    }
  }

  /**
   * PHP's `$m[$k] = $v`: an existing key keeps its position and gets the new
   * value; a new key is appended at the end.
   */
  function Put<K(==,!new), V>(m: seq<(K, V)>, k: K, v: V): (r: seq<(K, V)>)
    ensures Get(r, k) == Some(v)
    ensures forall k' | k' != k :: Get(r, k') == Get(m, k')
    ensures k in Keys(m) ==> Keys(r) == Keys(m)
    ensures k !in Keys(m) ==> Keys(r) == Keys(m) + [k]
  {
    if |m| == 0 then [(k, v)]
    else if m[0].0 == k then
      KeysCons(m[0], m[1..]);
      KeysCons((k, v), m[1..]);
      assert m == [m[0]] + m[1..];
      [(k, v)] + m[1..]
    else
      var rest := Put(m[1..], k, v);
      KeysCons(m[0], m[1..]);
      KeysCons(m[0], rest);
      assert m == [m[0]] + m[1..];
      [m[0]] + rest
  }

  /** Assigning to a key the map lacks appends the entry. */
  lemma {:induction false} PutNew<K(!new), V>(m: seq<(K, V)>, k: K, v: V)
    requires k !in Keys(m)
    ensures Put(m, k, v) == m + [(k, v)]
  {
    if |m| > 0 {
      assert Keys(m)[0] == m[0].0;
      assert Keys(m[1..]) == Keys(m)[1..];
      PutNew(m[1..], k, v);
      assert m == [m[0]] + m[1..];
    }
  }

  /** Assignment adds the entry `(k, v)` and otherwise keeps only entries already present. */
  lemma {:induction false} PutEntries<K(!new), V>(m: seq<(K, V)>, k: K, v: V)
    ensures forall i | 0 <= i < |Put(m, k, v)| :: Put(m, k, v)[i] == (k, v) || Put(m, k, v)[i] in m
  {
    if |m| > 0 && m[0].0 != k {
      PutEntries(m[1..], k, v);
      var r := Put(m, k, v);
      assert r == [m[0]] + Put(m[1..], k, v);
      forall i | 0 < i < |r|
        ensures r[i] == (k, v) || r[i] in m
      {
        assert r[i] == Put(m[1..], k, v)[i - 1];
      }
    } else if |m| > 0 {
      forall i | 0 < i < |Put(m, k, v)|
        ensures Put(m, k, v)[i] in m
      {
        assert Put(m, k, v)[i] == m[i];
      }
    }
  }

  /** In a map without repeated keys, assigning to the key at index `i` replaces that entry in place. */
  lemma {:induction false} PutAt<K(!new), V>(m: seq<(K, V)>, i: nat, v: V)
    requires DistinctKeys(m)
    requires i < |m|
    ensures Put(m, m[i].0, v) == m[i := (m[i].0, v)]
  {
    if i > 0 {
      assert m[0].0 == Keys(m)[0] && m[i].0 == Keys(m)[i];
      assert Keys(m[1..]) == Keys(m)[1..];
      PutAt(m[1..], i - 1, v);
      assert m[1..][i - 1 := (m[i].0, v)] == m[i := (m[i].0, v)][1..];
    }
  }

  /** Assignment never introduces a repeated key. */
  lemma PutDistinct<K(!new), V>(m: seq<(K, V)>, k: K, v: V)
    requires DistinctKeys(m)
    ensures DistinctKeys(Put(m, k, v))
  {
    if k !in Keys(m) {
      var ks := Keys(m) + [k];
      assert forall i | 0 <= i < |Keys(m)| :: ks[i] == Keys(m)[i];
    }
  }

  /**
   * PHP's array union `$l + $r`: the entries of `l`, then each entry of `r`
   * whose key is not yet present, in the order of `r`.
   */
  function Union<K(==), V>(l: seq<(K, V)>, r: seq<(K, V)>): (u: seq<(K, V)>)
    decreases |r|
  {
    if |r| == 0 then l
    else Union(if r[0].0 in Keys(l) then l else l + [r[0]], r[1..])
  }

  /** The union keeps the left operand, untouched, as its prefix. */
  lemma {:induction false} UnionPrefix<K, V>(l: seq<(K, V)>, r: seq<(K, V)>)
    ensures |l| <= |Union(l, r)| && Union(l, r)[..|l|] == l
    decreases |r|
  {
    if |r| > 0 {
      var l' := if r[0].0 in Keys(l) then l else l + [r[0]];
      UnionPrefix(l', r[1..]);
      assert Union(l, r)[..|l|] == Union(l', r[1..])[..|l'|][..|l|];
    }
  }

  /** Left-biased lookup: a key of `l` keeps its value from `l`; other keys come from `r`. */
  lemma {:induction false} UnionGet<K, V>(l: seq<(K, V)>, r: seq<(K, V)>, k: K)
    ensures Get(Union(l, r), k) == if k in Keys(l) then Get(l, k) else Get(r, k)
    decreases |r|
  {
    if |r| == 0 {
      GetSome(l, k);
    } else {
      var l' := if r[0].0 in Keys(l) then l else l + [r[0]];
      UnionGet(l', r[1..], k);
      KeysCons(r[0], r[1..]);
      assert r == [r[0]] + r[1..];
      if r[0].0 !in Keys(l) {
        KeysAppend(l, [r[0]]);
        GetAppend(l, [r[0]], k);
        if k !in Keys(l) {
          assert Keys([r[0]]) == [r[0].0];
          if k == r[0].0 {
            assert Get([r[0]], k) == Some(r[0].1);
            assert Get(r, k) == Some(r[0].1);
          } else {
            assert Get(r, k) == Get(r[1..], k);
          }
        }
      }
    }
  }

  /** The union of a PHP array with anything is again a PHP array. */
  lemma {:induction false} UnionDistinct<K, V>(l: seq<(K, V)>, r: seq<(K, V)>)
    requires DistinctKeys(l)
    ensures DistinctKeys(Union(l, r))
    decreases |r|
  {
    if |r| > 0 {
      if r[0].0 !in Keys(l) {
        KeysAppend(l, [r[0]]);
        var ks := Keys(l) + [r[0].0];
        assert forall i | 0 <= i < |Keys(l)| :: ks[i] == Keys(l)[i];
        UnionDistinct(l + [r[0]], r[1..]);
      } else {
        UnionDistinct(l, r[1..]);
      }
    }
  }

  /** Past the left operand, a union holds only entries of `r` whose keys `l` lacks. */
  lemma {:induction false} UnionSuffix<K, V>(l: seq<(K, V)>, r: seq<(K, V)>)
    ensures forall i | |l| <= i < |Union(l, r)| :: Union(l, r)[i] in r && Union(l, r)[i].0 !in Keys(l)
    decreases |r|
  {
    if |r| > 0 {
      var l' := if r[0].0 in Keys(l) then l else l + [r[0]];
      UnionSuffix(l', r[1..]);
      UnionPrefix(l', r[1..]);
      KeysAppend(l, [r[0]]);
      var u := Union(l, r);
      forall i | |l| <= i < |u|
        ensures u[i] in r && u[i].0 !in Keys(l)
      {
        if i < |l'| {
          assert u[i] == l'[i] == r[0];
        } else {
          assert u[i] in r[1..];
        }
      }
    }
  }

  /** The keys of a union are the keys of either side. */
  lemma UnionKeys<K, V>(l: seq<(K, V)>, r: seq<(K, V)>, k: K)
    ensures k in Keys(Union(l, r)) <==> k in Keys(l) || k in Keys(r)
  {
    UnionGet(l, r, k);
    GetSome(Union(l, r), k);
    GetSome(l, k);
    GetSome(r, k);
  }
}

=== FILE: php_values.dfy ===
/**
 * The PHP values that flow through the bundle: scalars, ordered arrays and
 * objects, plus the errors PHP raises on its own (type errors under
 * `declare(strict_types=1)`).
 */
module PhpValues {
  import opened Wrappers
  import opened OrderedMaps
  import opened Strings

  /** PHP array keys are integers or strings. */
  datatype Key = IntKey(i: int) | StrKey(s: string)

  /**
   * A PHP value. Floats are kept as their printed form (the model does no
   * float arithmetic); an object is known by its class and by whether it
   * implements the value-object marker interface `ApiRationObjectInterface`.
   */
  datatype Value =
    | Null
    | Bool(b: bool)
    | Int(i: int)
    | Float(repr: string)
    | Str(s: string)
    | Array(entries: seq<(Key, Value)>)
    | Object(className: string, isMarker: bool)

  /** A PHP array: an ordered map from keys to values. */
  type PhpArray = seq<(Key, Value)>

  /** The list `[v0, v1, ...]`: keys 0, 1, ... in order. */
  function ListOf(vs: seq<Value>): PhpArray {
    seq(|vs|, i requires 0 <= i < |vs| => (IntKey(i), vs[i]))
  }

  /** `array_values` of a list gives back the listed values. */
  lemma ValuesOfList(vs: seq<Value>)
    ensures Values(ListOf(vs)) == vs
  {
  }

  /** Lists of strings, as used for error messages. */
  function Strs(ms: seq<string>): seq<Value> {
    seq(|ms|, i requires 0 <= i < |ms| => Str(ms[i]))
  }

  /** Errors raised by the PHP runtime or by a library, outside the bundle's own exceptions. */
  datatype Failure =
    | TypeError(detail: string)
    | Thrown(className: string, message: string)

  /** PHP integers are 64-bit. */
  const PHP_INT_MAX: int := 0x7FFF_FFFF_FFFF_FFFF
  const PHP_INT_MIN: int := -0x8000_0000_0000_0000

  predicate IsPhpInt(i: int) {
    PHP_INT_MIN <= i <= PHP_INT_MAX
  }

  /**
   * The key `$a[$s]` stores under: a string that is the canonical decimal
   * form of a 64-bit integer (`"0"`, `"12"`, `"-3"`, but not `"012"`, `"-0"`
   * or `"+1"`) becomes that integer; any other string stays a string.
   */
  function StringKey(s: string): (k: Key)
    ensures k.IntKey? ==> IsPhpInt(k.i) && IntToString(k.i) == s
    ensures k.StrKey? ==> k.s == s
  {
    match ParseInt(s)
    case Some(n) => if IntToString(n) == s && IsPhpInt(n) then IntKey(n) else StrKey(s)
    case None => StrKey(s)
  }

  /** Every printed 64-bit integer becomes the integer key it prints. */
  lemma StringKeyOfInt(n: int)
    requires IsPhpInt(n)
    ensures StringKey(IntToString(n)) == IntKey(n)
  {
    ParseIntToString(n);
  }

  /** Distinct strings stay distinct keys, so grouping by string is grouping by key. */
  lemma StringKeyInjective(a: string, b: string)
    requires StringKey(a) == StringKey(b)
    ensures a == b
  {
  }

  /** Symfony's `Response` accepts only status codes from 100 to 599. */
  predicate ValidStatus(status: int) {
    100 <= status < 600
  }

  /** What `Response::setStatusCode` throws for any other code. */
  function InvalidStatus(status: int): Failure {
    Thrown("InvalidArgumentException", "The HTTP status code \"" + IntToString(status) + "\" is not valid.")
  }

  /** A JSON response: the data handed to `JsonResponse` and the HTTP status. */
  datatype JsonResponse = JsonResponse(data: Value, status: int)

  /** `new JsonResponse($data, $status)`. */
  function NewJsonResponse(data: Value, status: int): (r: Result<JsonResponse, Failure>)
    ensures r.Ok? <==> ValidStatus(status)
    ensures r.Ok? ==> r.value.data == data && r.value.status == status
    ensures r.Err? ==> r.error == InvalidStatus(status)
  {
    if ValidStatus(status) then Ok(JsonResponse(data, status)) else Err(InvalidStatus(status))
  }
}

=== FILE: strings.dfy ===
/**
 * The PHP string functions the bundle relies on: `strtolower`, prefix and
 * suffix tests (`strpos(..) === 0`, `str_ends_with`), `explode`, `implode`
 * and integer-to-string conversion.
 */
module Strings {
  import opened Wrappers

  /** ASCII lower-casing of one character, as `strtolower` does. */
  function LowerChar(c: char): char {
    if 'A' <= c <= 'Z' then (c as int + 32) as char else c
  }

  function Lower(s: string): string {
    seq(|s|, i requires 0 <= i < |s| => LowerChar(s[i]))
  }

  /** Lower-casing twice is lower-casing once. */
  lemma LowerIdempotent(s: string)
    ensures Lower(Lower(s)) == Lower(s)
  {
  }

  /** `strpos($s, $p) === 0` for a non-empty `$p`. */
  predicate StartsWith(s: string, p: string) {
    |p| <= |s| && s[..|p|] == p
  }

  /** `str_ends_with($s, $p)`. */
  predicate EndsWith(s: string, p: string) {
    |p| <= |s| && s[|s| - |p|..] == p
  }

  /** `sub` occurs in `s` starting at index `i`. */
  predicate OccursAt(s: string, sub: string, i: int) {
    0 <= i && i + |sub| <= |s| && s[i..i + |sub|] == sub
  }

  /** The first occurrence of `sub` in `s` at or after `from`. */
  function IndexFrom(s: string, sub: string, from: nat): (r: Option<nat>)
    requires |sub| > 0
    ensures r.Some? ==> from <= r.value && OccursAt(s, sub, r.value)
    ensures r.Some? ==> forall j | from <= j < r.value :: !OccursAt(s, sub, j)
    ensures r.None? ==> forall j | from <= j :: !OccursAt(s, sub, j)
    decreases |s| - from
  {
    if from + |sub| > |s| then None
    else if s[from..from + |sub|] == sub then Some(from)
    else IndexFrom(s, sub, from + 1)
  }

  /** The first occurrence of `sub` in `s` (`strpos`, with `None` for `false`). */
  function IndexOf(s: string, sub: string): Option<nat>
    requires |sub| > 0
  {
    IndexFrom(s, sub, 0)
  }

  /** The first occurrence is determined by where `sub` occurs and where it does not. */
  lemma IndexOfIs(s: string, sub: string, i: nat)
    requires |sub| > 0
    requires OccursAt(s, sub, i)
    requires forall j | 0 <= j < i :: !OccursAt(s, sub, j)
    ensures IndexOf(s, sub) == Some(i)
  {
  }

  /** PHP's `explode($sep, $s)`: the pieces between occurrences of `sep`. */
  function Explode(sep: string, s: string): (parts: seq<string>)
    requires |sep| > 0
    ensures |parts| >= 1
    decreases |s|
  {
    match IndexOf(s, sep)
    case None => [s]
    case Some(i) => [s[..i]] + Explode(sep, s[i + |sep|..])
  }

  /** PHP's `implode($sep, $parts)`. */
  function Join(sep: string, parts: seq<string>): string
    decreases |parts|
  {
    if |parts| == 0 then ""
    else if |parts| == 1 then parts[0]
    else parts[0] + sep + Join(sep, parts[1..])
  }

  lemma JoinCons(sep: string, x: string, parts: seq<string>)
    requires |parts| >= 1
    ensures Join(sep, [x] + parts) == x + sep + Join(sep, parts)
  {
    assert ([x] + parts)[1..] == parts;
  }

  /** Splitting at the first occurrence `i` of the separator. */
  lemma ExplodeUnfold(sep: string, s: string, i: nat)
    requires |sep| > 0
    requires IndexOf(s, sep) == Some(i)
    ensures i + |sep| <= |s|
    ensures Explode(sep, s) == [s[..i]] + Explode(sep, s[i + |sep|..])
    ensures s == s[..i] + sep + s[i + |sep|..]
  {
    assert OccursAt(s, sep, i);
    assert s == s[..i] + s[i..i + |sep|] + s[i + |sep|..];
  }

  /** Gluing the pieces back together with the separator gives the original string. */
  lemma {:induction false} JoinExplode(sep: string, s: string)
    requires |sep| > 0
    ensures Join(sep, Explode(sep, s)) == s
    decreases |s|
  {
    var r := IndexOf(s, sep);
    if r.Some? {
      var i := r.value;
      var rest := s[i + |sep|..];
      ExplodeUnfold(sep, s, i);
      JoinExplode(sep, rest);
      JoinCons(sep, s[..i], Explode(sep, rest));
    }
  }

  /** No piece produced by `explode` contains the separator. */
  lemma {:induction false} ExplodePiecesFree(sep: string, s: string)
    requires |sep| > 0
    ensures forall p | p in Explode(sep, s) :: IndexOf(p, sep).None?
    decreases |s|
  {
    match IndexOf(s, sep)
    case None =>
    case Some(i) =>
      var rest := s[i + |sep|..];
      ExplodePiecesFree(sep, rest);
      var head := s[..i];
      forall j | 0 <= j
        ensures !OccursAt(head, sep, j)
      {
        if OccursAt(head, sep, j) {
          assert head[j..j + |sep|] == s[j..j + |sep|];
          assert OccursAt(s, sep, j);
        }
      }
      assert IndexOf(head, sep).None?;
  }

  /** A string without the separator is a single piece; one with it is at least two. */
  lemma ExplodeCount(sep: string, s: string)
    requires |sep| > 0
    ensures |Explode(sep, s)| >= 2 <==> IndexOf(s, sep).Some?
  {
  }

  /** For a one-character separator, an occurrence is just that character. */
  lemma OccursAtChar(s: string, sep: string, j: int)
    requires |sep| == 1
    ensures OccursAt(s, sep, j) <==> 0 <= j < |s| && s[j] == sep[0]
  {
    if 0 <= j < |s| {
      assert s[j..j + 1] == [s[j]];
    }
  }

  /** An occurrence starts with the separator's first character. */
  lemma OccursAtFirst(s: string, sep: string, j: int)
    requires |sep| > 0
    requires OccursAt(s, sep, j)
    ensures s[j] == sep[0]
  {
    assert s[j..j + |sep|][0] == s[j];
  }

  /** A string without the separator's first character does not contain the separator. */
  lemma NoSeparatorChar(sep: string, c: string)
    requires |sep| > 0
    requires sep[0] !in c
    ensures IndexOf(c, sep).None?
  {
    forall j | 0 <= j
      ensures !OccursAt(c, sep, j)
    {
      if OccursAt(c, sep, j) {
        OccursAtFirst(c, sep, j);
      }
    }
  }

  /** When `a` lacks the separator's first character, the first separator in `a + sep + b` follows `a`. */
  lemma FirstSeparatorAfter(sep: string, a: string, b: string)
    requires |sep| > 0
    requires sep[0] !in a
    ensures IndexOf(a + sep + b, sep) == Some(|a|)
  {
    var s := a + sep + b;
    forall j | 0 <= j < |a|
      ensures !OccursAt(s, sep, j)
    {
      assert s[j] == a[j];
      if OccursAt(s, sep, j) {
        OccursAtFirst(s, sep, j);
      }
    }
    assert s[|a|..|a| + |sep|] == sep;
    IndexOfIs(s, sep, |a|);
  }

  /** Exploding `a + sep + b`, neither side holding the separator's first character, gives `[a, b]`. */
  lemma ExplodeTwo(sep: string, a: string, b: string)
    requires |sep| > 0
    requires sep[0] !in a && sep[0] !in b
    ensures Explode(sep, a + sep + b) == [a, b]
  {
    var s := a + sep + b;
    FirstSeparatorAfter(sep, a, b);
    ExplodeUnfold(sep, s, |a|);
    assert s[..|a|] == a;
    assert s[|a| + |sep|..] == b;
    NoSeparatorChar(sep, b);
  }

  /** Appending text after a string does not move its first separator. */
  lemma FirstSeparatorKept(sep: string, a: string, t: string, i: nat)
    requires |sep| == 1
    requires IndexOf(a, sep) == Some(i)
    ensures IndexOf(a + t, sep) == Some(i)
  {
    var s := a + t;
    forall j | 0 <= j < i
      ensures !OccursAt(s, sep, j)
    {
      OccursAtChar(a, sep, j);
      OccursAtChar(s, sep, j);
    }
    OccursAtChar(a, sep, i);
    OccursAtChar(s, sep, i);
    IndexOfIs(s, sep, i);
  }

  /** In `a + sep + c` with no separator in `a`, the first separator is the added one. */
  lemma FirstSeparatorAdded(sep: string, a: string, c: string)
    requires |sep| == 1
    requires IndexOf(a, sep).None?
    ensures IndexOf(a + sep + c, sep) == Some(|a|)
  {
    var s := a + sep + c;
    forall j | 0 <= j < |a|
      ensures !OccursAt(s, sep, j)
    {
      OccursAtChar(a, sep, j);
      OccursAtChar(s, sep, j);
    }
    OccursAtChar(s, sep, |a|);
    IndexOfIs(s, sep, |a|);
  }

  /** With a one-character separator, a new trailing piece is simply appended. */
  lemma {:induction false} ExplodeSnoc(sep: string, a: string, c: string)
    requires |sep| == 1
    requires sep[0] !in c
    ensures Explode(sep, a + sep + c) == Explode(sep, a) + [c]
    decreases |a|
  {
    var s := a + sep + c;
    NoSeparatorChar(sep, c);
    match IndexOf(a, sep)
    case None =>
      FirstSeparatorAdded(sep, a, c);
      ExplodeUnfold(sep, s, |a|);
      assert s[..|a|] == a;
      assert s[|a| + 1..] == c;
    case Some(i) =>
      FirstSeparatorKept(sep, a, sep + c, i);
      assert a + (sep + c) == s;
      ExplodeUnfold(sep, s, i);
      ExplodeUnfold(sep, a, i);
      var rest := a[i + 1..];
      assert s[i + 1..] == rest + sep + c;
      assert s[..i] == a[..i];
      ExplodeSnoc(sep, rest, c);
  }

  /** Splitting pieces glued with a separator that none of them contains gives the pieces back. */
  lemma {:induction false} ExplodeJoin(sep: string, parts: seq<string>)
    requires |sep| > 0
    requires |parts| >= 1
    requires forall i | 0 <= i < |parts| :: sep[0] !in parts[i]
    ensures Explode(sep, Join(sep, parts)) == parts
    decreases |parts|
  {
    if |parts| == 1 {
      NoSeparatorChar(sep, parts[0]);
    } else {
      var rest := Join(sep, parts[1..]);
      var s := parts[0] + sep + rest;
      FirstSeparatorAfter(sep, parts[0], rest);
      ExplodeUnfold(sep, s, |parts[0]|);
      assert s[..|parts[0]|] == parts[0];
      assert s[|parts[0]| + |sep|..] == rest;
      ExplodeJoin(sep, parts[1..]);
      assert parts == [parts[0]] + parts[1..];
    }
  }

  /** Imploding two non-empty lists one after the other glues their implosions with one separator. */
  lemma {:induction false} JoinConcat(sep: string, a: seq<string>, b: seq<string>)
    requires |a| >= 1 && |b| >= 1
    ensures Join(sep, a + b) == Join(sep, a) + sep + Join(sep, b)
    decreases |a|
  {
    if |a| == 1 {
      JoinCons(sep, a[0], b);
      assert a + b == [a[0]] + b;
    } else {
      assert a + b == [a[0]] + (a[1..] + b);
      JoinCons(sep, a[0], a[1..] + b);
      JoinConcat(sep, a[1..], b);
      JoinCons(sep, a[0], a[1..]);
      assert a == [a[0]] + a[1..];
    }
  }

  /** With a one-character separator, no piece contains that character. */
  lemma ExplodePiecesLackChar(sep: string, s: string)
    requires |sep| == 1
    ensures forall i | 0 <= i < |Explode(sep, s)| :: sep[0] !in Explode(sep, s)[i]
  {
    var parts := Explode(sep, s);
    ExplodePiecesFree(sep, s);
    forall i | 0 <= i < |parts|
      ensures sep[0] !in parts[i]
    {
      var p := parts[i];
      assert IndexOf(p, sep).None?;
      if sep[0] in p {
        var j :| 0 <= j < |p| && p[j] == sep[0];
        OccursAtChar(p, sep, j);
      }
    }
  }

  /** The last `sep`-separated segment (PHP's `end(explode($sep, $s))`). */
  function LastSegment(sep: string, s: string): string
    requires |sep| > 0
  {
    var parts := Explode(sep, s);
    parts[|parts| - 1]
  }

  /** The digit character for `d`. */
  function DigitChar(d: nat): char
    requires d < 10
  {
    ('0' as int + d) as char
  }

  predicate IsDigit(c: char) {
    '0' <= c <= '9'
  }

  /** The decimal representation of a natural number, without leading zeros. */
  function NatToString(n: nat): (s: string)
    ensures |s| >= 1
    ensures forall i | 0 <= i < |s| :: IsDigit(s[i])
    decreases n
  {
    if n < 10 then [DigitChar(n)] else NatToString(n / 10) + [DigitChar(n % 10)]
  }

  /** PHP's conversion of an integer to a string (`(string)$i`, `'x' . $i`). */
  function IntToString(i: int): string {
    if i < 0 then "-" + NatToString(-i) else NatToString(i)
  }

  /** Reads a string of decimal digits back as a number. */
  function ParseDigits(s: string): nat
    requires forall i | 0 <= i < |s| :: IsDigit(s[i])
    decreases |s|
  {
    if |s| == 0 then 0
    else
      assert IsDigit(s[|s| - 1]);
      ParseDigits(s[..|s| - 1]) * 10 + (s[|s| - 1] as int - '0' as int)
  }

  /** Printing a natural number and reading it back gives the number. */
  lemma {:induction false} ParseNatToString(n: nat)
    ensures ParseDigits(NatToString(n)) == n
    decreases n
  {
    if n >= 10 {
      ParseNatToString(n / 10);
      var s := NatToString(n);
      assert s[..|s| - 1] == NatToString(n / 10);
    }
  }

  predicate AllDigits(s: string) {
    forall i | 0 <= i < |s| :: IsDigit(s[i])
  }

  /** Reads an optionally signed decimal integer. */
  function ParseInt(s: string): Option<int> {
    if |s| > 0 && s[0] == '-' && AllDigits(s[1..]) then
      var n: int := ParseDigits(s[1..]);
      Some(-n)
    else if AllDigits(s) then Some(ParseDigits(s))
    else None
  }

  /** Printing an integer and reading it back gives the integer. */
  lemma ParseIntToString(i: int)
    ensures ParseInt(IntToString(i)) == Some(i)
  {
    if i < 0 {
      ParseNatToString(-i);
      assert IntToString(i)[1..] == NatToString(-i);
    } else {
      ParseNatToString(i);
      assert IsDigit(NatToString(i)[0]);
    }
  }

  /** Different integers print differently. */
  lemma IntToStringInjective(a: int, b: int)
    requires IntToString(a) == IntToString(b)
    ensures a == b
  {
    ParseIntToString(a);
    ParseIntToString(b);
  }
}

=== FILE: to_json_converter.dfy ===
/**
 * `ToJsonConverter`: turns a controller's value-object result (or a list of
 * them) into a JSON response whose Content-Type is negotiated from the
 * request's Accept and Content-Type headers.
 */
module ToJsonConverter {
  import opened Wrappers
  import opened Strings
  import opened PhpValues

  const JSON: string := "application/json"
  const LD_JSON: string := "application/ld+json"
  const UNSUPPORTED: string := "unsupported"
  const ANY_TYPE: string := "*/*"
  const ANY_APPLICATION: string := "application/*"

  const NULL_HEADER: string := "mb_strtolower(): Argument #1 ($string) must be of type string, null given"

  /**
   * The negotiation over the two lower-cased headers: a JSON prefix on
   * either wins, then the JSON-LD prefixes, else unsupported.
   */
  function Negotiate(accept: string, contentType: string): string {
    if StartsWith(accept, JSON) || StartsWith(contentType, JSON) then JSON
    else if StartsWith(accept, ANY_TYPE) || StartsWith(accept, ANY_APPLICATION)
         || StartsWith(accept, LD_JSON) || StartsWith(contentType, LD_JSON) then LD_JSON
    else UNSUPPORTED
  }

  /**
   * `getContentType`: with both headers absent the answer is JSON-LD; with
   * just one absent, lower-casing `null` is a type error.
   */
  function GetContentType(accept: Option<string>, contentType: Option<string>): (r: Result<string, Failure>)
    ensures r.Err? <==> accept.None? != contentType.None?
    ensures accept.None? && contentType.None? ==> r == Ok(LD_JSON)
    ensures r.Ok? ==> r.value == JSON || r.value == LD_JSON || r.value == UNSUPPORTED
  {
    if accept.None? && contentType.None? then Ok(LD_JSON)
    else if accept.None? || contentType.None? then Err(TypeError(NULL_HEADER))
    else Ok(Negotiate(Lower(accept.value), Lower(contentType.value)))
  }

  /** A case-insensitive `application/json` prefix on either header gives JSON, whatever the JSON-LD rules say. */
  lemma JsonPrefixWins(accept: string, contentType: string)
    requires StartsWith(Lower(accept), JSON) || StartsWith(Lower(contentType), JSON)
    ensures GetContentType(Some(accept), Some(contentType)) == Ok(JSON)
  {
  }

  /** JSON is chosen exactly when a lower-cased header starts with `application/json`. */
  lemma JsonIff(accept: string, contentType: string)
    ensures GetContentType(Some(accept), Some(contentType)) == Ok(JSON) <==>
      StartsWith(Lower(accept), JSON) || StartsWith(Lower(contentType), JSON)
  {
    assert JSON != LD_JSON by {
      assert JSON[12] != LD_JSON[12];
    }
    assert JSON != UNSUPPORTED by {
      assert JSON[0] != UNSUPPORTED[0];
    }
  }

  /** Anything else is unsupported: no JSON prefix and none of the four JSON-LD rules. */
  lemma UnsupportedIff(accept: string, contentType: string)
    ensures GetContentType(Some(accept), Some(contentType)) == Ok(UNSUPPORTED) <==>
      var a, c := Lower(accept), Lower(contentType);
      && !StartsWith(a, JSON) && !StartsWith(c, JSON)
      && !StartsWith(a, ANY_TYPE) && !StartsWith(a, ANY_APPLICATION) && !StartsWith(a, LD_JSON) && !StartsWith(c, LD_JSON)
  {
    assert UNSUPPORTED != JSON by {
      assert JSON[0] != UNSUPPORTED[0];
    }
    assert UNSUPPORTED != LD_JSON by {
      assert LD_JSON[0] != UNSUPPORTED[0];
    }
  }

  /** JSON-LD is chosen exactly when no JSON prefix is present and one of the JSON-LD prefixes is. */
  lemma LdJsonIff(accept: string, contentType: string)
    ensures GetContentType(Some(accept), Some(contentType)) == Ok(LD_JSON) <==>
      var a, c := Lower(accept), Lower(contentType);
      && !StartsWith(a, JSON) && !StartsWith(c, JSON)
      && (StartsWith(a, ANY_TYPE) || StartsWith(a, ANY_APPLICATION) || StartsWith(a, LD_JSON) || StartsWith(c, LD_JSON))
  {
  }

  /** Negotiation ignores letter case. */
  lemma NegotiationIgnoresCase(accept: string, contentType: string)
    ensures GetContentType(Some(Lower(accept)), Some(Lower(contentType))) == GetContentType(Some(accept), Some(contentType))
  {
    LowerIdempotent(accept);
    LowerIdempotent(contentType);
  }

  // `text/html` in Accept is unsupported, `*/*` is JSON-LD, and `Application/JSON` is JSON.
  lemma NegotiationExamples()
    ensures GetContentType(Some("text/html"), Some("")) == Ok(UNSUPPORTED)
    ensures GetContentType(Some("*/*"), Some("")) == Ok(LD_JSON)
    ensures GetContentType(Some("Application/JSON"), Some("")) == Ok(JSON)
  {
    assert Lower("Application/JSON") == JSON;
    assert Lower("*/*") == ANY_TYPE;
    assert Lower("text/html") == "text/html";
    assert "text/html"[..3][0] != ANY_TYPE[0];
  }

  /** A value object: an instance of a class implementing the marker interface. */
  predicate IsMarkerObject(v: Value) {
    v.Object? && v.isMarker
  }

  /** The gate of `onKernelView`: a marker object, or an array (possibly empty) holding only marker objects. */
  predicate Convertible(result: Value) {
    if result.Array? then forall i | 0 <= i < |result.entries| :: IsMarkerObject(result.entries[i].1)
    else IsMarkerObject(result)
  }

  /** The response set on the event: the serialized body and the Content-Type header. */
  datatype ViewResponse = ViewResponse(content: string, contentType: string)

  /**
   * `onKernelView`: `Ok(None)` when the event is left alone, `Ok(Some(_))`
   * when a response is set, `Err` when negotiation fails on a lone header.
   */
  function OnKernelView(result: Value, accept: Option<string>, contentType: Option<string>, serialize: Value -> string): (r: Result<Option<ViewResponse>, Failure>)
    ensures !Convertible(result) ==> r == Ok(None)
    ensures r.Ok? && r.value.Some? ==>
      && Convertible(result)
      && GetContentType(accept, contentType) == Ok(r.value.value.contentType)
      && r.value.value.contentType != UNSUPPORTED
      && r.value.value.content == serialize(result)
  {
    if !Convertible(result) then Ok(None)
    else
      var negotiated :- GetContentType(accept, contentType);
      if negotiated == UNSUPPORTED then Ok(None)
      else Ok(Some(ViewResponse(serialize(result), negotiated)))
  }

  /** A convertible result gets a response exactly when negotiation succeeds with a supported type. */
  lemma RespondsIff(result: Value, accept: Option<string>, contentType: Option<string>, serialize: Value -> string)
    requires Convertible(result)
    ensures OnKernelView(result, accept, contentType, serialize).Ok? && OnKernelView(result, accept, contentType, serialize).value.Some?
      <==> GetContentType(accept, contentType).Ok? && GetContentType(accept, contentType).value != UNSUPPORTED
  {
  }

  /** An empty array passes the gate: with no headers it is answered as JSON-LD. */
  lemma EmptyListConverted(serialize: Value -> string)
    ensures OnKernelView(Array([]), None, None, serialize) == Ok(Some(ViewResponse(serialize(Array([])), LD_JSON)))
  {
  }

  /** One non-marker element anywhere in an array keeps the whole result away from the converter. */
  lemma OneForeignElementBlocks(result: Value, i: nat, accept: Option<string>, contentType: Option<string>, serialize: Value -> string)
    requires result.Array? && i < |result.entries| && !IsMarkerObject(result.entries[i].1)
    ensures OnKernelView(result, accept, contentType, serialize) == Ok(None)
  {
  }
}

=== FILE: wrappers.dfy ===
/** Failure-compatible result types shared by every module of the model. */
module Wrappers {

  /** A value that may be absent: PHP's `null` or an array key that is not set. */
  datatype Option<+T> = None | Some(value: T) {

    /** Returns the value, or `default` when absent (PHP's `??`). */
    function GetOr(default: T): T {
      match this
      case Some(v) => v
      case None => default
    }
  }

  /** Either a value or the error that was raised instead of producing it. */
  datatype Result<+T, +E> = Ok(value: T) | Err(error: E) {

    predicate IsFailure() {
      Err?
    }

    function PropagateFailure<U>(): Result<U, E>
      requires Err?
    {
      Err(error)
    }

    function Extract(): T
      requires Ok?
    {
      value
    }
  }
}
